=== FILE: README.md ===
# Qatar Standard news site: a Dafny model of its logic

This project models the deterministic logic of the Qatar Standard news site.
The site publishes bilingual (Arabic and English) articles. The model covers:

- **Article ingest** (`POST /api/generate`): the request checks in their order
  (key, JSON, title), the field defaults, the slug, the degraded bodies used
  when the language-model expansion throws, and the first-segment excerpts.
- **The article store**: insert-or-ignore with read-back by slug, lookup by
  slug, newest-first queries with category filter and offset/limit paging,
  counts, the latest article, and delete by slug. Also the public
  (`/api/articles`) and admin (`/api/admin/articles`) endpoints over it.
- **The sliding-window rate limiter** with its periodic cleanup, the client IP
  rule, and the search endpoint that uses it.
- **The serialisers**: the XML escaping of the RSS feed and of the news
  sitemap (with decoding round trips), the feed's image URL absolutisation
  and item fallbacks, and the sitemap's 48-hour window and language choice.
- **The category tables** and the seeded fallback-image choice.
- **The maintenance scripts**: the markdown cleaner (`clean-articles.cjs`),
  the article audit (`audit-articles.cjs`) and the Arabic translation fix
  (`fix-somaliland.cjs`).
- **The analysis agent's decisions**: the twice-daily schedule gate, topic
  selection and de-duplication, and the image-result filter.
- **What the article card computes**: the relative-time buckets, markdown
  stripping, language fallbacks, category label, image visibility and
  placeholder gradient.

Every external effect is an input of the model: provider replies (a value, an
empty reply, or an exception), the clock, `Math.random`, `slugify`, date
parsing and formatting, and the admin session check. The database is an
immutable `Store` of rows. JavaScript's `a || b` on nullable text is
`Nullable.Or`, in which the empty string is falsy.

Regular-expression replacements (`/\*\*/g`, `/^#+\s*/gm`,
`/\*([^*]+)\*/g`, the section-header pattern, `/\n{3,}/g`) are written as
left-to-right scanners over the original string. So a multi-line `^` looks at
the original previous character, as the regular-expression engine does.

`published_at` is kept as text. SQLite orders text by its UTF-8 bytes, and
that order is the code-point order of `Collation.Le`. Collation proves that
order total, transitive and antisymmetric. Rows with equal dates may come
back in any order, so the query contracts state "sorted newest first and a
permutation of the matching rows" and never name one particular order.

Facts about the code that the model keeps as written:

- `createArticle` never writes `content_hash` or `source_url`, and the ingest
  route stores `image_url` without checking it.
- The excerpt is the text before the first terminator, although the code's
  comment says "first 2 sentences". `Generate.Excerpt` models the code.
- On the degraded path the bodies are never empty
  (`Generate.DegradedBodiesNonEmpty`). A completion that replies without
  content stores empty bodies (`Generate.EmptyReplyGivesEmptyBodies`).
- The ingest route calls OpenAI only. The one two-provider chain is the
  translation script's (`FixSomaliland.Translate`).

## Model

| member | source | states |
|---|---|---|
| Nullable.Or | app/api/generate/route.ts:102-104 | `a \|\| b` on nullable text: `a` when it is set and non-empty, `b` otherwise |
| Text.Trim | app/api/search/route.ts:13 | `trim` removes exactly the leading and trailing whitespace and leaves text that neither starts nor ends with it |
| Text.Utf16Length | app/api/search/route.ts:14 | `length` counts UTF-16 units: between one and two per character, exactly one per character when all lie in the Basic Multilingual Plane, and 2 for a single character outside it |
| Collation.LeTotal | lib/articles.ts:38 | any two `published_at` texts are comparable in the order `ORDER BY` uses |
| Collation.LeTransitive | lib/articles.ts:38 | that order is transitive |
| Collation.LeAntisymmetric | lib/articles.ts:38 | that order is antisymmetric, so only equal dates tie |
| Generate.ApiKey | app/api/generate/route.ts:7 | the expected key is `WEBSITE_API_KEY` when set and non-empty, else `qatar-standard-2024`; it is never empty |
| Generate.Credential | app/api/generate/route.ts:73 | the credential is a non-empty `x-api-key`; failing that, `Authorization` with its first `Bearer ` removed wherever it occurs, and unchanged when it has none; none when neither header is sent |
| Generate.ReplyText | app/api/generate/route.ts:49 | a completion's text is its content trimmed, or `''` when there is no content; it is always trimmed |
| Generate.ExpandToArticle | app/api/generate/route.ts:15-70 | the expansion throws exactly when the OpenAI key is unset or either call throws; otherwise the bodies are the two replies' texts, each trimmed |
| Generate.ArabicPromptOrigin | app/api/generate/route.ts:46 | the Arabic prompt's origin text is `tweet_ar`, else `tweet_en`, else the title |
| Generate.EnglishPromptOrigin | app/api/generate/route.ts:63 | the English prompt's origin text is `tweet_en`, else `tweet_ar`, else the title |
| Generate.PromptOriginsAgree | app/api/generate/route.ts:46-63 | with a non-empty title both origins are non-empty; they coincide unless both tweets are set |
| Generate.RandomSuffix | app/api/generate/route.ts:11 | the random suffix has at most 4 characters, all base-36 digits |
| Generate.MakeSlug | app/api/generate/route.ts:9-13 | the slug is `base-rand`: `base` is a non-empty prefix of at most 60 characters of the slugified title, or `article` when that is empty; the slug has at most 65 characters |
| Generate.Bodies | app/api/generate/route.ts:107-125 | the bodies are the expansion's pair; when it throws, `tweet_ar` or the title and `tweet_en` or the title |
| Generate.DegradedBodiesNonEmpty | app/api/generate/route.ts:121-125 | on the degraded path both bodies are non-empty and each is the request's own tweet or its title |
| Generate.EmptyReplyGivesEmptyBodies | app/api/generate/route.ts:49-69 | two replies without content give two empty bodies |
| Generate.Excerpt | app/api/generate/route.ts:127-129 | the excerpt is a trimmed prefix of the body with no terminator in it; it is the trimmed body when the body has no terminator |
| Generate.BuildArticle | app/api/generate/route.ts:102-147 | the stored fields: the category, title, source and date defaults, nulls for empty optional fields, the slug, both excerpts, and non-empty bodies on the degraded path |
| Generate.Post | app/api/generate/route.ts:72-150 | a wrong key gives 401, then bad JSON gives 400, a `null` body crashes with 500, then a missing title gives 400, each with the store unchanged; otherwise 201 with the slug built, and the article is inserted, stamped with the database clock, unless the slug was taken |
| Articles.FindBySlug | lib/articles.ts:44 | the lookup finds a row exactly when one has that slug, and the row it finds has it |
| Articles.GetArticleBySlug | lib/articles.ts:42-45 | `getArticleBySlug` returns null iff no row has the slug; in a valid store it returns the only such row |
| Articles.CreateArticle | lib/articles.ts:52-67 | insert-or-ignore: a new slug appends exactly one row with the next id; a taken slug leaves the store unchanged and returns the existing row; validity (unique slugs and ids) is preserved |
| Articles.RemoveSlug | app/api/admin/articles/route.ts:39 | `DELETE … WHERE slug = ?` keeps exactly the rows with another slug |
| Articles.RemoveSlugKeepsSlugsUnique | lib/db.ts:24 | deleting keeps slugs unique and removes exactly one row when the slug is present |
| Articles.RemoveSlugKeepsIds | lib/db.ts:23 | deleting keeps ids unique and below the next id |
| Articles.DeleteBySlug | app/api/admin/articles/route.ts:39-40 | the change count is 0 iff no row has the slug, and then the store is unchanged; otherwise only that row goes |
| Articles.Insert | lib/articles.ts:38 | inserting into a newest-first list keeps it newest first and adds exactly that row |
| Articles.SortDesc | lib/articles.ts:33-38 | `ORDER BY published_at DESC` yields a newest-first permutation of its input |
| Articles.CountArticles | lib/articles.ts:69-75 | the count is at most the row count, and is the row count when no category filter applies |
| Articles.CountInCategoryIsFilterLength | lib/articles.ts:71-74 | the count is the number of rows in the category |
| Articles.NewestFirst | lib/articles.ts:33 | the filtered rows, newest first, as a permutation of the rows that pass |
| Articles.Matching | lib/articles.ts:31-39 | the rows of the category (or all rows when the category is absent or `all`), newest first |
| Articles.GetArticles | lib/articles.ts:23-40 | `getArticles` returns the page at `offset` (default 0) of at most `limit` (default 20) rows of some newest-first order of exactly the category's rows |
| Sequences.PageLength | lib/articles.ts:33-38 | `LIMIT limit OFFSET offset` keeps `limit` rows when that many follow the offset, else every row after it; none past the end; a negative limit is no limit |
| Sequences.Page | lib/articles.ts:33-38 | the page is the run of rows starting at the offset, of that length |
| Articles.FirstPageOfAll | lib/articles.ts:38 | without a category the query orders every stored row, and the first page is a page of that order |
| Articles.PageOfSorted | lib/articles.ts:38 | a page of a newest-first list is newest first and drawn from it |
| Articles.CountIsUnpagedQuery | lib/articles.ts:69-75 | `countArticles` is the length of the same query without paging, and that query holds the same rows |
| Articles.GetLatestArticle | lib/articles.ts:47-50 | the latest article is null iff the store is empty; otherwise it is a row no other row is newer than |
| ArticlesRoute.Get | app/api/articles/route.ts:6-16 | the limit is min(requested or 20, 100), the offset is requested or 0, the total is the unpaged count of the category, and the articles are that page of a newest-first order of the category's rows |
| ArticlesRoute.TotalIndependentOfPaging | app/api/articles/route.ts:12-15 | the total does not depend on limit or offset and counts every matching row |
| ArticlesRoute.NegativeLimitBypassesClamp | app/api/articles/route.ts:8 | with more than 100 matching rows, `limit=-1` returns every one of them |
| ArticlesRoute.ClampedLimit | app/api/articles/route.ts:8 | the corrected limit is between 0 and 100, and is the requested one when that is in range |
| ArticlesRoute.GetClamped | app/api/articles/route.ts:8-15 | the corrected endpoint never returns more than 100 rows, and keeps the same total |
| ArticlesRoute.ClampedAgreesOnNonNegativeLimits | app/api/articles/route.ts:8 | for every non-negative requested limit, the corrected endpoint answers exactly as the original does |
| AdminArticles.ProjectAll | app/api/admin/articles/route.ts:21 | one listed row per article, with the selected columns |
| AdminArticles.SearchPage | app/api/admin/articles/route.ts:19-21 | with a query, the page is the page at `offset` of at most `limit` rows of a newest-first order of exactly the rows whose English title, Arabic title or slug contains it |
| AdminArticles.AllPage | app/api/admin/articles/route.ts:24 | without a query, the page is the page at `offset` of at most `limit` rows of a newest-first order of every stored row |
| AdminArticles.List | app/api/admin/articles/route.ts:8-27 | 401 iff not authenticated; offset defaults to 0 and limit to 50; the total counts all matches, or all rows when `q` is empty |
| AdminArticles.UnsearchedIsPublicPage | app/api/admin/articles/route.ts:23-26 | without a query, the listing projects `getArticles`' page, and the total is the row count |
| AdminArticles.TotalIndependentOfPaging | app/api/admin/articles/route.ts:19-26 | the total does not depend on the page asked for |
| AdminArticles.Delete | app/api/admin/articles/route.ts:31-42 | 401 without a session; a `null` body crashes with 500; a body that is not JSON or has no slug gives 400; each leaves the store unchanged; 404 iff the slug is absent, with the store unchanged; otherwise exactly that slug's row is removed and every other row stays |
| AdminArticles.SlugOf | app/api/admin/articles/route.ts:35 | a body that is not JSON destructures as `{}` and has no slug; otherwise the body's own `slug` |
| RateLimit.Recent | lib/rate-limit.ts:17 | the recent timestamps are exactly those less than the window old |
| RateLimit.RateLimit | lib/rate-limit.ts:14-22 | refused iff the key already holds `max` recent timestamps; a refusal changes nothing; an acceptance stores the recent ones plus `now`; other keys are untouched |
| RateLimit.Cleanup | lib/rate-limit.ts:5-12 | the sweep drops timestamps at least 120 s old and the keys left empty |
| RateLimit.RecentNested | lib/rate-limit.ts:8-17 | the window filter after the sweep's filter is the window filter alone, when the sweep is no later than the window's start |
| RateLimit.CleanupTransparent | lib/rate-limit.ts:5-22 | with a window of at most 120 s, a sweep never changes a later call's answer |
| RateLimit.StepKeepsInvariant | lib/rate-limit.ts:5-22 | for a window of at most 120 s, one call or sweep keeps the stored list in step with the accepted calls, and keeps the bound |
| RateLimit.RunKeepsBound | lib/rate-limit.ts:14-22 | for a window of at most 120 s and a non-decreasing clock, no window holds more than `max` accepted calls after any run of calls and sweeps |
| RateLimit.AtMostMaxPerWindow | lib/rate-limit.ts:14-22 | for a window of at most 120 s, starting from a key with no history, any interval of one window length holds at most `max` accepted calls |
| RateLimit.GetClientIp | lib/rate-limit.ts:24-28 | the first comma-separated field of `x-forwarded-for`, trimmed; else `x-real-ip`; else `unknown` |
| Search.Get | app/api/search/route.ts:7-20 | 429 iff the limiter refuses `search:`+ip (30 per 60 000 ms); a short or missing query gives an empty list; otherwise the search for the trimmed query (limit 20), with `total` its length |
| Search.Key | app/api/search/route.ts:8-9 | the limiter key is `search:` followed by the client IP |
| Search.Query | app/api/search/route.ts:13 | the query is present iff `q` is, and then it is `q` trimmed, with nothing left to trim |
| Search.Searchable | app/api/search/route.ts:14 | a query is searched iff it is present and its trimmed text is at least 2 UTF-16 units long: two or more characters are searched, a single character only when it lies outside the Basic Multilingual Plane, a missing or blank query never |
| Search.ShortQueryConsumesSlot | app/api/search/route.ts:9-16 | a request that passes the limiter with a too-short query still records its timestamp |
| Search.AtMost30PerMinute | app/api/search/route.ts:8-11 | a client gets at most 30 searches through in any minute |
| Categories.TablesAgree | lib/categories.ts:3-29 | the Arabic and English tables have the same 10 keys, and `CATEGORY_KEYS` lists them without repetition |
| Categories.EveryCategoryHasPool | lib/categories.ts:32-93 | every category has a non-empty pool of curated images, and no other key has one |
| Categories.LegacyTableIsSubset | lib/articles.ts:77-86 | the older label table is the Arabic table without `iran` and `africa` |
| Categories.GetDefaultImage | lib/categories.ts:100-109 | with a pool, the image is in it, at `\|seed\| mod \|pool\|` when seeded; without one, the bot fallback iff the source is `bot`, else the site logo |
| Categories.RandomIndex | lib/categories.ts:105 | the unseeded index is within the pool |
| Categories.SeedIsStable | lib/categories.ts:103-104 | a seeded choice ignores the random draw and the seed's sign |
| Xml.FeedEscapeIsPerChar | app/feed.xml/route.ts:8-15 | the five chained replacements, `&` first, equal replacing each character by its entity |
| Xml.FeedRoundTrip | app/feed.xml/route.ts:9-14 | decoding the feed's escaping returns the input exactly |
| Xml.FeedEscapeIsSafe | app/feed.xml/route.ts:8-15 | the output has no `<`, `>`, `"` or `'`, and every `&` begins an entity |
| Xml.SitemapEscapeIsPerChar | app/news-sitemap.xml/route.ts:8-14 | the sitemap's four replacements equal a per-character escaping that keeps `'` |
| Xml.SitemapRoundTrip | app/news-sitemap.xml/route.ts:9-13 | decoding the sitemap's escaping returns the input exactly |
| Xml.SitemapEscapeIsSafe | app/news-sitemap.xml/route.ts:8-14 | the output has no `<`, `>` or `"`; every `&` begins an entity; null becomes `''`; apostrophes stay |
| Feed.AbsoluteImageUrl | app/feed.xml/route.ts:25-27 | an image URL starting with `/` gets the site prefixed; others are kept; an empty or null one gives no image |
| Feed.AbsoluteImageUrlIdempotent | app/feed.xml/route.ts:25-27 | absolutising an absolute URL changes nothing |
| Feed.ItemOf | app/feed.xml/route.ts:20-41 | the item's title decodes to `title_en \|\| title_ar`, its description to `excerpt_en \|\| excerpt_ar \|\| ''`; link and guid are the article URL; the media tag appears iff there is an image URL |
| Feed.ItemsOf | app/feed.xml/route.ts:20 | one item per article, in order |
| Feed.FeedArticles | app/feed.xml/route.ts:18 | the feed's articles are the first 20 (or all, when fewer are stored) of some newest-first order of every stored row |
| Feed.Items | app/feed.xml/route.ts:17-41 | at most 20 items, each the item of a stored article |
| Feed.ItemsAreFeedItems | app/feed.xml/route.ts:18-41 | the item at each position is the item of the feed's article at that position, so the items follow the first 20 of a newest-first order of the store |
| NewsSitemap.Language | app/news-sitemap.xml/route.ts:24 | `en` iff `title_en` is non-empty, otherwise `ar` |
| NewsSitemap.IsFresh | app/news-sitemap.xml/route.ts:18-20 | an article is fresh iff its date parses to a time less than 48 hours before now |
| NewsSitemap.EntryOf | app/news-sitemap.xml/route.ts:22-36 | an entry's location is the article URL, and its title decodes to `title_en \|\| title_ar` |
| NewsSitemap.Listed | app/news-sitemap.xml/route.ts:18-20 | the fresh articles among the first 1000 of some newest-first order of every stored row, in that order |
| NewsSitemap.FilterKeepsSorted | app/news-sitemap.xml/route.ts:19-20 | filtering a newest-first list keeps it newest first |
| NewsSitemap.ListedIffFresh | app/news-sitemap.xml/route.ts:18-20 | in a store of at most 1000 articles, an article is listed iff it is fresh |
| NewsSitemap.Entries | app/news-sitemap.xml/route.ts:16-37 | one entry per listed article, in that order: the fresh ones among the first 1000 of a newest-first order of the store |
| Cleaner.RemovePairsNoDoubleStar | clean-articles.cjs:7 | removing every `**` leaves no `**` |
| Cleaner.RemovePairsKeepsClean | clean-articles.cjs:7 | text without `**` is left unchanged |
| Cleaner.HeadingsNoDoubleStar | clean-articles.cjs:8 | removing heading marks never creates a `**` |
| Cleaner.HeadingsKeepsClean | clean-articles.cjs:8 | text with no `#` at a line start is left unchanged |
| Cleaner.EmphasisNoDoubleStar | clean-articles.cjs:9 | unwrapping `*x*` spans never creates a `**` |
| Cleaner.EmphasisSpan | clean-articles.cjs:9 | `*x*`, with `x` non-empty and star-free, becomes `x` |
| Cleaner.EmphasisKeepsClean | clean-articles.cjs:9 | star-free text is left unchanged |
| Cleaner.LastLineEnd | clean-articles.cjs:10 | the backtracking point of `[:\s]*$` is the last line end it can reach |
| Cleaner.SectionsNoDoubleStar | clean-articles.cjs:10 | removing section-header lines never creates a `**` |
| Cleaner.NewlinesNoTriple | clean-articles.cjs:11 | collapsing newline runs leaves no three newlines in a row |
| Cleaner.NewlinesNoDoubleStar | clean-articles.cjs:11 | collapsing newline runs never creates a `**` |
| Cleaner.NewlinesKeepsClean | clean-articles.cjs:11 | text without three newlines in a row is left unchanged |
| Cleaner.TrimKeeps | clean-articles.cjs:12 | trimming keeps both properties |
| Cleaner.Clean | clean-articles.cjs:4-5 | a falsy value is returned as it is; text is cleaned |
| Cleaner.CleanTextProperties | clean-articles.cjs:6-12 | cleaned text has no `**`, no three newlines in a row, and no surrounding whitespace |
| Cleaner.RewriteWhere | clean-articles.cjs:16-28 | each row that needs it is rewritten and every other row is kept; the counter is the number rewritten |
| Cleaner.CleanAll | clean-articles.cjs:15-29 | a row is rewritten, with all six fields cleaned, iff `body_en`, `body_ar` or `title_en` changes; `updated` counts those rows |
| Audit.SplitGivesWords | audit-articles.cjs:9-10 | splitting trimmed non-empty text on whitespace runs gives non-empty, space-free words |
| Audit.SplitCons | audit-articles.cjs:9-10 | a word, a space and more text split into that word followed by the rest's words |
| Audit.WordCount | audit-articles.cjs:9-10 | the word count is at least 1 |
| Audit.BlankCountsOne | audit-articles.cjs:9-10 | an empty or blank body counts as one word |
| Audit.WordCountCountsWords | audit-articles.cjs:9-10 | otherwise it is the number of whitespace-separated words |
| Audit.Optional | audit-articles.cjs:12-19 | a check adds its problem iff it fails |
| Audit.Listed | audit-articles.cjs:12-19 | the list holds exactly the problems whose checks fail |
| Audit.Problems | audit-articles.cjs:12-15 | EN short iff `body_en` is empty or under 50 words; AR short iff `body_ar` is empty or under 20; no image iff `image_url` is empty; curated iff it contains `/curated/` |
| Audit.ContentProblems | audit-articles.cjs:16-19 | markdown iff `body_en` contains `**`; introduction iff a line starts with the word `Introduction`; body = title iff equal or under 30 words; refusal iff the lower-cased body contains `i cannot` or `i'm sorry` |
| Audit.NoProblemsIffAllPass | audit-articles.cjs:21-22 | an article has issues iff some check fails |
| Audit.ImageProblemsExclusive | audit-articles.cjs:14-15 | `no image` and `curated image` never occur together |
| Audit.VeryShortReportedTwice | audit-articles.cjs:12-18 | an English body under 30 words is reported both as too short and as body = title |
| Audit.MissingBodyIsIssue | audit-articles.cjs:12 | a missing English body is an issue, reported with a count of 1 |
| Audit.ContainsDoubleStar | audit-articles.cjs:16 | the markdown check is the cleaner's "no `**`" property negated |
| Audit.CleanedBodyHasNoMarkdown | audit-articles.cjs:16 | a body the cleaner produced never raises the markdown problem |
| Audit.AuditAll | audit-articles.cjs:5-31 | `issues` is the number of articles with a problem, at most the total, and 0 iff no article has a problem |
| AnalysisAgent.Step | analysis-agent.mjs:247-253 | the agent runs iff the hour is 6 or 12 and the (date, hour) slot is not the one recorded; a run records its slot first, otherwise the gate is unchanged |
| AnalysisAgent.GateHolds | analysis-agent.mjs:252-253 | once a slot is recorded, later ticks of that slot do not run |
| AnalysisAgent.AtMostOncePerSlot | analysis-agent.mjs:246-253 | with a non-decreasing clock, no two runs share a (date, hour) slot |
| AnalysisAgent.RunsAtScheduledHours | analysis-agent.mjs:247-250 | every run happens at hour 6 or 12 |
| AnalysisAgent.Selection | analysis-agent.mjs:277-289 | the selection is the filter's topics, or `[trends[0]]` when it picked none |
| AnalysisAgent.Considered | analysis-agent.mjs:295 | at most the first 2 selected topics are considered |
| AnalysisAgent.Draft | analysis-agent.mjs:294-322 | the drafted list only grows; each topic added was considered, not drafted before, had at least 2 news items and was posted; every such topic is added |
| AnalysisAgent.Run | analysis-agent.mjs:241-322 | an off-slot tick changes nothing; no trends means no drafts; at most 2 topics are added, each among the first 2 selected topics, new, with 2 or more news items and a successful post; every such topic among the first 2 is added |
| AnalysisAgent.FallbackToFirstTrend | analysis-agent.mjs:286-289 | when the filter picks nothing, only the first trend is considered, and it is drafted iff it qualifies |
| AnalysisAgent.FirstAcceptable | analysis-agent.mjs:118-121 | the first result whose `original \|\| thumbnail` starts with `http` and contains neither `gstatic` nor `google.com`; none iff no result qualifies |
| AnalysisAgent.SearchImage | analysis-agent.mjs:111-124 | null without a SerpAPI key or a reply; otherwise the first acceptable image |
| FixSomaliland.TrimContent | fix-somaliland.cjs:24 | `content?.trim()`: undefined stays undefined, text is trimmed |
| FixSomaliland.Translate | fix-somaliland.cjs:7-46 | an ok OpenAI reply (with its key set) decides; otherwise Groq (with its key set) decides, and its exception escapes; otherwise null |
| FixSomaliland.OpenAiFailureFallsThrough | fix-somaliland.cjs:8-26 | a throwing or non-ok OpenAI call gives the same outcome as no OpenAI key |
| FixSomaliland.GroqOnlyAfterOpenAi | fix-somaliland.cjs:24 | an ok OpenAI reply, even an empty one, decides whatever Groq would do |
| FixSomaliland.RejectsOnlyThroughGroq | fix-somaliland.cjs:27-44 | `translate` rejects iff OpenAI did not answer ok, Groq has a key, and Groq throws |
| FixSomaliland.ExcerptOf | fix-somaliland.cjs:52 | the excerpt is the first min(300, n) characters of the trimmed first segment of n characters, so it has no terminator |
| FixSomaliland.Fix | fix-somaliland.cjs:50-53 | the row is updated iff the translation is truthy, with that body and its excerpt |
| FixSomaliland.NoUpdateWithoutTranslation | fix-somaliland.cjs:45-51 | with neither key set the row is left unchanged |
| FixSomaliland.ExcerptOfPlainText | fix-somaliland.cjs:52 | a body without terminators gives its trimmed text cut to 300 characters |
| ArticleCard.LanguagesAgree | components/ArticleCard.tsx:15-24 | Arabic and English use the same thresholds and figures |
| ArticleCard.TimeAgo | components/ArticleCard.tsx:9-25 | for every difference, past or future: minutes iff under an hour, hours iff from an hour to under a day, days iff from a day to under a week, else the date; an invalid date shows the date. The hours and days shown are the whole units elapsed, as are the minutes from one minute on; under a minute shows 1 |
| ArticleCard.Buckets | components/ArticleCard.tsx:11-24 | for a past date, each figure shown is at least 1 and below the next unit |
| ArticleCard.FutureDateShowsNegativeMinutes | components/ArticleCard.tsx:10-21 | every future date shows its floored minute figure, which is negative, in both languages |
| ArticleCard.CleanMd | components/ArticleCard.tsx:59 | `cleanMd` leaves no `**` and no surrounding whitespace |
| ArticleCard.CleanMdOfPlainText | components/ArticleCard.tsx:59 | text without `*` or `#` is only trimmed |
| ArticleCard.Prefer | components/ArticleCard.tsx:60-61 | the reader's language, then the other one, then `''` |
| ArticleCard.Title | components/ArticleCard.tsx:60 | the reader's title if set, else the other language's, cleaned of markdown; `''` when neither is set |
| ArticleCard.Excerpt | components/ArticleCard.tsx:61 | the reader's excerpt if set, else the other language's, cleaned of markdown; `''` when neither is set |
| ArticleCard.TitleFollowsLanguage | components/ArticleCard.tsx:60 | an article with both titles shows each reader their own |
| ArticleCard.ArabicTitleFallback | components/ArticleCard.tsx:60 | without an English title, both readers see the Arabic one |
| ArticleCard.CategoryLabel | components/ArticleCard.tsx:62 | the language's label for a known category, else the category key |
| ArticleCard.HasImage | components/ArticleCard.tsx:66 | the image shows iff the URL is non-empty and has not failed to load |
| ArticleCard.Gradient | components/ArticleCard.tsx:41 | a category's own gradient, else the default one |
| ArticleCard.GradientCoverage | components/ArticleCard.tsx:28-41 | every category but `iran` has its own gradient; `iran` gets the default |

## Left out

- External calls (OpenAI, Groq, SerpAPI, Ghost, Playwright, `fetch`) are inputs: a reply, an empty reply, or an exception. Their prompts, timeouts and JSON shapes are not modelled.
- SQLite itself (pragmas, full-text search, migrations) is left out. Of `lib/db.ts` only the unique slug and the increasing id are kept.
- `slugify`, `Math.random`, `Date` parsing and formatting (`toUTCString`, `toISOString`, `toLocaleDateString`) are uninterpreted parameters. `Math.random().toString(36)` is modelled as base-36 text.
- `parseInt` is an `Option<int>` input: `None` for an absent parameter. A `NaN` from an unparsable one is not modelled.
- `AdminArticles.SearchPage`: SQL `LIKE` is modelled as a case-sensitive substring test. Its ASCII case folding and its `%` and `_` wildcards inside `q` are not modelled.
- `searchArticles` is not part of this model. The search endpoint takes it as a function parameter.
- `isAuthenticated` (cookie session) and `ghostJWT` (HMAC signing) are not modelled. Authentication is a boolean input.
- `Text.Lower` folds ASCII letters only, where JavaScript's `toLowerCase` folds all of Unicode. For the uses here the answer is the same. Only two non-ASCII characters lower-case to ASCII letters: U+212A becomes `k`, and U+0130 becomes `i` followed by U+0307. Neither can make or break a match of `i cannot` or `i'm sorry` in `Audit.ContentProblems`, since neither needle has a `k` and no needle has U+0307 after its `i`. The case-insensitive pattern of the section-header removal has no `u` flag, so it folds ASCII only too.
- `Text.Take` cuts by code points. JavaScript's `slice` cuts UTF-16 units, which differs for characters outside the Basic Multilingual Plane.
- Idempotence of `clean` is not claimed: `# # x` loses one `#` run per pass.
- The agent's timers (`setInterval`, the 30 s pause between posts), its file I/O (`loadDrafted`, `saveDrafted`), its trend scraper and its article writer are left out. The drafted list is a value, and the scraper's and filter's results are inputs. A `JSON.parse` result that is not an array is not modelled.
- Console output, the markup the routes render, and the page components are not modelled.
- Generate.Post: a body field of another JSON type than the one declared (a numeric `title`, say) is not modelled. Every field is text or absent; a non-string title would make `slugify` throw.
- AdminArticles.Delete: a non-string `slug` is not modelled; the slug is text or absent.
- Categories.GetDefaultImage: a category that names a property every JavaScript object inherits (`constructor`, `toString`, …) is not modelled. Such a lookup finds an inherited function, not a pool; for `constructor`, whose `length` is 1, the source returns `undefined`. The model treats every key outside the table as having no pool.
- ArticleCard.CategoryLabel: the same inherited keys are not modelled. There the source takes the inherited function as the label instead of the category key.
- ArticleCard.Gradient: the same inherited keys are not modelled. There the source uses the inherited function's text as the class name.
- Articles.SortDesc: `published_at` has `DATETIME` (numeric) affinity in SQLite. A value that looks like a number is stored as a number, and numbers sort after every text under `DESC`. The model keeps every date as text and orders it by `Collation.Le`.
- RateLimit.AtMostMaxPerWindow: the bound is proved for windows of at most 120 s only. With a longer window the periodic sweep forgets timestamps that are still inside it: with `max` 1 and a 600 s window, calls at 0 s and 140 s are both accepted when a sweep runs at 130 s. The only caller uses 60 s.
- Floating point appears only in `Math.random() * n` and is modelled with `real`.

## Findings

| source | as written | input that shows it | evidently intended | confidence | as-written member | corrected member |
|---|---|---|---|---|---|---|
| app/api/articles/route.ts:8 | `Math.min(parseInt(limit), 100)` lets a negative limit through, and SQLite reads a negative `LIMIT` as "no limit" | `GET /api/articles?limit=-1` against a store of more than 100 articles returns all of them | at most 100 articles per response | not executed | ArticlesRoute.NegativeLimitBypassesClamp | ArticlesRoute.GetClamped |

=== FILE: admin_articles.dfy ===
/**
  The admin article endpoints (app/api/admin/articles/route.ts): `GET` lists
  a page of articles, optionally searched by title or slug, with the total;
  `DELETE` removes one article by slug. Whether the session cookie is valid
  (`isAuthenticated`) is an input.

  `LIKE '%q%'` is modelled as plain substring containment: SQLite's ASCII
  case-insensitivity and the `%`/`_` wildcards inside `q` are not modelled.
 */
module AdminArticles {
  import opened Nullable
  import opened Text
  import opened Sequences
  import Articles

  const DefaultLimit: int := 50

  /** The columns the listing selects. */
  datatype Row = Row(id: int, slug: string, titleEn: Option<string>, titleAr: string,
                     source: string, publishedAt: string)

  function Project(a: Articles.Article): Row {
    Row(a.id, a.data.slug, a.data.titleEn, a.data.titleAr, a.data.source, a.data.publishedAt)
  }

  function ProjectAll(s: seq<Articles.Article>): (r: seq<Row>)
    ensures |r| == |s|
    ensures forall k :: 0 <= k < |s| ==> r[k] == Project(s[k])
  {
    if |s| == 0 then [] else [Project(s[0])] + ProjectAll(s[1..])
  }

  /** `title_en LIKE ? OR title_ar LIKE ? OR slug LIKE ?` with `%q%`; a null
      `title_en` matches nothing. */
  predicate MatchesQuery(a: Articles.Article, q: string) {
    || (a.data.titleEn.Some? && Contains(a.data.titleEn.value, q))
    || Contains(a.data.titleAr, q)
    || Contains(a.data.slug, q)
  }

  function QueryFilter(q: string): Articles.Article -> bool {
    a => MatchesQuery(a, q)
  }

  datatype ListResponse = ListUnauthorized | Listing(rows: seq<Row>, total: nat)

  /** The page of a search for `q`, newest first. */
  function SearchPage(st: Articles.Store, q: string, limit: int, offset: int): (r: seq<Articles.Article>)
    ensures Articles.SortedDesc(r)
    ensures |r| == PageLength(Count(st.rows, QueryFilter(q)), limit, offset)
    ensures forall k :: 0 <= k < |r| ==> r[k] in st.rows && MatchesQuery(r[k], q)
    ensures exists all :: Articles.QueryOrder(all, st.rows, QueryFilter(q)) && r == Page(all, limit, offset)
  {
    var all := Articles.NewestFirst(st.rows, QueryFilter(q));
    Articles.PageOfSorted(all, limit, offset);
    assert Articles.QueryOrder(all, st.rows, QueryFilter(q));
    Page(all, limit, offset)
  }

  /** The page of all articles, newest first. */
  function AllPage(st: Articles.Store, limit: int, offset: int): (r: seq<Articles.Article>)
    ensures Articles.SortedDesc(r)
    ensures |r| == PageLength(|st.rows|, limit, offset)
    ensures forall k :: 0 <= k < |r| ==> r[k] in st.rows
    ensures r == Articles.GetArticles(st, Some(limit), Some(offset), None)
    ensures exists all :: Articles.SortedDesc(all) && multiset(all) == multiset(st.rows)
                          && r == Page(all, limit, offset)
  {
    Articles.CountIsUnpagedQuery(st, None);
    FilterAll(st.rows, Articles.CategoryFilter(None));
    var all := Articles.Matching(st, None);
    assert Articles.SortedDesc(all) && multiset(all) == multiset(st.rows);
    Articles.GetArticles(st, Some(limit), Some(offset), None)
  }

  /** `GET`: `offset` defaults to 0, `limit` to 50, `q` to ''. Without `q`
      the page is of all articles and the total their number; with `q` both
      are restricted to the articles matching it. */
  function List(st: Articles.Store, authenticated: bool, offsetParam: Option<int>,
                limitParam: Option<int>, q: Option<string>): (r: ListResponse)
    ensures !authenticated <==> r.ListUnauthorized?
    ensures r.Listing? ==>
      var limit := if limitParam.Some? then limitParam.value else DefaultLimit;
      var offset := if offsetParam.Some? then offsetParam.value else 0;
      && |r.rows| == PageLength(r.total, limit, offset)
      && (!Truthy(q) ==> r.total == |st.rows| && r.rows == ProjectAll(AllPage(st, limit, offset)))
      && (Truthy(q) ==> r.total == Count(st.rows, QueryFilter(q.value))
                        && r.rows == ProjectAll(SearchPage(st, q.value, limit, offset)))
  {
    if !authenticated then ListUnauthorized
    else
      var limit := if limitParam.Some? then limitParam.value else DefaultLimit;
      var offset := if offsetParam.Some? then offsetParam.value else 0;
      var query := Or(q, "");
      if query != "" then
        Listing(ProjectAll(SearchPage(st, query, limit, offset)), Count(st.rows, QueryFilter(query)))
      else
        Listing(ProjectAll(AllPage(st, limit, offset)), |st.rows|)
  }

  /** Without a search the listing is the projection of the public page of
      all articles: newest first, with the same paging. */
  lemma UnsearchedIsPublicPage(st: Articles.Store, offset: int, limit: int)
    ensures List(st, true, Some(offset), Some(limit), None)
         == Listing(ProjectAll(Articles.GetArticles(st, Some(limit), Some(offset), None)), |st.rows|)
  {
  }

  /** The total counts every match, whatever page is asked for. */
  lemma TotalIndependentOfPaging(st: Articles.Store, o1: Option<int>, l1: Option<int>,
                                 o2: Option<int>, l2: Option<int>, q: Option<string>)
    ensures List(st, true, o1, l1, q).total == List(st, true, o2, l2, q).total
  {
  }

  datatype DeleteResponse =
    | DeleteUnauthorized        // 401
    | DeleteCrashed             // 500: destructuring `null` throws
    | SlugRequired              // 400
    | NotFound                  // 404
    | Deleted(slug: string)     // 200 { success, deleted }

  /** What `req.json().catch(() => ({}))` yields: a rejected parse becomes the
      empty object, so its `slug` is absent; the literal `null` cannot be
      destructured; otherwise the object's `slug` field, if any. */
  datatype DeleteBody = NotJson | NullBody | Fields(slug: Option<string>)

  /** The `slug` the handler destructures, for the bodies that have fields. */
  function SlugOf(body: DeleteBody): (slug: Option<string>)
    requires !body.NullBody?
    ensures body.NotJson? ==> slug.None?
    ensures body.Fields? ==> slug == body.slug
  {
    if body.NotJson? then None else body.slug
  }

  /** `DELETE`. */
  function Delete(st: Articles.Store, authenticated: bool, body: DeleteBody): (r: (DeleteResponse, Articles.Store))
    ensures !authenticated ==> r == (DeleteUnauthorized, st)
    ensures authenticated && body.NullBody? ==> r == (DeleteCrashed, st)
    ensures authenticated && !body.NullBody? && !Truthy(SlugOf(body)) ==> r == (SlugRequired, st)
    ensures authenticated && body.Fields? && Truthy(body.slug) ==>
      && (r.0 == NotFound <==> !Articles.HasSlug(st.rows, body.slug.value))
      && (r.0.NotFound? ==> r.1 == st)
      && (!r.0.NotFound? ==> r.0 == Deleted(body.slug.value))
    ensures r.0.Deleted? ==>
      && r.1.nextId == st.nextId
      && !Articles.HasSlug(r.1.rows, r.0.slug)
      && (forall a :: a in st.rows && a.data.slug != r.0.slug ==> a in r.1.rows)
      && (forall a :: a in r.1.rows ==> a in st.rows)
      && (Articles.Valid(st) ==> Articles.Valid(r.1) && |r.1.rows| == |st.rows| - 1)
  {
    if !authenticated then (DeleteUnauthorized, st)
    else if body.NullBody? then (DeleteCrashed, st)
    else
      var slug := SlugOf(body);
      if !Truthy(slug) then (SlugRequired, st)
      else
        var d := Articles.DeleteBySlug(st, slug.value);
        if d.1 == 0 then (NotFound, st) else (Deleted(slug.value), d.0)
  }
}

=== FILE: analysis_agent.dfy ===
/**
  The analysis agent (analysis-agent.mjs): a timer calls `runAnalysisAgent`,
  which runs at most once per scheduled UTC hour per day, picks at most two
  trending topics and posts a draft for each topic it has not drafted yet.

  Trending topics, the topic filter's reply, the news search, article
  writing, the image search and the Ghost post are external calls; each
  appears here as an input.
 */
module AnalysisAgent {
  import opened Nullable
  import opened Text
  import Collation

  const ScheduleHours: seq<int> := [6, 12]
  const MaxPerRun: nat := 2

  // ---------------------------------------------------------------------------
  // The schedule gate

  /** The clock as the gate reads it: the `YYYY-MM-DD` UTC date and the UTC hour. */
  datatype Tick = Tick(date: string, hour: int)

  /** `lastRunDate` and `lastRunHour`. */
  datatype Gate = Gate(lastDate: string, lastHour: int)

  const InitialGate: Gate := Gate("", -1)

  /** `SCHEDULE_UTC_HOURS.some(h => utcHour === h && !(lastRunDate === dateStr && lastRunHour === h))`. */
  predicate ShouldRun(g: Gate, t: Tick) {
    exists k :: 0 <= k < |ScheduleHours| && t.hour == ScheduleHours[k]
      && !(g.lastDate == t.date && g.lastHour == ScheduleHours[k])
  }

  /** One call of `runAnalysisAgent` as far as the gate goes: the slot is
      recorded before any other work. */
  function Step(g: Gate, t: Tick): (r: (bool, Gate))
    ensures r.0 <==> (t.hour == 6 || t.hour == 12) && !(g.lastDate == t.date && g.lastHour == t.hour)
    ensures r.0 ==> r.1 == Gate(t.date, t.hour)
    ensures !r.0 ==> r.1 == g
  {
    if ShouldRun(g, t) then (true, Gate(t.date, t.hour))
    else
      assert ScheduleHours[0] == 6 && ScheduleHours[1] == 12;
      (false, g)
  }

  /** Which calls of a sequence of calls run. */
  function Ran(g: Gate, ticks: seq<Tick>): (r: seq<bool>)
    ensures |r| == |ticks|
    decreases |ticks|
  {
    if |ticks| == 0 then []
    else
      var (run, next) := Step(g, ticks[0]);
      [run] + Ran(next, ticks[1..])
  }

  /** `a` is no later than `b`: ISO dates order as strings do. */
  predicate TickLe(a: Tick, b: Tick) {
    (a.date == b.date && a.hour <= b.hour) || (a.date != b.date && Collation.Le(a.date, b.date))
  }

  /** The clock never goes back. */
  predicate NonDecreasing(ticks: seq<Tick>) {
    forall i, j :: 0 <= i < j < |ticks| ==> TickLe(ticks[i], ticks[j])
  }

  lemma TickAntisymmetric(a: Tick, b: Tick)
    requires TickLe(a, b) && TickLe(b, a)
    ensures a == b
  {
    if a.date != b.date {
      Collation.LeAntisymmetric(a.date, b.date);
    }
  }

  /** Once slot `s` is recorded and the clock is at or past it, no later
      call runs in slot `s`. */
  lemma {:induction false} GateHolds(g: Gate, ticks: seq<Tick>, s: Tick)
    requires g == Gate(s.date, s.hour)
    requires NonDecreasing(ticks)
    requires forall k :: 0 <= k < |ticks| ==> TickLe(s, ticks[k])
    ensures forall k :: 0 <= k < |ticks| && Ran(g, ticks)[k] ==> ticks[k] != s
  {
    if |ticks| > 0 {
      var r := Ran(g, ticks);
      if ticks[0] == s {
        assert !Step(g, ticks[0]).0;
        GateHolds(g, ticks[1..], s);
        forall k | 0 <= k < |ticks| && r[k] ensures ticks[k] != s {
          if k > 0 { assert r[k] == Ran(g, ticks[1..])[k - 1]; }
        }
      } else {
        forall k | 0 <= k < |ticks| ensures ticks[k] != s {
          if k > 0 && ticks[k] == s {
            TickAntisymmetric(ticks[0], s);
          }
        }
      }
    }
  }

  /** With a clock that never goes back, the agent runs at most once per
      scheduled hour per day: no two runs share a (date, hour) slot. */
  lemma {:induction false} AtMostOncePerSlot(g: Gate, ticks: seq<Tick>)
    requires NonDecreasing(ticks)
    ensures forall i, j :: 0 <= i < j < |ticks| && Ran(g, ticks)[i] && Ran(g, ticks)[j] ==> ticks[i] != ticks[j]
    decreases |ticks|
  {
    if |ticks| > 0 {
      var (run, next) := Step(g, ticks[0]);
      var rest := ticks[1..];
      var r := Ran(g, ticks);
      assert r == [run] + Ran(next, rest);
      AtMostOncePerSlot(next, rest);
      if run {
        GateHolds(next, rest, ticks[0]);
      }
      forall i, j | 0 <= i < j < |ticks| && r[i] && r[j] ensures ticks[i] != ticks[j] {
        assert r[j] == Ran(next, rest)[j - 1] && ticks[j] == rest[j - 1];
        if i > 0 {
          assert r[i] == Ran(next, rest)[i - 1] && ticks[i] == rest[i - 1];
        }
      }
    }
  }

  /** Every run happens at a scheduled hour. */
  lemma {:induction false} RunsAtScheduledHours(g: Gate, ticks: seq<Tick>)
    ensures forall k :: 0 <= k < |ticks| && Ran(g, ticks)[k] ==> ticks[k].hour == 6 || ticks[k].hour == 12
    decreases |ticks|
  {
    if |ticks| > 0 {
      var (run, next) := Step(g, ticks[0]);
      RunsAtScheduledHours(next, ticks[1..]);
      var r := Ran(g, ticks);
      forall k | 0 <= k < |ticks| && r[k] ensures ticks[k].hour == 6 || ticks[k].hour == 12 {
        if k > 0 { assert r[k] == Ran(next, ticks[1..])[k - 1] && ticks[k] == ticks[1..][k - 1]; }
      }
    }
  }

  // ---------------------------------------------------------------------------
  // Topic selection and drafting

  /** The selection after the fallback: the filter's topics, or the first
      trend when the filter gave none (a failed filter call gives none). */
  function Selection(trends: seq<string>, filtered: seq<string>): (r: seq<string>)
    requires |trends| > 0
    ensures |r| > 0
    ensures forall k :: 0 <= k < |r| ==> r[k] in filtered || r[k] == trends[0]
    ensures |filtered| > 0 ==> r == filtered
  {
    if |filtered| == 0 then [trends[0]] else filtered
  }

  /** `selectedTopics.slice(0, MAX_PER_RUN)`. */
  function Considered(selected: seq<string>): (r: seq<string>)
    ensures |r| <= MaxPerRun
    ensures |r| == if |selected| < MaxPerRun then |selected| else MaxPerRun
    ensures forall k :: 0 <= k < |r| ==> r[k] == selected[k]
  {
    if |selected| <= MaxPerRun then selected else selected[..MaxPerRun]
  }

  /** A topic is drafted when it is not drafted yet, the news search finds
      at least two items and writing and posting the draft succeed. */
  predicate Drafts(drafted: seq<string>, t: string, newsCount: string -> nat, posted: string -> bool) {
    t !in drafted && newsCount(t) >= 2 && posted(t)
  }

  /** The loop over the considered topics: `newsCount(t)` is the number of
      news items found for `t` and `posted(t)` says whether writing and
      posting its draft both returned; the result is the new drafted list
      and `count`. */
  function Draft(drafted: seq<string>, topics: seq<string>, newsCount: string -> nat, posted: string -> bool): (r: (seq<string>, nat))
    ensures |drafted| <= |r.0| && r.0[..|drafted|] == drafted
    ensures |r.0| == |drafted| + r.1 && r.1 <= |topics|
    ensures forall k :: |drafted| <= k < |r.0| ==>
      r.0[k] in topics && Drafts(r.0[..k], r.0[k], newsCount, posted)
    ensures forall k :: 0 <= k < |topics| && Drafts(drafted, topics[k], newsCount, posted) ==> topics[k] in r.0
    decreases |topics|
  {
    if |topics| == 0 then (drafted, 0)
    else
      var t := topics[0];
      if Drafts(drafted, t, newsCount, posted) then
        var r := Draft(drafted + [t], topics[1..], newsCount, posted);
        assert (drafted + [t])[..|drafted|] == drafted;
        assert r.0[..|drafted|] == (r.0[..|drafted| + 1])[..|drafted|];
        (r.0, r.1 + 1)
      else Draft(drafted, topics[1..], newsCount, posted)
  }

  /** What a call changes: the gate and the drafted list. */
  datatype Agent = Agent(gate: Gate, drafted: seq<string>)

  /** `runAnalysisAgent`: `trends` is what the trend scraper returned and
      `filtered` the topics the filter call picked. */
  function Run(a: Agent, t: Tick, trends: seq<string>, filtered: seq<string>,
               newsCount: string -> nat, posted: string -> bool): (r: (Agent, nat))
    ensures !Step(a.gate, t).0 ==> r == (a, 0)
    ensures Step(a.gate, t).0 ==> r.0.gate == Gate(t.date, t.hour)
    ensures |trends| == 0 ==> r.0.drafted == a.drafted && r.1 == 0
    ensures |a.drafted| <= |r.0.drafted| && r.0.drafted[..|a.drafted|] == a.drafted
    ensures r.1 <= MaxPerRun && |r.0.drafted| == |a.drafted| + r.1
    ensures forall k :: |a.drafted| <= k < |r.0.drafted| ==>
      r.0.drafted[k] !in r.0.drafted[..k] && newsCount(r.0.drafted[k]) >= 2 && posted(r.0.drafted[k])
    ensures Step(a.gate, t).0 && |trends| > 0 ==>
      forall k :: |a.drafted| <= k < |r.0.drafted| ==> r.0.drafted[k] in Considered(Selection(trends, filtered))
    ensures Step(a.gate, t).0 && |trends| > 0 ==>
      forall x :: x in Considered(Selection(trends, filtered)) && Drafts(a.drafted, x, newsCount, posted) ==>
        x in r.0.drafted
  {
    var (run, gate) := Step(a.gate, t);
    if !run then (a, 0)
    else if |trends| == 0 then (Agent(gate, a.drafted), 0)
    else
      var topics := Considered(Selection(trends, filtered));
      var (drafted, count) := Draft(a.drafted, topics, newsCount, posted);
      (Agent(gate, drafted), count)
  }

  /** When the filter picks nothing, the first trend is the only topic
      considered, and it is drafted exactly when it qualifies. */
  lemma FallbackToFirstTrend(a: Agent, t: Tick, trends: seq<string>, newsCount: string -> nat, posted: string -> bool)
    requires Step(a.gate, t).0 && |trends| > 0
    ensures var r := Run(a, t, trends, [], newsCount, posted);
      r.0.drafted == a.drafted + (if Drafts(a.drafted, trends[0], newsCount, posted) then [trends[0]] else [])
  {
    var topics := Considered(Selection(trends, []));
    assert topics == [trends[0]];
    var r := Draft(a.drafted, topics, newsCount, posted);
    assert topics[1..] == [];
    if Drafts(a.drafted, trends[0], newsCount, posted) {
      assert r.0 == a.drafted + [trends[0]];
    }
  }

  // ---------------------------------------------------------------------------
  // The image search

  datatype ImageResult = ImageResult(original: Option<string>, thumbnail: Option<string>)

  /** `r.original || r.thumbnail`. */
  function Source(r: ImageResult): Option<string> {
    if Truthy(r.original) then r.original else r.thumbnail
  }

  /** The filter `searchImage` applies to a candidate URL. */
  predicate Acceptable(src: Option<string>) {
    src.Some? && StartsWith(src.value, "http") && !Contains(src.value, "gstatic") && !Contains(src.value, "google.com")
  }

  /** The result at `k` is the first with an acceptable source. */
  predicate FirstAcceptableAt(results: seq<ImageResult>, k: int) {
    0 <= k < |results| && Acceptable(Source(results[k]))
    && forall m :: 0 <= m < k ==> !Acceptable(Source(results[m]))
  }

  /** The first acceptable source among `results`. */
  function FirstAcceptable(results: seq<ImageResult>): (r: Option<string>)
    ensures r.None? <==> forall k :: 0 <= k < |results| ==> !Acceptable(Source(results[k]))
    ensures r.Some? ==> exists k :: FirstAcceptableAt(results, k) && r == Source(results[k])
  {
    if |results| == 0 then None
    else if Acceptable(Source(results[0])) then Source(results[0])
    else
      var r := FirstAcceptable(results[1..]);
      assert forall k :: 1 <= k < |results| ==> results[k] == results[1..][k - 1];
      if r.Some? then
        ghost var k :| FirstAcceptableAt(results[1..], k) && r == Source(results[1..][k]);
        assert FirstAcceptableAt(results, k + 1);
        r
      else r
  }

  /** `searchImage(query)`: no key gives null; `results` is the search's
      `images_results`, `None` when the request or its JSON failed. */
  function SearchImage(serpKey: string, results: Option<seq<ImageResult>>): (r: Option<string>)
    ensures serpKey == "" || results.None? ==> r.None?
    ensures r.Some? ==> StartsWith(r.value, "http") && !Contains(r.value, "gstatic") && !Contains(r.value, "google.com")
    ensures serpKey != "" && results.Some? ==> r == FirstAcceptable(results.value)
  {
    if serpKey == "" then None
    else match results
      case None => None
      case Some(rs) => FirstAcceptable(rs)
  }
}

=== FILE: article_card.dfy ===
/**
  What the article card (components/ArticleCard.tsx) computes before it
  renders: the relative time, the markdown-stripped title and excerpt in
  the reader's language, the category label, whether the image is shown
  and the placeholder gradient. The markup is not modelled.
 */
module ArticleCard {
  import opened Nullable
  import opened Text
  import Cleaner
  import Categories
  import Articles

  datatype Lang = Ar | En

  const MinuteMs: int := 60_000
  const HourMs: int := 3_600_000
  const DayMs: int := 86_400_000

  /** The figure `timeAgo` shows, or the absolute date it falls back to. */
  datatype Ago = Minutes(n: int) | Hours(n: int) | Days(n: int) | AbsoluteDate

  /** `timeAgo(dateStr, lang)` for `diff = Date.now() - new Date(dateStr)`;
      `None` stands for an invalid date, whose `NaN` fails every comparison.
      `Math.floor` of a quotient by a positive constant is Dafny's `/`. The
      two languages are written out separately, as in the component. */
  function TimeAgo(diff: Option<int>, lang: Lang): (r: Ago)
    ensures diff.None? ==> r == AbsoluteDate
    ensures diff.Some? ==> (r.Minutes? <==> diff.value < HourMs)
    ensures diff.Some? ==> (r.Hours? <==> HourMs <= diff.value < DayMs)
    ensures diff.Some? ==> (r.Days? <==> DayMs <= diff.value < 7 * DayMs)
    ensures diff.Some? ==> (r.AbsoluteDate? <==> 7 * DayMs <= diff.value)
    ensures diff.Some? && r.Hours? ==> r.n * HourMs <= diff.value < (r.n + 1) * HourMs
    ensures diff.Some? && r.Days? ==> r.n * DayMs <= diff.value < (r.n + 1) * DayMs
    ensures diff.Some? && r.Minutes? && diff.value >= MinuteMs ==>
      r.n * MinuteMs <= diff.value < (r.n + 1) * MinuteMs
    ensures diff.Some? && 0 <= diff.value < MinuteMs ==> r == Minutes(1)
  {
    match diff
    case None => AbsoluteDate
    case Some(d) =>
      DivBounds(d, MinuteMs, 60);
      DivBounds(d, HourMs, 24);
      DivBounds(d, DayMs, 7);
      FloorBounds(d, MinuteMs);
      FloorBounds(d, HourMs);
      FloorBounds(d, DayMs);
      var mins := d / MinuteMs;
      var hours := d / HourMs;
      var days := d / DayMs;
      if lang == Ar then
        if mins < 60 then Minutes(if mins != 0 then mins else 1)
        else if hours < 24 then Hours(hours)
        else if days < 7 then Days(days)
        else AbsoluteDate
      else
        if mins < 60 then Minutes(if mins != 0 then mins else 1)
        else if hours < 24 then Hours(hours)
        else if days < 7 then Days(days)
        else AbsoluteDate
  }

  /** Arabic and English use the same thresholds and figures. */
  lemma LanguagesAgree(diff: Option<int>)
    ensures TimeAgo(diff, Ar) == TimeAgo(diff, En)
  {
  }

  /** Every figure shown for a past date is at least 1 and below the next
      unit. */
  lemma Buckets(d: int, lang: Lang)
    requires d >= 0
    ensures TimeAgo(Some(d), lang).Minutes? ==> 1 <= TimeAgo(Some(d), lang).n < 60
    ensures TimeAgo(Some(d), lang).Hours? ==> 1 <= TimeAgo(Some(d), lang).n < 24
    ensures TimeAgo(Some(d), lang).Days? ==> 1 <= TimeAgo(Some(d), lang).n < 7
  {
    DivBounds(d, MinuteMs, 60);
    DivBounds(d, HourMs, 24);
    DivBounds(d, DayMs, 7);
    if d >= HourMs { DivAtLeastOne(d, HourMs); }
    if d >= DayMs { DivAtLeastOne(d, DayMs); }
  }

  /** `d / unit < n` exactly when `d < n * unit`. */
  lemma DivBounds(d: int, unit: int, n: int)
    requires unit > 0 && n > 0
    ensures d / unit < n <==> d < n * unit
  {
    if d / unit < n {
      assert d == unit * (d / unit) + d % unit;
      assert unit * (d / unit) <= unit * (n - 1);
    } else {
      assert d == unit * (d / unit) + d % unit;
      assert unit * (d / unit) >= unit * n;
    }
  }

  /** `Math.floor(d / unit)` is the number of whole units in `d`. */
  lemma FloorBounds(d: int, unit: int)
    requires unit > 0
    ensures (d / unit) * unit <= d < (d / unit + 1) * unit
  {
    assert d == unit * (d / unit) + d % unit;
  }

  lemma DivAtLeastOne(d: int, unit: int)
    requires unit > 0 && d >= unit
    ensures d / unit >= 1
  {
    assert d == unit * (d / unit) + d % unit;
  }

  /** A date in the future shows its minute figure, which is negative: only
      a figure of 0 becomes 1, and a floored negative quotient is never 0. */
  lemma FutureDateShowsNegativeMinutes(d: int, lang: Lang)
    requires d < 0
    ensures TimeAgo(Some(d), lang) == Minutes(d / MinuteMs)
    ensures TimeAgo(Some(d), lang).n < 0
  {
    assert d == MinuteMs * (d / MinuteMs) + d % MinuteMs;
  }

  // ---------------------------------------------------------------------------
  // Text

  /** `cleanMd`: every `**` removed, each leading run of `#` and the
      whitespace after it removed, then trimmed. These are the first two
      replacements of the clean-up script. */
  function CleanMd(s: string): (r: string)
    ensures Cleaner.NoDoubleStar(r)
    ensures Trim(r) == r
  {
    var a := Cleaner.RemovePairs(s);
    Cleaner.RemovePairsNoDoubleStar(s);
    Cleaner.HeadingsNoDoubleStar(a, 0);
    var b := Cleaner.Headings(a, 0);
    TrimKeepsNoDoubleStar(b);
    TrimIdempotent(b);
    Trim(b)
  }

  lemma TrimKeepsNoDoubleStar(s: string)
    requires Cleaner.NoDoubleStar(s)
    ensures Cleaner.NoDoubleStar(Trim(s))
  {
    var r := Trim(s);
    var a := LeadingSpaces(s);
    forall m | 0 <= m < |r| ensures !Cleaner.DoubleStarAt(r, m) {
      if m + 2 <= |r| {
        assert r[m] == s[a + m] && r[m + 1] == s[a + m + 1];
        assert !Cleaner.DoubleStarAt(s, a + m);
      }
    }
  }

  /** Plain text without `*` or heading marks is only trimmed. */
  lemma CleanMdOfPlainText(s: string)
    requires forall k :: 0 <= k < |s| ==> s[k] != '*' && s[k] != '#'
    ensures CleanMd(s) == Trim(s)
  {
    assert Cleaner.NoDoubleStar(s) by {
      forall k | 0 <= k < |s| ensures !Cleaner.DoubleStarAt(s, k) { }
    }
    Cleaner.RemovePairsKeepsClean(s);
    Cleaner.HeadingsKeepsClean(s, 0);
    assert s[0..] == s;
  }

  /** The reader's language first, then the other one, then `''`. */
  function Prefer(current: Option<string>, other: Option<string>): (r: string)
    ensures Truthy(current) ==> r == current.value
    ensures !Truthy(current) && Truthy(other) ==> r == other.value
    ensures !Truthy(current) && !Truthy(other) ==> r == ""
  {
    Or(current, Or(other, ""))
  }

  /** The title the card shows: the reader's language, else the other one,
      stripped of markdown. */
  function Title(a: Articles.Article, lang: Lang): (r: string)
    ensures Cleaner.NoDoubleStar(r) && Trim(r) == r
    ensures lang == Ar && a.data.titleAr != "" ==> r == CleanMd(a.data.titleAr)
    ensures lang == Ar && a.data.titleAr == "" && Truthy(a.data.titleEn) ==> r == CleanMd(a.data.titleEn.value)
    ensures lang == En && Truthy(a.data.titleEn) ==> r == CleanMd(a.data.titleEn.value)
    ensures lang == En && !Truthy(a.data.titleEn) ==> r == CleanMd(a.data.titleAr)
    ensures a.data.titleAr == "" && !Truthy(a.data.titleEn) ==> r == ""
  {
    var d := a.data;
    CleanMd(if lang == Ar then Prefer(Some(d.titleAr), d.titleEn) else Prefer(d.titleEn, Some(d.titleAr)))
  }

  /** The excerpt the card shows: the reader's language, else the other
      one, else nothing, stripped of markdown. */
  function Excerpt(a: Articles.Article, lang: Lang): (r: string)
    ensures Cleaner.NoDoubleStar(r) && Trim(r) == r
    ensures lang == Ar && Truthy(a.data.excerptAr) ==> r == CleanMd(a.data.excerptAr.value)
    ensures lang == En && Truthy(a.data.excerptEn) ==> r == CleanMd(a.data.excerptEn.value)
    ensures lang == Ar && !Truthy(a.data.excerptAr) && Truthy(a.data.excerptEn) ==> r == CleanMd(a.data.excerptEn.value)
    ensures lang == En && !Truthy(a.data.excerptEn) && Truthy(a.data.excerptAr) ==> r == CleanMd(a.data.excerptAr.value)
    ensures !Truthy(a.data.excerptAr) && !Truthy(a.data.excerptEn) ==> r == ""
  {
    var d := a.data;
    CleanMd(if lang == Ar then Prefer(d.excerptAr, d.excerptEn) else Prefer(d.excerptEn, d.excerptAr))
  }

  /** An article with titles in both languages shows each reader their own. */
  lemma TitleFollowsLanguage(a: Articles.Article)
    requires a.data.titleAr != "" && Truthy(a.data.titleEn)
    ensures Title(a, Ar) == CleanMd(a.data.titleAr)
    ensures Title(a, En) == CleanMd(a.data.titleEn.value)
  {
  }

  /** An article without an English title shows its Arabic title to both. */
  lemma ArabicTitleFallback(a: Articles.Article)
    requires !Truthy(a.data.titleEn)
    ensures Title(a, En) == Title(a, Ar)
  {
  }

  /** The category label: the table's entry, or the key itself. */
  function CategoryLabel(category: string, lang: Lang): (r: string)
    ensures lang == Ar && category in Categories.LabelsAr ==> r == Categories.LabelsAr[category]
    ensures lang == En && category in Categories.LabelsEn ==> r == Categories.LabelsEn[category]
    ensures lang == Ar && category !in Categories.LabelsAr ==> r == category
    ensures lang == En && category !in Categories.LabelsEn ==> r == category
  {
    var table := if lang == Ar then Categories.LabelsAr else Categories.LabelsEn;
    if category in table && table[category] != "" then table[category] else category
  }

  /** `hasImg`: a non-empty image URL whose load has not failed. */
  function HasImage(imageUrl: Option<string>, imgFailed: bool): (r: bool)
    ensures r <==> imageUrl.Some? && imageUrl.value != "" && !imgFailed
  {
    Truthy(imageUrl) && !imgFailed
  }

  // ---------------------------------------------------------------------------
  // Placeholder gradient

  const Gradients: map<string, string> := map[
    "palestine" := "from-red-900 to-red-950",
    "diplomacy" := "from-blue-800 to-blue-950",
    "gulf" := "from-teal-700 to-teal-950",
    "economy" := "from-emerald-700 to-emerald-950",
    "politics" := "from-amber-700 to-amber-950",
    "turkey" := "from-red-700 to-rose-950",
    "africa" := "from-green-700 to-green-950",
    "media" := "from-gray-700 to-gray-900",
    "general" := "from-slate-600 to-slate-900"]

  const DefaultGradient: string := "from-slate-700 to-slate-900"

  function Gradient(category: string): (r: string)
    ensures category in Gradients ==> r == Gradients[category]
    ensures category !in Gradients ==> r == DefaultGradient
  {
    if category in Gradients && Gradients[category] != "" then Gradients[category] else DefaultGradient
  }

  /** Every category but `iran` has a gradient of its own; `iran` and any
      unknown key get the default one. */
  lemma GradientCoverage()
    ensures forall k :: k in Gradients <==> k in Categories.LabelsEn && k != "iran"
    ensures Gradient("iran") == DefaultGradient
    ensures forall k :: k in Gradients ==> Gradient(k) != DefaultGradient
  {
  }
}

=== FILE: articles.dfy ===
/**
  The article store (lib/articles.ts over the `articles` table of lib/db.ts).

  The table is a sequence of rows in insertion order; `slug` is UNIQUE and
  `id` is an AUTOINCREMENT key. Writes are `INSERT OR IGNORE` followed by a
  read-back by slug; reads filter by category, order by `published_at`
  descending and page with `LIMIT`/`OFFSET`.
 */
module Articles {
  import opened Nullable
  import Collation
  import opened Sequences

  /** The columns `createArticle` writes: an article without `id` and `created_at`. */
  datatype ArticleData = ArticleData(
    slug: string,
    titleAr: string,
    titleEn: Option<string>,
    bodyAr: string,
    bodyEn: Option<string>,
    excerptAr: Option<string>,
    excerptEn: Option<string>,
    category: string,
    imageUrl: Option<string>,
    source: string,
    tweetAr: Option<string>,
    tweetEn: Option<string>,
    speakerName: Option<string>,
    speakerTitle: Option<string>,
    publishedAt: string)

  /** A stored row: the written columns plus the two the database assigns. */
  datatype Article = Article(id: int, createdAt: string, data: ArticleData)

  /** The table; `nextId` is the AUTOINCREMENT counter, which deletions never lower. */
  datatype Store = Store(rows: seq<Article>, nextId: int)

  predicate SlugsUnique(rows: seq<Article>) {
    forall i, j :: 0 <= i < j < |rows| ==> rows[i].data.slug != rows[j].data.slug
  }

  predicate IdsBelow(rows: seq<Article>, bound: int) {
    forall i :: 0 <= i < |rows| ==> rows[i].id < bound
  }

  predicate IdsUnique(rows: seq<Article>) {
    forall i, j :: 0 <= i < j < |rows| ==> rows[i].id != rows[j].id
  }

  /** The table's constraints: UNIQUE slug, a primary key, and a counter ahead of every id. */
  predicate Valid(st: Store) {
    SlugsUnique(st.rows) && IdsUnique(st.rows) && IdsBelow(st.rows, st.nextId)
  }

  const Empty: Store := Store([], 1)

  predicate HasSlug(rows: seq<Article>, slug: string) {
    exists i :: 0 <= i < |rows| && rows[i].data.slug == slug
  }

  // ---------------------------------------------------------------------------
  // Lookup by slug

  /** `SELECT * FROM articles WHERE slug = ?` (the first matching row). */
  function FindBySlug(rows: seq<Article>, slug: string): (r: Option<Article>)
    ensures r.None? <==> !HasSlug(rows, slug)
    ensures r.Some? ==> r.value in rows && r.value.data.slug == slug
  {
    if |rows| == 0 then None
    else if rows[0].data.slug == slug then Some(rows[0])
    else
      var r := FindBySlug(rows[1..], slug);
      assert HasSlug(rows, slug) ==> HasSlug(rows[1..], slug) by {
        if HasSlug(rows, slug) {
          var i :| 0 <= i < |rows| && rows[i].data.slug == slug;
          assert rows[1..][i - 1] == rows[i];
        }
      }
      r
  }

  /** `getArticleBySlug`: the row with that slug, or null. Under the UNIQUE
      constraint it is the only such row. */
  function GetArticleBySlug(st: Store, slug: string): (r: Option<Article>)
    ensures r.None? <==> !HasSlug(st.rows, slug)
    ensures r.Some? ==> r.value in st.rows && r.value.data.slug == slug
    ensures r.Some? && Valid(st) ==>
      forall a :: a in st.rows && a.data.slug == slug ==> a == r.value
  {
    FindBySlug(st.rows, slug)
  }

  // ---------------------------------------------------------------------------
  // Insert or ignore

  /** `createArticle`: `INSERT OR IGNORE` and read the row back by slug. The
      read-back is the existing row when the slug was taken, not the new data. */
  function CreateArticle(st: Store, data: ArticleData, now: string): (r: (Store, Article))
    ensures Valid(st) ==> Valid(r.0)
    ensures r.1 in r.0.rows && r.1.data.slug == data.slug
    ensures !HasSlug(st.rows, data.slug) ==>
      && r.0.rows == st.rows + [r.1]
      && r.1 == Article(st.nextId, now, data)
      && r.0.nextId == st.nextId + 1
    ensures HasSlug(st.rows, data.slug) ==>
      r.0 == st && Some(r.1) == GetArticleBySlug(st, data.slug)
  {
    var found := FindBySlug(st.rows, data.slug);
    if found.Some? then (st, found.value)
    else
      var row := Article(st.nextId, now, data);
      (Store(st.rows + [row], st.nextId + 1), row)
  }

  // ---------------------------------------------------------------------------
  // Delete by slug

  lemma HasSlugCons(rows: seq<Article>, slug: string)
    requires |rows| > 0
    ensures HasSlug(rows, slug) <==> rows[0].data.slug == slug || HasSlug(rows[1..], slug)
  {
    if HasSlug(rows, slug) && rows[0].data.slug != slug {
      var i :| 0 <= i < |rows| && rows[i].data.slug == slug;
      assert rows[1..][i - 1] == rows[i];
    }
    if HasSlug(rows[1..], slug) {
      var i :| 0 <= i < |rows[1..]| && rows[1..][i].data.slug == slug;
      assert rows[i + 1] == rows[1..][i];
    }
  }

  /** The rows whose slug is not `slug`, in order. */
  function RemoveSlug(rows: seq<Article>, slug: string): (r: seq<Article>)
    ensures forall a :: a in r <==> a in rows && a.data.slug != slug
    ensures !HasSlug(rows, slug) ==> r == rows
    ensures HasSlug(rows, slug) ==> |r| < |rows|
  {
    if |rows| == 0 then []
    else
      HasSlugCons(rows, slug);
      assert rows == [rows[0]] + rows[1..];
      (if rows[0].data.slug == slug then [] else [rows[0]]) + RemoveSlug(rows[1..], slug)
  }

  /** Any property of single rows that the kept rows all have before
      removal they still have after it; `RemoveSlug` only drops rows. */
  lemma RemoveSlugSubset(rows: seq<Article>, slug: string, k: nat)
    requires k < |RemoveSlug(rows, slug)|
    ensures exists m :: 0 <= m < |rows| && rows[m] == RemoveSlug(rows, slug)[k]
  {
    assert RemoveSlug(rows, slug)[k] in rows;
  }

  /** Removing the rows of one slug keeps slugs unique, and removes exactly
      one row when the slug was present. */
  lemma {:induction false} RemoveSlugKeepsSlugsUnique(rows: seq<Article>, slug: string)
    requires SlugsUnique(rows)
    ensures SlugsUnique(RemoveSlug(rows, slug))
    ensures HasSlug(rows, slug) ==> |RemoveSlug(rows, slug)| == |rows| - 1
  {
    if |rows| > 0 {
      HasSlugCons(rows, slug);
      TailSlugsUnique(rows);
      RemoveSlugKeepsSlugsUnique(rows[1..], slug);
      if rows[0].data.slug == slug {
        assert !HasSlug(rows[1..], slug);
      } else {
        var rest := RemoveSlug(rows[1..], slug);
        assert RemoveSlug(rows, slug) == [rows[0]] + rest;
        forall k | 0 <= k < |rest| ensures rest[k].data.slug != rows[0].data.slug {
          RemoveSlugSubset(rows[1..], slug, k);
          var m :| 0 <= m < |rows[1..]| && rows[1..][m] == rest[k];
          assert rows[m + 1] == rest[k];
        }
        ConsSlugsUnique(rows[0], rest);
      }
    }
  }

  lemma TailSlugsUnique(rows: seq<Article>)
    requires |rows| > 0 && SlugsUnique(rows)
    ensures SlugsUnique(rows[1..])
  {
    forall i, j | 0 <= i < j < |rows[1..]| ensures rows[1..][i].data.slug != rows[1..][j].data.slug {
      assert rows[1..][i] == rows[i + 1] && rows[1..][j] == rows[j + 1];
    }
  }

  lemma ConsSlugsUnique(x: Article, rest: seq<Article>)
    requires SlugsUnique(rest)
    requires forall k :: 0 <= k < |rest| ==> rest[k].data.slug != x.data.slug
    ensures SlugsUnique([x] + rest)
  {
    var r := [x] + rest;
    forall i, j | 0 <= i < j < |r| ensures r[i].data.slug != r[j].data.slug {
      if i > 0 { assert r[i] == rest[i - 1] && r[j] == rest[j - 1]; }
      else { assert r[j] == rest[j - 1]; }
    }
  }

  /** Removing rows keeps ids unique and below the counter. */
  lemma {:induction false} RemoveSlugKeepsIds(rows: seq<Article>, slug: string, bound: int)
    requires IdsUnique(rows) && IdsBelow(rows, bound)
    ensures IdsUnique(RemoveSlug(rows, slug)) && IdsBelow(RemoveSlug(rows, slug), bound)
  {
    RemoveSlugKeepsIdsUnique(rows, slug);
    var r := RemoveSlug(rows, slug);
    forall k | 0 <= k < |r| ensures r[k].id < bound {
      RemoveSlugSubset(rows, slug, k);
    }
  }

  lemma {:induction false} RemoveSlugKeepsIdsUnique(rows: seq<Article>, slug: string)
    requires IdsUnique(rows)
    ensures IdsUnique(RemoveSlug(rows, slug))
  {
    if |rows| > 0 {
      TailIdsUnique(rows);
      RemoveSlugKeepsIdsUnique(rows[1..], slug);
      if rows[0].data.slug != slug {
        var rest := RemoveSlug(rows[1..], slug);
        assert RemoveSlug(rows, slug) == [rows[0]] + rest;
        forall k | 0 <= k < |rest| ensures rest[k].id != rows[0].id {
          RemoveSlugSubset(rows[1..], slug, k);
          var m :| 0 <= m < |rows[1..]| && rows[1..][m] == rest[k];
          assert rows[m + 1] == rest[k];
        }
        ConsIdsUnique(rows[0], rest);
      }
    }
  }

  lemma TailIdsUnique(rows: seq<Article>)
    requires |rows| > 0 && IdsUnique(rows)
    ensures IdsUnique(rows[1..])
  {
    forall i, j | 0 <= i < j < |rows[1..]| ensures rows[1..][i].id != rows[1..][j].id {
      assert rows[1..][i] == rows[i + 1] && rows[1..][j] == rows[j + 1];
    }
  }

  lemma ConsIdsUnique(x: Article, rest: seq<Article>)
    requires IdsUnique(rest)
    requires forall k :: 0 <= k < |rest| ==> rest[k].id != x.id
    ensures IdsUnique([x] + rest)
  {
    var r := [x] + rest;
    forall i, j | 0 <= i < j < |r| ensures r[i].id != r[j].id {
      if i > 0 { assert r[i] == rest[i - 1] && r[j] == rest[j - 1]; }
      else { assert r[j] == rest[j - 1]; }
    }
  }

  /** `DELETE FROM articles WHERE slug = ?`, with the number of rows it removed
      (`result.changes`). */
  function DeleteBySlug(st: Store, slug: string): (r: (Store, nat))
    ensures r.0.nextId == st.nextId
    ensures forall a :: a in r.0.rows <==> a in st.rows && a.data.slug != slug
    ensures r.1 == 0 <==> !HasSlug(st.rows, slug)
    ensures r.1 == 0 ==> r.0 == st
    ensures Valid(st) ==> Valid(r.0) && r.1 <= 1 && |r.0.rows| == |st.rows| - r.1
  {
    var kept := RemoveSlug(st.rows, slug);
    if Valid(st) then
      RemoveSlugKeepsSlugsUnique(st.rows, slug);
      RemoveSlugKeepsIds(st.rows, slug, st.nextId);
      (Store(kept, st.nextId), |st.rows| - |kept|)
    else
      (Store(kept, st.nextId), |st.rows| - |kept|)
  }

  // ---------------------------------------------------------------------------
  // Ordering by published_at descending

  /** `a` comes no later than `b` in `ORDER BY published_at DESC`. */
  predicate NewerOrSame(a: Article, b: Article) {
    Collation.Le(b.data.publishedAt, a.data.publishedAt)
  }

  predicate SortedDesc(s: seq<Article>) {
    forall i, j :: 0 <= i < j < |s| ==> NewerOrSame(s[i], s[j])
  }

  /** Place `x` before the first row not newer than it. */
  function Insert(x: Article, s: seq<Article>): (r: seq<Article>)
    requires SortedDesc(s)
    ensures SortedDesc(r)
    ensures multiset(r) == multiset(s) + multiset{x}
  {
    if |s| == 0 then [x]
    else if NewerOrSame(x, s[0]) then
      forall j | 0 <= j < |s| ensures NewerOrSame(x, s[j]) {
        if j > 0 { Collation.LeTransitive(s[j].data.publishedAt, s[0].data.publishedAt, x.data.publishedAt); }
      }
      [x] + s
    else
      Collation.LeTotal(x.data.publishedAt, s[0].data.publishedAt);
      var rest := Insert(x, s[1..]);
      assert s == [s[0]] + s[1..];
      forall k | 0 <= k < |rest| ensures NewerOrSame(s[0], rest[k]) {
        assert rest[k] in multiset(rest);
        if rest[k] != x {
          assert rest[k] in multiset(s[1..]);
          var m :| 0 <= m < |s[1..]| && s[1..][m] == rest[k];
          assert s[m + 1] == rest[k];
        }
      }
      [s[0]] + rest
  }

  /** `ORDER BY published_at DESC`: a descending permutation. Rows with equal
      timestamps may come in any order in SQLite; this fixes one. */
  function SortDesc(s: seq<Article>): (r: seq<Article>)
    ensures SortedDesc(r)
    ensures multiset(r) == multiset(s)
  {
    if |s| == 0 then []
    else
      assert s == [s[0]] + s[1..];
      Insert(s[0], SortDesc(s[1..]))
  }

  // ---------------------------------------------------------------------------
  // Queries

  /** `category && category !== 'all'`: whether a category filter applies. */
  predicate FiltersCategory(category: Option<string>) {
    Truthy(category) && category.value != "all"
  }

  predicate InCategory(a: Article, category: Option<string>) {
    !FiltersCategory(category) || a.data.category == category.value
  }

  /** The `WHERE` clause of both category queries, as a row predicate. */
  function CategoryFilter(category: Option<string>): Article -> bool {
    (a: Article) => InCategory(a, category)
  }

  /** `countArticles(category)`: `SELECT COUNT(*)` with the same filter. */
  function CountArticles(st: Store, category: Option<string>): (n: nat)
    ensures n <= |st.rows|
    ensures !FiltersCategory(category) ==> n == |st.rows|
  {
    CountInCategory(st.rows, category)
  }

  function CountInCategory(rows: seq<Article>, category: Option<string>): (n: nat)
    ensures n <= |rows|
    ensures !FiltersCategory(category) ==> n == |rows|
  {
    if |rows| == 0 then 0
    else (if InCategory(rows[0], category) then 1 else 0) + CountInCategory(rows[1..], category)
  }

  lemma {:induction false} CountInCategoryIsFilterLength(rows: seq<Article>, category: Option<string>)
    ensures CountInCategory(rows, category) == |Filter(rows, CategoryFilter(category))|
  {
    if |rows| > 0 { CountInCategoryIsFilterLength(rows[1..], category); }
  }

  /** The rows satisfying `p`, newest first: `WHERE … ORDER BY published_at DESC`. */
  function NewestFirst(rows: seq<Article>, p: Article -> bool): (r: seq<Article>)
    ensures SortedDesc(r)
    ensures multiset(r) == multiset(Filter(rows, p))
    ensures |r| == Count(rows, p)
    ensures forall k :: 0 <= k < |r| ==> r[k] in rows && p(r[k])
  {
    var matching := Filter(rows, p);
    var sorted := SortDesc(matching);
    CountIsFilterLength(rows, p);
    assert |sorted| == |multiset(sorted)| == |matching|;
    forall k | 0 <= k < |sorted| ensures sorted[k] in matching {
      assert sorted[k] in multiset(sorted);
    }
    sorted
  }

  /** An order in which `WHERE p ORDER BY published_at DESC` may return the
      rows: each row that passes `p`, as often as it is stored, newest first.
      Rows with equal dates may come in any order, so there can be several. */
  predicate QueryOrder(all: seq<Article>, rows: seq<Article>, p: Article -> bool) {
    SortedDesc(all) && multiset(all) == multiset(Filter(rows, p))
  }

  /** The rows of the store in the category, newest first, before paging. */
  function Matching(st: Store, category: Option<string>): (r: seq<Article>)
    ensures SortedDesc(r)
    ensures multiset(r) == multiset(Filter(st.rows, CategoryFilter(category)))
    ensures |r| == CountArticles(st, category)
    ensures forall k :: 0 <= k < |r| ==> r[k] in st.rows && InCategory(r[k], category)
  {
    CountInCategoryIsFilterLength(st.rows, category);
    CountIsFilterLength(st.rows, CategoryFilter(category));
    NewestFirst(st.rows, CategoryFilter(category))
  }


  /** `getArticles({ limit = 20, offset = 0, category })`. The page holds rows
      of the store in the category, newest first, as many as the counted
      total leaves after `offset`, at most `limit`. */
  function GetArticles(st: Store, limit: Option<int>, offset: Option<int>, category: Option<string>)
    : (r: seq<Article>)
    ensures SortedDesc(r)
    ensures forall k :: 0 <= k < |r| ==> r[k] in st.rows && InCategory(r[k], category)
    ensures |r| == PageLength(CountArticles(st, category),
                              if limit.Some? then limit.value else 20,
                              if offset.Some? then offset.value else 0)
    ensures exists all :: QueryOrder(all, st.rows, CategoryFilter(category))
                          && r == Page(all, if limit.Some? then limit.value else 20,
                                            if offset.Some? then offset.value else 0)
  {
    var lim := if limit.Some? then limit.value else 20;
    var off := if offset.Some? then offset.value else 0;
    var all := Matching(st, category);
    PageOfSorted(all, lim, off);
    assert QueryOrder(all, st.rows, CategoryFilter(category));
    Page(all, lim, off)
  }

  lemma PageOfSorted(s: seq<Article>, limit: int, offset: int)
    requires SortedDesc(s)
    ensures SortedDesc(Page(s, limit, offset))
    ensures forall k :: 0 <= k < |Page(s, limit, offset)| ==> Page(s, limit, offset)[k] in s
  {
    var r := Page(s, limit, offset);
    forall i, j | 0 <= i < j < |r| ensures NewerOrSame(r[i], r[j]) {
      assert r[i] == s[Max(0, offset) + i] && r[j] == s[Max(0, offset) + j];
    }
  }

  /** Without a category the query orders the whole store, and the first
      page of `n` rows is a page of that order. */
  lemma FirstPageOfAll(st: Store, n: int)
    ensures QueryOrder(Matching(st, None), st.rows, CategoryFilter(None))
    ensures multiset(Matching(st, None)) == multiset(st.rows)
    ensures GetArticles(st, Some(n), None, None) == Page(Matching(st, None), n, 0)
  {
    FilterAll(st.rows, CategoryFilter(None));
  }

  /** The unpaged query returns every matching row: the count is its length,
      and it is a permutation of the matching rows. */
  lemma CountIsUnpagedQuery(st: Store, category: Option<string>)
    ensures CountArticles(st, category) == |GetArticles(st, Some(-1), Some(0), category)|
    ensures multiset(GetArticles(st, Some(-1), Some(0), category))
         == multiset(Filter(st.rows, CategoryFilter(category)))
  {
    var all := Matching(st, category);
    assert GetArticles(st, Some(-1), Some(0), category) == all;
  }

  /** `getLatestArticle`: the first row of `ORDER BY published_at DESC LIMIT 1`. */
  function GetLatestArticle(st: Store): (r: Option<Article>)
    ensures r.None? <==> |st.rows| == 0
    ensures r.Some? ==> r.value in st.rows
    ensures r.Some? ==> forall a :: a in st.rows ==> NewerOrSame(r.value, a)
  {
    var sorted := SortDesc(st.rows);
    if |sorted| == 0 then
      assert |multiset(st.rows)| == 0;
      None
    else
      assert sorted[0] in multiset(sorted);
      forall a | a in st.rows ensures NewerOrSame(sorted[0], a) {
        assert a in multiset(sorted);
        var k :| 0 <= k < |sorted| && sorted[k] == a;
        if k == 0 { Collation.LeReflexive(a.data.publishedAt); }
      }
      Some(sorted[0])
  }
}

=== FILE: articles_route.dfy ===
/**
  `GET /api/articles` (app/api/articles/route.ts): the public listing, a page
  of the article store plus the unpaged count for the same category.

  Query parameters arrive already through `parseInt`: `None` stands for a
  parameter that is absent or empty (so `|| '20'` applies); a value that
  does not parse (`NaN`) is not modelled.
 */
module ArticlesRoute {
  import opened Nullable
  import opened Sequences
  import Articles

  const DefaultLimit: int := 20
  const MaxLimit: int := 100

  datatype Listing = Listing(articles: seq<Articles.Article>, total: nat, limit: int, offset: int)

  /** `parseInt(searchParams.get('limit') || '20')`. */
  function RequestedLimit(limitParam: Option<int>): int {
    if limitParam.Some? then limitParam.value else DefaultLimit
  }

  /** `parseInt(searchParams.get('offset') || '0')`. */
  function RequestedOffset(offsetParam: Option<int>): int {
    if offsetParam.Some? then offsetParam.value else 0
  }

  /** The handler as written: the limit is `Math.min(requested, 100)`, the
      category `searchParams.get('category') || undefined`. */
  function Get(st: Articles.Store, limitParam: Option<int>, offsetParam: Option<int>,
               category: Option<string>): (r: Listing)
    ensures r.limit <= MaxLimit
    ensures r.limit == Min(RequestedLimit(limitParam), MaxLimit) && r.offset == RequestedOffset(offsetParam)
    ensures r.total == Articles.CountArticles(st, category)
    ensures |r.articles| == PageLength(r.total, r.limit, r.offset)
    ensures Articles.SortedDesc(r.articles)
    ensures forall k :: 0 <= k < |r.articles| ==>
      r.articles[k] in st.rows && Articles.InCategory(r.articles[k], category)
    ensures exists all :: Articles.QueryOrder(all, st.rows, Articles.CategoryFilter(OrNull(category)))
                          && r.articles == Page(all, r.limit, r.offset)
  {
    var limit := Min(RequestedLimit(limitParam), MaxLimit);
    var offset := RequestedOffset(offsetParam);
    var cat := OrNull(category);
    Listing(Articles.GetArticles(st, Some(limit), Some(offset), cat),
            Articles.CountArticles(st, cat), limit, offset)
  }

  /** The total does not depend on paging: two requests for the same
      category report the same total whatever their limit and offset. */
  lemma TotalIndependentOfPaging(st: Articles.Store, l1: Option<int>, o1: Option<int>,
                                 l2: Option<int>, o2: Option<int>, category: Option<string>)
    ensures Get(st, l1, o1, category).total == Get(st, l2, o2, category).total
    ensures Get(st, l1, o1, category).total == |Articles.Matching(st, category)|
  {
  }

  /** As written, a negative `limit` passes `Math.min` unchanged, and SQLite
      reads a negative LIMIT as no limit: `?limit=-1` returns every matching
      article, more than the 100 the clamp is there to enforce. */
  lemma NegativeLimitBypassesClamp(st: Articles.Store, category: Option<string>)
    requires Articles.CountArticles(st, category) > MaxLimit
    ensures |Get(st, Some(-1), None, category).articles| == Articles.CountArticles(st, category)
    ensures |Get(st, Some(-1), None, category).articles| > MaxLimit
  {
  }

  /** The limit the clamp evidently means: between 0 and 100. */
  function ClampedLimit(limitParam: Option<int>): (n: int)
    ensures 0 <= n <= MaxLimit
    ensures 0 <= RequestedLimit(limitParam) <= MaxLimit ==> n == RequestedLimit(limitParam)
  {
    Max(0, Min(RequestedLimit(limitParam), MaxLimit))
  }

  /** The handler with the limit clamped from both sides. */
  function GetClamped(st: Articles.Store, limitParam: Option<int>, offsetParam: Option<int>,
                      category: Option<string>): (r: Listing)
    ensures 0 <= r.limit <= MaxLimit
    ensures |r.articles| <= MaxLimit
    ensures r.total == Articles.CountArticles(st, category)
    ensures |r.articles| == PageLength(r.total, r.limit, r.offset)
  {
    var limit := ClampedLimit(limitParam);
    var offset := RequestedOffset(offsetParam);
    var cat := OrNull(category);
    Listing(Articles.GetArticles(st, Some(limit), Some(offset), cat),
            Articles.CountArticles(st, cat), limit, offset)
  }

  /** The two agree on every request whose limit is not negative. */
  lemma ClampedAgreesOnNonNegativeLimits(st: Articles.Store, limitParam: Option<int>,
                                         offsetParam: Option<int>, category: Option<string>)
    requires RequestedLimit(limitParam) >= 0
    ensures GetClamped(st, limitParam, offsetParam, category) == Get(st, limitParam, offsetParam, category)
  {
  }
}

=== FILE: audit.dfy ===
/**
  The article audit script (audit-articles.cjs): it counts the words of
  each body, lists the problems of each article and counts the articles
  with at least one. The console output is not modelled.
 */
module Audit {
  import opened Nullable
  import opened Text
  import opened Sequences
  import Cleaner

  // ---------------------------------------------------------------------------
  // Word count: `(x || '').trim().split(/\s+/).length`

  /** The first whitespace character of `t`, or `|t|`. */
  function FirstSpace(t: string): (i: nat)
    ensures i <= |t|
    ensures forall k :: 0 <= k < i ==> !IsSpace(t[k])
    ensures i < |t| ==> IsSpace(t[i])
  {
    if |t| == 0 || IsSpace(t[0]) then 0 else 1 + FirstSpace(t[1..])
  }

  /** `t.split(/\s+/)`: the pieces between maximal runs of whitespace. */
  function Split(t: string): (r: seq<string>)
    ensures |r| >= 1
    decreases |t|
  {
    var i := FirstSpace(t);
    if i == |t| then [t]
    else [t[..i]] + Split(t[Cleaner.SpacesEnd(t, i)..])
  }

  /** A non-empty piece of text without whitespace. */
  predicate Word(w: string) {
    |w| > 0 && forall k :: 0 <= k < |w| ==> !IsSpace(w[k])
  }

  predicate AllWords(ws: seq<string>) {
    forall k :: 0 <= k < |ws| ==> Word(ws[k])
  }

  /** Neither end of `t` is whitespace. */
  predicate Trimmed(t: string) {
    |t| > 0 ==> !IsSpace(t[0]) && !IsSpace(t[|t| - 1])
  }

  /** Splitting a non-empty trimmed text gives words only, so the length of
      the split is the number of words. */
  lemma {:induction false} SplitGivesWords(t: string)
    requires |t| > 0 && Trimmed(t)
    ensures AllWords(Split(t))
    decreases |t|
  {
    var i := FirstSpace(t);
    if i < |t| {
      var e := Cleaner.SpacesEnd(t, i);
      assert e < |t|;
      var rest := t[e..];
      assert rest[0] == t[e] && rest[|rest| - 1] == t[|t| - 1];
      SplitGivesWords(rest);
      assert i > 0;
      var r := Split(t);
      assert r == [t[..i]] + Split(rest);
      forall k | 0 <= k < |r| ensures Word(r[k]) {
        if k > 0 { assert r[k] == Split(rest)[k - 1]; }
      }
    }
  }

  /** A word followed by whitespace and a text is that word, then the
      pieces of the text. */
  lemma SplitCons(w: string, space: char, t: string)
    requires Word(w) && IsSpace(space)
    requires |t| > 0 && !IsSpace(t[0])
    ensures Split(w + [space] + t) == [w] + Split(t)
  {
    var s := w + [space] + t;
    assert forall k :: 0 <= k < |w| ==> s[k] == w[k];
    assert s[|w|] == space;
    assert FirstSpace(s) == |w| by {
      FirstSpaceIs(s, |w|);
    }
    assert s[|w| + 1] == t[0];
    assert Cleaner.SpacesEnd(s, |w|) == |w| + 1;
    assert s[..|w|] == w;
    assert s[|w| + 1..] == t;
  }

  lemma FirstSpaceIs(t: string, i: nat)
    requires i < |t| && IsSpace(t[i])
    requires forall k :: 0 <= k < i ==> !IsSpace(t[k])
    ensures FirstSpace(t) == i
  {
  }

  /** `enLen` / `arLen`. */
  function WordCount(x: Option<string>): (n: nat)
    ensures n >= 1
  {
    |Split(Trim(OrEmpty(x)))|
  }

  /** A null, empty or blank body counts as one word: `''.split(…)` is `['']`. */
  lemma BlankCountsOne(x: Option<string>)
    requires Trim(OrEmpty(x)) == ""
    ensures WordCount(x) == 1
  {
  }

  /** A non-blank body counts its words: the pieces of the split are all words. */
  lemma WordCountCountsWords(x: Option<string>)
    requires Trim(OrEmpty(x)) != ""
    ensures AllWords(Split(Trim(OrEmpty(x))))
    ensures WordCount(x) == |Split(Trim(OrEmpty(x)))|
  {
    SplitGivesWords(Trim(OrEmpty(x)));
  }

  // ---------------------------------------------------------------------------
  // Problems

  /** The columns the script reads. */
  datatype AuditRow = AuditRow(id: int, slug: string, titleEn: Option<string>, bodyEn: Option<string>,
                               bodyAr: Option<string>, imageUrl: Option<string>, source: Option<string>,
                               category: Option<string>)

  datatype Problem =
    | EnglishShort(words: nat)
    | ArabicShort(words: nat)
    | NoImage
    | CuratedImage
    | MarkdownInEnglish
    | IntroductionHeader
    | BodyIsTitle
    | Refusal

  /** A word character of `\b`: `[A-Za-z0-9_]`. */
  predicate IsWordChar(c: char) {
    ('a' <= c <= 'z') || ('A' <= c <= 'Z') || ('0' <= c <= '9') || c == '_'
  }

  /** `/^Introduction\b/m` matches at `i`. */
  predicate IntroductionAt(s: string, i: nat) {
    && Cleaner.LineStart(s, i)
    && OccursAt(s, "Introduction", i)
    && (i + 12 == |s| || (i + 12 < |s| && !IsWordChar(s[i + 12])))
  }

  predicate HasIntroduction(s: string) {
    exists i :: 0 <= i <= |s| && IntroductionAt(s, i)
  }

  /** The lower-cased body holds one of the two refusal phrases. */
  predicate IsRefusal(body: string) {
    Contains(Lower(body), "i cannot") || Contains(Lower(body), "i'm sorry")
  }

  function Optional(c: bool, p: Problem): (r: seq<Problem>)
    ensures forall x :: x in r <==> c && x == p
    ensures |r| <= 1
  {
    if c then [p] else []
  }

  /** The outcome of the eight checks of one article. */
  datatype Checks = Checks(englishShort: bool, arabicShort: bool, noImage: bool, curated: bool,
                           markdown: bool, introduction: bool, bodyIsTitle: bool, refusal: bool)

  function ChecksOf(a: AuditRow): Checks {
    var en := WordCount(a.bodyEn);
    var ar := WordCount(a.bodyAr);
    var body := OrEmpty(a.bodyEn);
    Checks(!Truthy(a.bodyEn) || en < 50,
           !Truthy(a.bodyAr) || ar < 20,
           !Truthy(a.imageUrl),
           Contains(OrEmpty(a.imageUrl), "/curated/"),
           Contains(body, "**"),
           HasIntroduction(body),
           body == OrEmpty(a.titleEn) || en < 30,
           IsRefusal(body))
  }

  /** `x` is one of the problems the audit outcomes `c` report. */
  predicate Reports(c: Checks, en: nat, ar: nat, x: Problem) {
    || (c.englishShort && x == EnglishShort(en))
    || (c.arabicShort && x == ArabicShort(ar))
    || (c.noImage && x == NoImage)
    || (c.curated && x == CuratedImage)
    || (c.markdown && x == MarkdownInEnglish)
    || (c.introduction && x == IntroductionHeader)
    || (c.bodyIsTitle && x == BodyIsTitle)
    || (c.refusal && x == Refusal)
  }

  /** The problem list of a set of check outcomes, in the script's order. */
  function Listed(c: Checks, en: nat, ar: nat): (r: seq<Problem>)
    ensures forall x :: x in r <==> Reports(c, en, ar, x)
    ensures |r| <= 8
  {
    var tail := Optional(c.bodyIsTitle, BodyIsTitle) + Optional(c.refusal, Refusal);
    var content := Optional(c.markdown, MarkdownInEnglish) + Optional(c.introduction, IntroductionHeader) + tail;
    var image := Optional(c.noImage, NoImage) + Optional(c.curated, CuratedImage);
    var bodies := Optional(c.englishShort, EnglishShort(en)) + Optional(c.arabicShort, ArabicShort(ar));
    bodies + image + content
  }

  /** The problems of one article, in the order the script lists them;
      the body and image problems are listed exactly when their checks fail
      (`ContentProblems` states the others). */
  function Problems(a: AuditRow): (r: seq<Problem>)
    ensures forall x :: x in r <==> Reports(ChecksOf(a), WordCount(a.bodyEn), WordCount(a.bodyAr), x)
    ensures EnglishShort(WordCount(a.bodyEn)) in r <==> !Truthy(a.bodyEn) || WordCount(a.bodyEn) < 50
    ensures ArabicShort(WordCount(a.bodyAr)) in r <==> !Truthy(a.bodyAr) || WordCount(a.bodyAr) < 20
    ensures NoImage in r <==> !Truthy(a.imageUrl)
    ensures CuratedImage in r <==> Contains(OrEmpty(a.imageUrl), "/curated/")
  {
    var c := ChecksOf(a);
    var en := WordCount(a.bodyEn);
    var ar := WordCount(a.bodyAr);
    assert Reports(c, en, ar, EnglishShort(en)) <==> c.englishShort;
    assert Reports(c, en, ar, ArabicShort(ar)) <==> c.arabicShort;
    Listed(c, en, ar)
  }

  /** The problems about the English text are listed exactly when their
      checks fail. */
  lemma ContentProblems(a: AuditRow)
    ensures MarkdownInEnglish in Problems(a) <==> Contains(OrEmpty(a.bodyEn), "**")
    ensures IntroductionHeader in Problems(a) <==> HasIntroduction(OrEmpty(a.bodyEn))
    ensures BodyIsTitle in Problems(a) <==> OrEmpty(a.bodyEn) == OrEmpty(a.titleEn) || WordCount(a.bodyEn) < 30
    ensures Refusal in Problems(a) <==> IsRefusal(OrEmpty(a.bodyEn))
  {
    var c := ChecksOf(a);
    var en := WordCount(a.bodyEn);
    var ar := WordCount(a.bodyAr);
    assert Reports(c, en, ar, MarkdownInEnglish) <==> c.markdown;
    assert Reports(c, en, ar, IntroductionHeader) <==> c.introduction;
    assert Reports(c, en, ar, BodyIsTitle) <==> c.bodyIsTitle;
    assert Reports(c, en, ar, Refusal) <==> c.refusal;
  }

  predicate HasIssues(a: AuditRow) {
    |Problems(a)| > 0
  }

  /** An article has no problem exactly when every check passes. */
  lemma NoProblemsIffAllPass(a: AuditRow)
    ensures !HasIssues(a) <==> ChecksOf(a) == Checks(false, false, false, false, false, false, false, false)
  {
    var c := ChecksOf(a);
    var r := Listed(c, WordCount(a.bodyEn), WordCount(a.bodyAr));
    if |r| > 0 { assert Reports(c, WordCount(a.bodyEn), WordCount(a.bodyAr), r[0]); }
    if c.englishShort { assert Reports(c, WordCount(a.bodyEn), WordCount(a.bodyAr), EnglishShort(WordCount(a.bodyEn))); }
  }

  /** The two image problems never come together: a missing image URL
      reads as the empty string, which holds no `/curated/`. */
  lemma ImageProblemsExclusive(a: AuditRow)
    ensures !(NoImage in Problems(a) && CuratedImage in Problems(a))
  {
    if !Truthy(a.imageUrl) {
      assert OrEmpty(a.imageUrl) == "";
    }
  }

  /** An English body under 30 words is reported twice over: as short and
      as a copy of the title. */
  lemma VeryShortReportedTwice(a: AuditRow)
    requires WordCount(a.bodyEn) < 30
    ensures EnglishShort(WordCount(a.bodyEn)) in Problems(a) && BodyIsTitle in Problems(a)
  {
  }

  /** An article without an English body is always reported. */
  lemma MissingBodyIsIssue(a: AuditRow)
    requires !Truthy(a.bodyEn)
    ensures HasIssues(a)
    ensures EnglishShort(1) in Problems(a)
  {
    BlankCountsOne(a.bodyEn);
  }

  /** `**` occurs exactly where two `*` stand together. */
  lemma ContainsDoubleStar(s: string)
    ensures Contains(s, "**") <==> !Cleaner.NoDoubleStar(s)
  {
    if Contains(s, "**") {
      var i :| 0 <= i <= |s| - 2 && OccursAt(s, "**", i);
      assert s[i..i + 2] == "**";
      assert Cleaner.DoubleStarAt(s, i);
    }
    if !Cleaner.NoDoubleStar(s) {
      var i :| 0 <= i < |s| && Cleaner.DoubleStarAt(s, i);
      assert s[i..i + 2] == "**";
      assert OccursAt(s, "**", i);
    }
  }

  /** After the clean-up script has rewritten a body, the audit no longer
      reports markdown in it. */
  lemma CleanedBodyHasNoMarkdown(a: AuditRow, original: Option<string>)
    requires a.bodyEn == Cleaner.Clean(original)
    ensures MarkdownInEnglish !in Problems(a)
  {
    var body := OrEmpty(a.bodyEn);
    if Truthy(original) {
      Cleaner.CleanTextProperties(original.value);
    } else {
      assert body == "";
    }
    ContainsDoubleStar(body);
  }

  /** The script's loop: `issues` counts the articles with a problem. */
  method AuditAll(rows: seq<AuditRow>) returns (issues: nat)
    ensures issues == Count(rows, HasIssues)
    ensures issues <= |rows|
    ensures issues == 0 <==> forall k :: 0 <= k < |rows| ==> Problems(rows[k]) == []
  {
    issues := CountWhere(rows, HasIssues);
    CountZero(rows, HasIssues);
  }

  /** No element is counted exactly when none satisfies the predicate. */
  lemma {:induction false} CountZero<T>(s: seq<T>, p: T -> bool)
    ensures Count(s, p) == 0 <==> forall k :: 0 <= k < |s| ==> !p(s[k])
  {
    if |s| > 0 {
      CountZero(s[1..], p);
      assert forall k :: 1 <= k < |s| ==> s[k] == s[1..][k - 1];
    }
  }
}

=== FILE: categories.dfy ===
/**
  The category tables and the fallback image choice (lib/categories.ts), and
  the older category table that lib/articles.ts still exports.
 */
module Categories {
  import opened Nullable
  import opened Text

  /** `CATEGORY_KEYS`: the keys of the English table, in declaration order. */
  const Keys: seq<string> :=
    ["general", "diplomacy", "palestine", "economy", "politics", "gulf", "iran", "media", "turkey", "africa"]

  /** `CATEGORIES_AR`. */
  const LabelsAr: map<string, string> := map[
    "general" := "عام",
    "diplomacy" := "دبلوماسية",
    "palestine" := "فلسطين",
    "economy" := "اقتصاد",
    "politics" := "سياسة",
    "gulf" := "خليج",
    "iran" := "إيران",
    "media" := "إعلام",
    "turkey" := "تركيا",
    "africa" := "أفريقيا"]

  /** `CATEGORIES_EN`. */
  const LabelsEn: map<string, string> := map[
    "general" := "General",
    "diplomacy" := "Diplomacy",
    "palestine" := "Palestine",
    "economy" := "Economy",
    "politics" := "Politics",
    "gulf" := "Gulf",
    "iran" := "Iran",
    "media" := "Media",
    "turkey" := "Turkey",
    "africa" := "Africa"]

  /** `CATEGORIES` of lib/articles.ts: eight of the ten categories. */
  const LegacyLabels: map<string, string> := map[
    "general" := "عام",
    "diplomacy" := "دبلوماسية",
    "palestine" := "فلسطين",
    "economy" := "اقتصاد",
    "politics" := "سياسة",
    "gulf" := "خليج",
    "media" := "إعلام",
    "turkey" := "تركيا"]

  /** `CATEGORY_IMAGES`: the curated pools. */
  const Images: map<string, seq<string>> := map[
    "palestine" := PalestinePool,
    "gulf" := GulfPool,
    "diplomacy" := DiplomacyPool,
    "economy" := EconomyPool,
    "iran" := IranPool,
    "politics" := PoliticsPool,
    "africa" := AfricaPool,
    "turkey" := TurkeyPool,
    "media" := MediaPool,
    "general" := GeneralPool]

  const PalestinePool: seq<string> := ["/curated/gaza_conflict.jpg", "/curated/palestine_crowd.jpg",
    "/curated/palestine_protest.jpg", "/curated/solidarity_protest.jpg"]
  const GulfPool: seq<string> := ["/curated/doha_skyline.jpg", "/curated/doha_night.jpg", "/curated/gcc_meeting.jpg",
    "/curated/lusail_stadium.jpg", "/curated/abu_dhabi.jpg", "/curated/ras_laffan.jpg"]
  const DiplomacyPool: seq<string> := ["/curated/un_diplomacy.jpg", "/curated/un_general_assembly.jpg",
    "/curated/diplomacy_summit.jpg", "/curated/qncc_doha_forum.jpg",
    "/curated/gcc_meeting.jpg"]
  const EconomyPool: seq<string> := ["/curated/economy_finance.jpg", "/curated/qatar_energy.jpg", "/curated/lng_tanker.jpg",
    "/curated/ras_laffan.jpg", "/curated/qatar_airways.jpg", "/curated/stock_market.jpg"]
  const IranPool: seq<string> := ["/curated/parliament.jpg", "/curated/diplomacy_summit.jpg", "/curated/un_diplomacy.jpg"]
  const PoliticsPool: seq<string> := ["/curated/emir_tamim.jpg", "/curated/qncc_doha_forum.jpg", "/curated/parliament.jpg",
    "/curated/diplomacy_summit.jpg", "/curated/doha_skyline.jpg"]
  const AfricaPool: seq<string> := ["/curated/african_union.jpg", "/curated/africa_city.jpg"]
  const TurkeyPool: seq<string> := ["/curated/turkey.jpg", "/curated/istanbul.jpg"]
  const MediaPool: seq<string> := ["/curated/aljazeera_hq.jpg", "/curated/press_conference.jpg"]
  const GeneralPool: seq<string> := ["/curated/doha_skyline.jpg", "/curated/doha_night.jpg", "/curated/lusail_stadium.jpg",
    "/curated/qatar_airways.jpg", "/curated/qncc_doha_forum.jpg"]

  const BotFallback: string := "/qatar-breaking-news.png"
  const SiteFallback: string := "/qatar-standard-logo.png"

  /** The two label tables cover the same categories, and `CATEGORY_KEYS`
      lists exactly those, each once. */
  lemma TablesAgree()
    ensures LabelsAr.Keys == LabelsEn.Keys
    ensures forall k :: k in LabelsEn <==> k in Keys
    ensures forall i, j :: 0 <= i < j < |Keys| ==> Keys[i] != Keys[j]
    ensures |Keys| == 10
  {
  }

  /** Every image of `pool` is served from `/curated/`. */
  predicate Curated(pool: seq<string>) {
    forall i :: 0 <= i < |pool| ==> StartsWith(pool[i], "/curated/")
  }

  /** Every category has a non-empty pool of images under `/curated/`, and
      the pools are only for the categories. */
  lemma EveryCategoryHasPool()
    ensures forall k :: k in Images <==> k in LabelsEn
    ensures forall i :: 0 <= i < |Keys| ==> Keys[i] in Images && |Images[Keys[i]]| > 0
    ensures forall k :: k in Images ==> Curated(Images[k])
  {
    PalestineCurated();
    GulfCurated();
    DiplomacyCurated();
    EconomyCurated();
    IranCurated();
    PoliticsCurated();
    AfricaCurated();
    TurkeyCurated();
    MediaCurated();
    GeneralCurated();
  }

  // One lemma per pool, each the same argument: proving the ten pools in
  // one lemma is more than the solver can do within its resource bound.

  lemma PalestineCurated()
    ensures Curated(PalestinePool)
  {
    forall i | 0 <= i < |PalestinePool| ensures StartsWith(PalestinePool[i], "/curated/") {
      assert PalestinePool[i][..9] == "/curated/";
    }
  }

  lemma GulfCurated()
    ensures Curated(GulfPool)
  {
    forall i | 0 <= i < |GulfPool| ensures StartsWith(GulfPool[i], "/curated/") {
      assert GulfPool[i][..9] == "/curated/";
    }
  }

  lemma DiplomacyCurated()
    ensures Curated(DiplomacyPool)
  {
    forall i | 0 <= i < |DiplomacyPool| ensures StartsWith(DiplomacyPool[i], "/curated/") {
      assert DiplomacyPool[i][..9] == "/curated/";
    }
  }

  lemma EconomyCurated()
    ensures Curated(EconomyPool)
  {
    forall i | 0 <= i < |EconomyPool| ensures StartsWith(EconomyPool[i], "/curated/") {
      assert EconomyPool[i][..9] == "/curated/";
    }
  }

  lemma IranCurated()
    ensures Curated(IranPool)
  {
    forall i | 0 <= i < |IranPool| ensures StartsWith(IranPool[i], "/curated/") {
      assert IranPool[i][..9] == "/curated/";
    }
  }

  lemma PoliticsCurated()
    ensures Curated(PoliticsPool)
  {
    forall i | 0 <= i < |PoliticsPool| ensures StartsWith(PoliticsPool[i], "/curated/") {
      assert PoliticsPool[i][..9] == "/curated/";
    }
  }

  lemma AfricaCurated()
    ensures Curated(AfricaPool)
  {
    forall i | 0 <= i < |AfricaPool| ensures StartsWith(AfricaPool[i], "/curated/") {
      assert AfricaPool[i][..9] == "/curated/";
    }
  }

  lemma TurkeyCurated()
    ensures Curated(TurkeyPool)
  {
    forall i | 0 <= i < |TurkeyPool| ensures StartsWith(TurkeyPool[i], "/curated/") {
      assert TurkeyPool[i][..9] == "/curated/";
    }
  }

  lemma MediaCurated()
    ensures Curated(MediaPool)
  {
    forall i | 0 <= i < |MediaPool| ensures StartsWith(MediaPool[i], "/curated/") {
      assert MediaPool[i][..9] == "/curated/";
    }
  }

  lemma GeneralCurated()
    ensures Curated(GeneralPool)
  {
    forall i | 0 <= i < |GeneralPool| ensures StartsWith(GeneralPool[i], "/curated/") {
      assert GeneralPool[i][..9] == "/curated/";
    }
  }

  /** The older table of lib/articles.ts is the Arabic table without `iran`
      and `africa`. */
  lemma LegacyTableIsSubset()
    ensures LegacyLabels.Keys == LabelsAr.Keys - {"iran", "africa"}
    ensures forall k :: k in LegacyLabels ==> LegacyLabels[k] == LabelsAr[k]
  {
  }

  function Abs(n: int): nat {
    if n < 0 then -n else n
  }

  /** `getDefaultImage(category, source, seed)`; `random` is the value
      `Math.random()` returns, used only when there is no seed. */
  function GetDefaultImage(category: string, source: string, seed: Option<int>, random: real): (r: string)
    requires 0.0 <= random < 1.0
    ensures category in Images ==> r in Images[category]
    ensures category in Images && seed.Some? ==>
      r == Images[category][Abs(seed.value) % |Images[category]|]
    ensures category !in Images ==> (r == BotFallback <==> source == "bot")
    ensures category !in Images && source != "bot" ==> r == SiteFallback
  {
    if category in Images && |Images[category]| > 0 then
      var pool := Images[category];
      var idx := if seed.Some? then Abs(seed.value) % |pool| else RandomIndex(random, |pool|);
      pool[idx]
    else if source == "bot" then BotFallback
    else SiteFallback
  }

  /** `Math.floor(random * n)`. */
  function RandomIndex(random: real, n: nat): (i: nat)
    requires 0.0 <= random < 1.0 && n > 0
    ensures i < n
  {
    FloorBelow(random, n);
    (random * n as real).Floor
  }

  lemma FloorBelow(random: real, n: nat)
    requires 0.0 <= random < 1.0 && n > 0
    ensures 0 <= (random * n as real).Floor < n
  {
    assert random * n as real < n as real;
    assert 0.0 <= random * n as real;
  }

  /** A seed picks the same image every time, whatever `Math.random` returns,
      and a seed and its negation pick the same one. */
  lemma SeedIsStable(category: string, source: string, seed: int, r1: real, r2: real)
    requires 0.0 <= r1 < 1.0 && 0.0 <= r2 < 1.0
    ensures GetDefaultImage(category, source, Some(seed), r1) == GetDefaultImage(category, source, Some(seed), r2)
    ensures GetDefaultImage(category, source, Some(seed), r1) == GetDefaultImage(category, source, Some(-seed), r1)
  {
  }
}

=== FILE: clean_articles.dfy ===
/**
  The markdown clean-up script (clean-articles.cjs): `clean` strips
  markdown emphasis, heading marks and stock section headers from a text,
  collapses blank lines and trims; the loop rewrites the rows whose
  bodies or English title change.

  Each global regular-expression replacement is a left-to-right scanner
  over the string it is applied to, resuming after each match as
  `String.prototype.replace` does. A multiline `^` holds at position 0 and
  after a line terminator of that same string; a multiline `$` holds at
  the end and before a line terminator.
 */
module Cleaner {
  import opened Nullable
  import opened Text
  import opened Sequences

  /** `**` occurs at `i`. */
  predicate DoubleStarAt(s: string, i: nat) {
    i + 2 <= |s| && s[i] == '*' && s[i + 1] == '*'
  }

  predicate NoDoubleStar(s: string) {
    forall i :: 0 <= i < |s| ==> !DoubleStarAt(s, i)
  }

  /** Three newlines occur at `i`. */
  predicate TripleAt(s: string, i: nat) {
    i + 3 <= |s| && s[i] == '\n' && s[i + 1] == '\n' && s[i + 2] == '\n'
  }

  predicate NoTripleNewline(s: string) {
    forall i :: 0 <= i < |s| ==> !TripleAt(s, i)
  }

  function StartsWithStar(s: string): bool {
    |s| > 0 && s[0] == '*'
  }

  /** A multiline `^` holds at `i`. */
  predicate LineStart(s: string, i: nat) {
    i == 0 || (i <= |s| && IsLineTerminator(s[i - 1]))
  }

  /** A multiline `$` holds at `i`. */
  predicate LineEnd(s: string, i: nat) {
    i == |s| || (i < |s| && IsLineTerminator(s[i]))
  }

  // ---------------------------------------------------------------------------
  // Step 1: `.replace(/\*\*/g, '')`

  function RemovePairs(s: string): string {
    if |s| == 0 then ""
    else if |s| >= 2 && s[0] == '*' && s[1] == '*' then RemovePairs(s[2..])
    else [s[0]] + RemovePairs(s[1..])
  }

  /** After the pairs are removed no `**` is left: a `*` is kept only when
      the next character is not one. */
  lemma {:induction false} RemovePairsNoDoubleStar(s: string)
    ensures NoDoubleStar(RemovePairs(s))
    ensures StartsWithStar(RemovePairs(s)) ==> StartsWithStar(s)
  {
    if |s| >= 2 && s[0] == '*' && s[1] == '*' {
      RemovePairsNoDoubleStar(s[2..]);
    } else if |s| > 0 {
      RemovePairsNoDoubleStar(s[1..]);
      var rest := RemovePairs(s[1..]);
      var r := [s[0]] + rest;
      forall i | 0 <= i < |r| ensures !DoubleStarAt(r, i) {
        if 0 < i && i + 2 <= |r| { assert !DoubleStarAt(rest, i - 1); }
      }
    }
  }

  /** Text without `**` passes unchanged. */
  lemma {:induction false} RemovePairsKeepsClean(s: string)
    requires NoDoubleStar(s)
    ensures RemovePairs(s) == s
  {
    if |s| > 0 {
      assert !DoubleStarAt(s, 0);
      forall k | 0 <= k < |s[1..]| ensures !DoubleStarAt(s[1..], k) {
        assert !DoubleStarAt(s, k + 1);
      }
      RemovePairsKeepsClean(s[1..]);
      assert s == [s[0]] + s[1..];
    }
  }

  // ---------------------------------------------------------------------------
  // Step 2: `.replace(/^#+\s*/gm, '')`

  /** The end of the run of `c` characters starting at `j`. */
  function RunEnd(s: string, j: nat, c: char): (k: nat)
    requires j <= |s|
    ensures j <= k <= |s|
    ensures forall m :: j <= m < k ==> s[m] == c
    ensures k < |s| ==> s[k] != c
    decreases |s| - j
  {
    if j < |s| && s[j] == c then RunEnd(s, j + 1, c) else j
  }

  function SpacesEnd(s: string, j: nat): (k: nat)
    requires j <= |s|
    ensures j <= k <= |s|
    ensures forall m :: j <= m < k ==> IsSpace(s[m])
    ensures k < |s| ==> !IsSpace(s[k])
    decreases |s| - j
  {
    if j < |s| && IsSpace(s[j]) then SpacesEnd(s, j + 1) else j
  }

  /** A heading mark starts at `i`. */
  predicate HeadingAt(s: string, i: nat) {
    i < |s| && LineStart(s, i) && s[i] == '#'
  }

  function Headings(s: string, i: nat): string
    requires i <= |s|
    decreases |s| - i
  {
    if i == |s| then ""
    else if HeadingAt(s, i) then Headings(s, SpacesEnd(s, RunEnd(s, i, '#')))
    else [s[i]] + Headings(s, i + 1)
  }

  /** Removing heading marks never brings two `*` together: what precedes a
      removed mark is a line terminator. */
  lemma {:induction false} HeadingsNoDoubleStar(s: string, i: nat)
    requires i <= |s| && NoDoubleStar(s)
    ensures NoDoubleStar(Headings(s, i))
    ensures i > 0 && s[i - 1] == '*' ==> !StartsWithStar(Headings(s, i))
    decreases |s| - i
  {
    if i < |s| {
      if HeadingAt(s, i) {
        HeadingsNoDoubleStar(s, SpacesEnd(s, RunEnd(s, i, '#')));
      } else {
        HeadingsNoDoubleStar(s, i + 1);
        if i > 0 { assert !DoubleStarAt(s, i - 1); }
        KeepNoDoubleStar(s[i], Headings(s, i + 1));
      }
    }
  }

  /** Keeping a character in front of a text keeps it free of `**` unless
      the character is a `*` and the text starts with one. */
  lemma KeepNoDoubleStar(c: char, rest: string)
    requires NoDoubleStar(rest) && (c == '*' ==> !StartsWithStar(rest))
    ensures NoDoubleStar([c] + rest)
  {
    var r := [c] + rest;
    forall i | 0 <= i < |r| ensures !DoubleStarAt(r, i) {
      if 0 < i && i + 2 <= |r| { assert !DoubleStarAt(rest, i - 1); }
    }
  }

  /** Text with no line starting with `#` passes unchanged. */
  lemma {:induction false} HeadingsKeepsClean(s: string, i: nat)
    requires i <= |s|
    requires forall j :: i <= j < |s| ==> !HeadingAt(s, j)
    ensures Headings(s, i) == s[i..]
    decreases |s| - i
  {
    if i < |s| {
      HeadingsKeepsClean(s, i + 1);
      assert s[i..] == [s[i]] + s[i + 1..];
    }
  }

  // ---------------------------------------------------------------------------
  // Step 3: `.replace(/\*([^*]+)\*/g, '$1')`

  /** The first `*` at or after `j`, or `|s|`. */
  function StarFrom(s: string, j: nat): (k: nat)
    requires j <= |s|
    ensures j <= k <= |s|
    ensures forall m :: j <= m < k ==> s[m] != '*'
    ensures k < |s| ==> s[k] == '*'
    decreases |s| - j
  {
    if j < |s| && s[j] != '*' then StarFrom(s, j + 1) else j
  }

  /** A span `*x*` with `x` non-empty and star-free starts at `i`. */
  predicate SpanAt(s: string, i: nat) {
    i + 1 < |s| && s[i] == '*' && StarFrom(s, i + 1) < |s| && StarFrom(s, i + 1) > i + 1
  }

  function Emphasis(s: string, i: nat): string
    requires i <= |s|
    decreases |s| - i
  {
    if i == |s| then ""
    else if SpanAt(s, i) then
      var j := StarFrom(s, i + 1);
      s[i + 1..j] + Emphasis(s, j + 1)
    else [s[i]] + Emphasis(s, i + 1)
  }

  /** Unwrapping `*x*` spans never brings two `*` together. */
  lemma {:induction false} EmphasisNoDoubleStar(s: string, i: nat)
    requires i <= |s| && NoDoubleStar(s)
    ensures NoDoubleStar(Emphasis(s, i))
    ensures i > 0 && s[i - 1] == '*' ==> !StartsWithStar(Emphasis(s, i))
    decreases |s| - i
  {
    if i < |s| {
      if SpanAt(s, i) {
        var j := StarFrom(s, i + 1);
        var x := s[i + 1..j];
        forall k | 0 <= k < |x| ensures x[k] != '*' {
          assert x[k] == s[i + 1 + k];
        }
        EmphasisNoDoubleStar(s, j + 1);
        EmphasisAtSpan(s, i);
        StarFreeNoDoubleStar(x, Emphasis(s, j + 1));
      } else {
        EmphasisNoDoubleStar(s, i + 1);
        EmphasisAtPlain(s, i);
        assert !DoubleStarAt(s, i);
        if i > 0 { assert !DoubleStarAt(s, i - 1); }
        KeepNoDoubleStar(s[i], Emphasis(s, i + 1));
      }
    }
  }

  /** A non-empty star-free text in front of a text without `**` does not
      start one. */
  lemma StarFreeNoDoubleStar(x: string, rest: string)
    requires |x| > 0 && forall k :: 0 <= k < |x| ==> x[k] != '*'
    requires NoDoubleStar(rest)
    ensures NoDoubleStar(x + rest) && !StartsWithStar(x + rest)
  {
    var r := x + rest;
    forall m | 0 <= m < |r| ensures !DoubleStarAt(r, m) {
      if m < |x| { assert r[m] == x[m]; }
      else if m + 2 <= |r| { assert !DoubleStarAt(rest, m - |x|); }
    }
    assert r[0] == x[0];
  }

  /** `*x*` with `x` non-empty and star-free becomes `x`. */
  lemma EmphasisSpan(x: string)
    requires |x| > 0 && forall k :: 0 <= k < |x| ==> x[k] != '*'
    ensures Emphasis("*" + x + "*", 0) == x
  {
    var s := "*" + x + "*";
    var n := |x| + 1;
    assert |s| == n + 1 && s[0] == '*' && s[n] == '*';
    assert s[1..n] == x;
    forall m | 1 <= m < n ensures s[m] != '*' {
      assert s[m] == s[1..n][m - 1];
    }
    StarFromIs(s, 1, n);
    assert SpanAt(s, 0);
    EmphasisAtSpan(s, 0);
    assert Emphasis(s, n + 1) == "";
    assert x + "" == x;
  }

  lemma StarFromIs(s: string, j: nat, k: nat)
    requires j <= k < |s| && s[k] == '*'
    requires forall m :: j <= m < k ==> s[m] != '*'
    ensures StarFrom(s, j) == k
  {
  }

  lemma EmphasisAtPlain(s: string, i: nat)
    requires i < |s| && !SpanAt(s, i)
    ensures Emphasis(s, i) == [s[i]] + Emphasis(s, i + 1)
  {
  }

  lemma EmphasisAtSpan(s: string, i: nat)
    requires i <= |s| && SpanAt(s, i)
    ensures Emphasis(s, i) == s[i + 1..StarFrom(s, i + 1)] + Emphasis(s, StarFrom(s, i + 1) + 1)
  {
  }

  /** Star-free text passes unchanged. */
  lemma {:induction false} EmphasisKeepsClean(s: string, i: nat)
    requires i <= |s|
    requires forall j :: i <= j < |s| ==> s[j] != '*'
    ensures Emphasis(s, i) == s[i..]
    decreases |s| - i
  {
    if i < |s| {
      EmphasisKeepsClean(s, i + 1);
      assert s[i..] == [s[i]] + s[i + 1..];
    }
  }

  // ---------------------------------------------------------------------------
  // Step 4: `.replace(/^(Introduction|…|Summary)[:\s]*$/gim, '')`

  /** The section names, lower-cased; the `i` flag compares ASCII letters
      without case. */
  const SectionWords: seq<string> :=
    ["introduction", "conclusion", "background", "context", "overview", "summary"]

  /** The end of the first section name (without case) starting at `i`. */
  function WordEnd(s: string, i: nat, words: seq<string>): (r: Option<nat>)
    requires i <= |s|
    ensures r.Some? ==> i < r.value <= |s|
  {
    if |words| == 0 then None
    else if |words[0]| > 0 && i + |words[0]| <= |s| && Lower(s[i..i + |words[0]|]) == words[0] then
      Some(i + |words[0]|)
    else WordEnd(s, i, words[1..])
  }

  function ColonSpaceEnd(s: string, j: nat): (k: nat)
    requires j <= |s|
    ensures j <= k <= |s|
    ensures forall m :: j <= m < k ==> s[m] == ':' || IsSpace(s[m])
    ensures k < |s| ==> s[k] != ':' && !IsSpace(s[k])
    decreases |s| - j
  {
    if j < |s| && (s[j] == ':' || IsSpace(s[j])) then ColonSpaceEnd(s, j + 1) else j
  }

  /** The greedy `[:\s]*$`: the last position in `[lo, hi]` where `$` holds. */
  function LastLineEnd(s: string, lo: nat, hi: nat): (r: Option<nat>)
    requires lo <= hi <= |s|
    ensures r.Some? ==> lo <= r.value <= hi && LineEnd(s, r.value)
    ensures r.Some? ==> forall p :: r.value < p <= hi ==> !LineEnd(s, p)
    ensures r.None? ==> forall p :: lo <= p <= hi ==> !LineEnd(s, p)
    decreases hi - lo
  {
    if LineEnd(s, hi) then Some(hi)
    else if hi == lo then None
    else LastLineEnd(s, lo, hi - 1)
  }

  /** Where a section-header match starting at `i` ends, if one does. */
  function SectionEnd(s: string, i: nat): (r: Option<nat>)
    requires i <= |s|
    ensures r.Some? ==> i < r.value <= |s|
  {
    if !LineStart(s, i) then None
    else match WordEnd(s, i, SectionWords)
      case None => None
      case Some(w) => LastLineEnd(s, w, ColonSpaceEnd(s, w))
  }

  function Sections(s: string, i: nat): string
    requires i <= |s|
    decreases |s| - i
  {
    if i == |s| then ""
    else match SectionEnd(s, i)
      case Some(p) => Sections(s, p)
      case None => [s[i]] + Sections(s, i + 1)
  }

  /** Removing section headers never brings two `*` together. */
  lemma {:induction false} SectionsNoDoubleStar(s: string, i: nat)
    requires i <= |s| && NoDoubleStar(s)
    ensures NoDoubleStar(Sections(s, i))
    ensures i > 0 && s[i - 1] == '*' ==> !StartsWithStar(Sections(s, i))
    decreases |s| - i
  {
    if i < |s| {
      match SectionEnd(s, i)
      case Some(p) =>
        SectionsNoDoubleStar(s, p);
      case None =>
        SectionsNoDoubleStar(s, i + 1);
        if i > 0 { assert !DoubleStarAt(s, i - 1); }
        KeepNoDoubleStar(s[i], Sections(s, i + 1));
    }
  }

  // ---------------------------------------------------------------------------
  // Step 5: `.replace(/\n{3,}/g, '\n\n')`

  function Newlines(s: string, i: nat): string
    requires i <= |s|
    decreases |s| - i
  {
    if i == |s| then ""
    else if TripleAt(s, i) then "\n\n" + Newlines(s, RunEnd(s, i, '\n'))
    else [s[i]] + Newlines(s, i + 1)
  }

  /** After collapsing, no three newlines are left in a row; and the output
      starts with as many newlines as the input does, up to two. */
  lemma {:induction false} NewlinesNoTriple(s: string, i: nat)
    requires i <= |s|
    ensures var r := Newlines(s, i);
      && NoTripleNewline(r)
      && (|r| > 0 && r[0] == '\n' ==> i < |s| && s[i] == '\n')
      && (|r| > 1 && r[0] == '\n' && r[1] == '\n' ==> i + 1 < |s| && s[i] == '\n' && s[i + 1] == '\n')
    decreases |s| - i
  {
    if i < |s| {
      var r := Newlines(s, i);
      if TripleAt(s, i) {
        var k := RunEnd(s, i, '\n');
        NewlinesNoTriple(s, k);
        var rest := Newlines(s, k);
        assert r == "\n\n" + rest;
        forall m | 0 <= m < |r| ensures !TripleAt(r, m) {
          if m >= 2 && m + 3 <= |r| { assert !TripleAt(rest, m - 2); }
          else if m < 2 && m + 3 <= |r| { assert r[2] == rest[0]; }
        }
      } else {
        NewlinesNoTriple(s, i + 1);
        var rest := Newlines(s, i + 1);
        assert r == [s[i]] + rest;
        forall m | 0 <= m < |r| ensures !TripleAt(r, m) {
          if m >= 1 && m + 3 <= |r| { assert !TripleAt(rest, m - 1); }
          else if m == 0 && 3 <= |r| { assert r[1] == rest[0] && r[2] == rest[1]; }
        }
      }
    }
  }

  /** Collapsing newline runs never brings two `*` together. */
  lemma {:induction false} NewlinesNoDoubleStar(s: string, i: nat)
    requires i <= |s| && NoDoubleStar(s)
    ensures NoDoubleStar(Newlines(s, i))
    ensures i > 0 && s[i - 1] == '*' ==> !StartsWithStar(Newlines(s, i))
    decreases |s| - i
  {
    if i < |s| {
      if TripleAt(s, i) {
        var k := RunEnd(s, i, '\n');
        NewlinesNoDoubleStar(s, k);
        var rest := Newlines(s, k);
        KeepNoDoubleStar('\n', rest);
        KeepNoDoubleStar('\n', "\n" + rest);
        assert "\n\n" + rest == ['\n'] + (['\n'] + rest);
      } else {
        NewlinesNoDoubleStar(s, i + 1);
        if i > 0 { assert !DoubleStarAt(s, i - 1); }
        KeepNoDoubleStar(s[i], Newlines(s, i + 1));
      }
    }
  }

  /** Text without three newlines in a row passes unchanged. */
  lemma {:induction false} NewlinesKeepsClean(s: string, i: nat)
    requires i <= |s| && NoTripleNewline(s)
    ensures Newlines(s, i) == s[i..]
    decreases |s| - i
  {
    if i < |s| {
      NewlinesKeepsClean(s, i + 1);
      assert s[i..] == [s[i]] + s[i + 1..];
    }
  }

  // ---------------------------------------------------------------------------
  // `clean`

  /** The five replacements and the final trim, on a non-empty text. */
  function CleanText(s: string): string {
    var a := RemovePairs(s);
    var b := Headings(a, 0);
    var c := Emphasis(b, 0);
    var d := Sections(c, 0);
    var e := Newlines(d, 0);
    Trim(e)
  }

  /** `clean(s)`: a null or empty value is returned as it is. */
  function Clean(s: Option<string>): (r: Option<string>)
    ensures !Truthy(s) ==> r == s
    ensures Truthy(s) ==> r == Some(CleanText(s.value))
  {
    if !Truthy(s) then s else Some(CleanText(s.value))
  }

  /** Trimming keeps a substring, so it keeps both properties. */
  lemma TrimKeeps(s: string)
    requires NoDoubleStar(s) && NoTripleNewline(s)
    ensures NoDoubleStar(Trim(s)) && NoTripleNewline(Trim(s))
  {
    var r := Trim(s);
    var a := LeadingSpaces(s);
    assert forall k :: 0 <= k < |r| ==> r[k] == s[a + k];
    forall m | 0 <= m < |r| ensures !DoubleStarAt(r, m) && !TripleAt(r, m) {
      if m + 2 <= |r| { assert !DoubleStarAt(s, a + m); }
      if m + 3 <= |r| { assert !TripleAt(s, a + m); }
    }
  }

  /** What `clean` guarantees of a text: no `**`, no three newlines in a row,
      and no whitespace at either end. */
  lemma CleanTextProperties(s: string)
    ensures NoDoubleStar(CleanText(s))
    ensures NoTripleNewline(CleanText(s))
    ensures Trim(CleanText(s)) == CleanText(s)
  {
    var a := RemovePairs(s);
    RemovePairsNoDoubleStar(s);
    var b := Headings(a, 0);
    HeadingsNoDoubleStar(a, 0);
    var c := Emphasis(b, 0);
    EmphasisNoDoubleStar(b, 0);
    var d := Sections(c, 0);
    SectionsNoDoubleStar(c, 0);
    var e := Newlines(d, 0);
    NewlinesNoDoubleStar(d, 0);
    NewlinesNoTriple(d, 0);
    TrimKeeps(e);
    TrimIdempotent(e);
  }

  // ---------------------------------------------------------------------------
  // The update loop

  /** The columns the script reads. */
  datatype Row = Row(id: int, bodyEn: Option<string>, bodyAr: Option<string>, titleEn: Option<string>,
                     titleAr: Option<string>, excerptEn: Option<string>, excerptAr: Option<string>)

  /** A row is rewritten when its English body, Arabic body or English title
      changes under `clean`. */
  predicate NeedsUpdate(r: Row) {
    Clean(r.bodyEn) != r.bodyEn || Clean(r.bodyAr) != r.bodyAr || Clean(r.titleEn) != r.titleEn
  }

  /** The rewrite stores the cleaned value of all six columns. */
  function Cleaned(r: Row): Row {
    Row(r.id, Clean(r.bodyEn), Clean(r.bodyAr), Clean(r.titleEn), Clean(r.titleAr),
        Clean(r.excerptEn), Clean(r.excerptAr))
  }

  /** The row as the table holds it after the script. */
  function AfterScript(r: Row): Row {
    if NeedsUpdate(r) then Cleaned(r) else r
  }

  /** The script's loop: every row is visited once; `updated` counts the
      rewritten rows. */
  method CleanAll(rows: seq<Row>) returns (result: seq<Row>, updated: nat)
    ensures |result| == |rows|
    ensures forall k :: 0 <= k < |rows| ==> result[k] == AfterScript(rows[k])
    ensures forall k :: 0 <= k < |rows| && !NeedsUpdate(rows[k]) ==> result[k] == rows[k]
    ensures updated == Count(rows, NeedsUpdate)
    ensures updated <= |rows|
  {
    result, updated := RewriteWhere(rows, NeedsUpdate, Cleaned);
  }

  /** Visits every element once, replacing by `f` those that satisfy
      `needs` and counting them. */
  method RewriteWhere<T>(rows: seq<T>, needs: T -> bool, f: T -> T) returns (result: seq<T>, updated: nat)
    ensures |result| == |rows|
    ensures forall k :: 0 <= k < |rows| ==> result[k] == if needs(rows[k]) then f(rows[k]) else rows[k]
    ensures updated == Count(rows, needs)
  {
    result := [];
    updated := 0;
    var i := 0;
    while i < |rows|
      invariant 0 <= i <= |rows|
      invariant |result| == i
      invariant forall k :: 0 <= k < i ==> result[k] == if needs(rows[k]) then f(rows[k]) else rows[k]
      invariant updated == Count(rows[..i], needs)
    {
      var a := rows[i];
      CountSnoc(rows[..i], a, needs);
      assert rows[..i + 1] == rows[..i] + [a];
      if needs(a) {
        result := result + [f(a)];
        updated := updated + 1;
      } else {
        result := result + [a];
      }
      i := i + 1;
    }
    assert rows[..i] == rows;
  }
}

=== FILE: collation.dfy ===
/**
  SQLite's BINARY collation on text: values are compared byte by byte in their
  UTF-8 encoding, which orders strings exactly as comparing them code point
  by code point, a proper prefix coming first. `ORDER BY published_at` uses it.
 */
module Collation {

  /** `a` sorts at or before `b`. */
  predicate Le(a: string, b: string)
    decreases |a|
  {
    if |a| == 0 then true
    else if |b| == 0 then false
    else if a[0] != b[0] then a[0] < b[0]
    else Le(a[1..], b[1..])
  }

  lemma {:induction false} LeReflexive(a: string)
    ensures Le(a, a)
  {
    if |a| > 0 { LeReflexive(a[1..]); }
  }

  lemma {:induction false} LeTotal(a: string, b: string)
    ensures Le(a, b) || Le(b, a)
    decreases |a|
  {
    if |a| > 0 && |b| > 0 && a[0] == b[0] { LeTotal(a[1..], b[1..]); }
  }

  lemma {:induction false} LeTransitive(a: string, b: string, c: string)
    requires Le(a, b) && Le(b, c)
    ensures Le(a, c)
    decreases |a|
  {
    if |a| > 0 && |b| > 0 && |c| > 0 && a[0] == b[0] && b[0] == c[0] {
      LeTransitive(a[1..], b[1..], c[1..]);
    }
  }

  lemma {:induction false} LeAntisymmetric(a: string, b: string)
    requires Le(a, b) && Le(b, a)
    ensures a == b
    decreases |a|
  {
    if |a| > 0 && |b| > 0 {
      LeAntisymmetric(a[1..], b[1..]);
      assert a == [a[0]] + a[1..] && b == [b[0]] + b[1..];
    }
  }
}

=== FILE: feed.dfy ===
/**
  The RSS feed (app/feed.xml/route.ts): one item for each of the 20 newest
  articles. The XML around the items and the date formatting
  (`toUTCString`, a parameter here) are not modelled.
 */
module Feed {
  import opened Nullable
  import opened Text
  import Sequences
  import Xml
  import Articles

  const SiteUrl: string := "https://qatar-standard.com"
  const FeedSize: int := 20

  datatype Item = Item(title: string, link: string, guid: string, description: string,
                       pubDate: string, mediaUrl: Option<string>)

  /** `SITE_URL/article/slug`. */
  function ArticleLink(slug: string): string {
    SiteUrl + "/article/" + slug
  }

  /** A site-relative image URL (one starting with `/`) is made absolute;
      any other non-empty URL is kept; an empty or null one gives no image. */
  function AbsoluteImageUrl(imageUrl: Option<string>): (r: Option<string>)
    ensures r.Some? <==> Truthy(imageUrl)
    ensures r.Some? && StartsWith(imageUrl.value, "/") ==> r.value == SiteUrl + imageUrl.value
    ensures r.Some? && !StartsWith(imageUrl.value, "/") ==> r.value == imageUrl.value
    ensures r.Some? ==> !StartsWith(r.value, "/")
  {
    if !Truthy(imageUrl) then None
    else if StartsWith(imageUrl.value, "/") then
      assert (SiteUrl + imageUrl.value)[0] == 'h';
      Some(SiteUrl + imageUrl.value)
    else imageUrl
  }

  /** Making a URL absolute twice changes nothing more. */
  lemma AbsoluteImageUrlIdempotent(imageUrl: Option<string>)
    ensures AbsoluteImageUrl(AbsoluteImageUrl(imageUrl)) == AbsoluteImageUrl(imageUrl)
  {
  }

  /** The item of one article; `utc` stands for `new Date(…).toUTCString()`. */
  function ItemOf(a: Articles.Article, utc: string -> string): (it: Item)
    ensures Xml.Decode(it.title) == Or(a.data.titleEn, a.data.titleAr)
    ensures Xml.Decode(it.description) == Or(a.data.excerptEn, OrEmpty(a.data.excerptAr))
    ensures it.link == it.guid == ArticleLink(a.data.slug)
    ensures it.mediaUrl.Some? <==> Truthy(a.data.imageUrl)
    ensures it.mediaUrl.Some? ==> Xml.Decode(it.mediaUrl.value) == AbsoluteImageUrl(a.data.imageUrl).value
    ensures Xml.Escaped(it.title, true) && Xml.Escaped(it.description, true)
  {
    var title := Or(a.data.titleEn, a.data.titleAr);
    var desc := Or(a.data.excerptEn, OrEmpty(a.data.excerptAr));
    var image := AbsoluteImageUrl(a.data.imageUrl);
    Xml.FeedRoundTrip(title);
    Xml.FeedRoundTrip(desc);
    Xml.FeedEscapeIsPerChar(title);
    Xml.EscapeEachIsSafe(title, true);
    Xml.FeedEscapeIsPerChar(desc);
    Xml.EscapeEachIsSafe(desc, true);
    Xml.FeedRoundTrip(if image.Some? then image.value else "");
    Item(Xml.FeedEscape(title), ArticleLink(a.data.slug), ArticleLink(a.data.slug),
         Xml.FeedEscape(desc), utc(a.data.publishedAt),
         if image.Some? then Some(Xml.FeedEscape(image.value)) else None)
  }

  function ItemsOf(s: seq<Articles.Article>, utc: string -> string): (r: seq<Item>)
    ensures |r| == |s|
    ensures forall k :: 0 <= k < |s| ==> r[k] == ItemOf(s[k], utc)
  {
    if |s| == 0 then [] else [ItemOf(s[0], utc)] + ItemsOf(s[1..], utc)
  }

  /** The articles the feed shows, `getArticles({ limit: 20 })`: the first 20
      of a newest-first order of the whole store. Among articles with equal
      dates the order is the database's, so the statement is about some such
      order. */
  function FeedArticles(st: Articles.Store): (page: seq<Articles.Article>)
    ensures |page| == if |st.rows| < FeedSize then |st.rows| else FeedSize
    ensures forall k :: 0 <= k < |page| ==> page[k] in st.rows
    ensures exists all :: Articles.SortedDesc(all) && multiset(all) == multiset(st.rows)
                          && page == Sequences.Page(all, FeedSize, 0)
  {
    var all := Articles.Matching(st, None);
    Articles.FirstPageOfAll(st, FeedSize);
    assert |all| == |multiset(all)| == |st.rows|;
    Articles.GetArticles(st, Some(FeedSize), None, None)
  }

  /** `GET /feed.xml`: the items of the 20 newest articles, newest first. */
  function Items(st: Articles.Store, utc: string -> string): (r: seq<Item>)
    ensures |r| == if |st.rows| < FeedSize then |st.rows| else FeedSize
    ensures forall k :: 0 <= k < |r| ==> exists a :: a in st.rows && r[k] == ItemOf(a, utc)
  {
    var page := FeedArticles(st);
    ItemsOfStored(page, st.rows, utc);
    ItemsOf(page, utc)
  }

  /** The item at each position is the item of the feed's article at that
      position, so the items come in the articles' newest-first order. */
  lemma ItemsAreFeedItems(st: Articles.Store, utc: string -> string)
    ensures |Items(st, utc)| == |FeedArticles(st)|
    ensures forall k :: 0 <= k < |Items(st, utc)| ==> Items(st, utc)[k] == ItemOf(FeedArticles(st)[k], utc)
  {
  }

  lemma ItemsOfStored(page: seq<Articles.Article>, rows: seq<Articles.Article>, utc: string -> string)
    requires forall k :: 0 <= k < |page| ==> page[k] in rows
    ensures forall k :: 0 <= k < |page| ==> exists a :: a in rows && ItemsOf(page, utc)[k] == ItemOf(a, utc)
  {
    var r := ItemsOf(page, utc);
    forall k | 0 <= k < |page| ensures exists a :: a in rows && r[k] == ItemOf(a, utc) {
      assert page[k] in rows && r[k] == ItemOf(page[k], utc);
    }
  }
}

=== FILE: fix_somaliland.dfy ===
/**
  The one-off translation fix (fix-somaliland.cjs): the English body of one
  article is translated to Arabic, first by OpenAI and then by Groq, and
  the Arabic body and excerpt are rewritten when a translation comes back.
  Each provider call is an input: what it returned, or that it threw.
 */
module FixSomaliland {
  import opened Nullable
  import opened Text
  import Generate

  const ExcerptLength: nat := 300

  /** An OpenAI call: it threw (network, JSON or a reply without
      `choices`), answered with a non-ok status, or answered ok with the
      message content, if any. */
  datatype OpenAiCall = OpenAiThrew | OpenAiNotOk | OpenAiOk(content: Option<string>)

  /** A Groq call; unlike OpenAI, nothing catches its exception. */
  datatype GroqCall = GroqThrew | GroqNotOk | GroqOk(content: Option<string>)

  /** The outcome of `translate`: a value (`None` for `null` or `undefined`),
      or the exception that escapes it. */
  datatype Translation = Returned(text: Option<string>) | Rejected

  /** `content?.trim()`. */
  function TrimContent(c: Option<string>): (r: Option<string>)
    ensures r.None? <==> c.None?
    ensures r.Some? ==> r.value == Trim(c.value)
  {
    match c
    case None => None
    case Some(v) => Some(Trim(v))
  }

  /** `translate(text)`. A key is used when it is set and non-empty. */
  function Translate(openAiKey: Option<string>, groqKey: Option<string>, openAi: OpenAiCall, groq: GroqCall): (r: Translation)
    ensures Truthy(openAiKey) && openAi.OpenAiOk? ==> r == Returned(TrimContent(openAi.content))
    ensures (!Truthy(openAiKey) || !openAi.OpenAiOk?) && Truthy(groqKey) ==>
      r == match groq
           case GroqThrew => Rejected
           case GroqNotOk => Returned(None)
           case GroqOk(c) => Returned(TrimContent(c))
    ensures (!Truthy(openAiKey) || !openAi.OpenAiOk?) && !Truthy(groqKey) ==> r == Returned(None)
  {
    if Truthy(openAiKey) && openAi.OpenAiOk? then Returned(TrimContent(openAi.content))
    else if Truthy(groqKey) then
      match groq
      case GroqThrew => Rejected
      case GroqNotOk => Returned(None)
      case GroqOk(c) => Returned(TrimContent(c))
    else Returned(None)
  }

  /** A failing OpenAI call changes nothing: the outcome is what Groq alone
      gives, as if OpenAI had no key. */
  lemma OpenAiFailureFallsThrough(openAiKey: Option<string>, groqKey: Option<string>, openAi: OpenAiCall, groq: GroqCall)
    requires !openAi.OpenAiOk?
    ensures Translate(openAiKey, groqKey, openAi, groq) == Translate(None, groqKey, openAi, groq)
  {
  }

  /** Groq is asked only when OpenAI did not answer ok: an ok OpenAI answer,
      even an empty one, decides the outcome whatever Groq would do. */
  lemma GroqOnlyAfterOpenAi(openAiKey: Option<string>, groqKey: Option<string>, openAi: OpenAiCall, g1: GroqCall, g2: GroqCall)
    requires Truthy(openAiKey) && openAi.OpenAiOk?
    ensures Translate(openAiKey, groqKey, openAi, g1) == Translate(openAiKey, groqKey, openAi, g2)
    ensures Translate(openAiKey, groqKey, openAi, g1).Returned?
  {
  }

  /** Only an unset OpenAI path and a throwing Groq call make `translate`
      reject. */
  lemma RejectsOnlyThroughGroq(openAiKey: Option<string>, groqKey: Option<string>, openAi: OpenAiCall, groq: GroqCall)
    ensures Translate(openAiKey, groqKey, openAi, groq).Rejected? <==>
      (!Truthy(openAiKey) || !openAi.OpenAiOk?) && Truthy(groqKey) && groq.GroqThrew?
  {
  }

  /** The values written to the row. */
  datatype Update = Update(bodyAr: string, excerptAr: string)

  /** `body_ar.split(/[.!؟]/)[0]?.trim().slice(0, 300) || ''`. */
  function ExcerptOf(body: string): (r: string)
    ensures |r| <= ExcerptLength
    ensures var e := Generate.Excerpt(body, Generate.ArabicStops);
      |r| == if |e| < ExcerptLength then |e| else ExcerptLength
    ensures StartsWith(Generate.Excerpt(body, Generate.ArabicStops), r)
    ensures forall k :: 0 <= k < |r| ==> r[k] !in Generate.ArabicStops
  {
    Take(Generate.Excerpt(body, Generate.ArabicStops), ExcerptLength)
  }

  /** The script's effect on the row: an update only when the translation
      is truthy; a rejected translation ends the script with no update. */
  function Fix(t: Translation): (r: Option<Update>)
    ensures r.Some? <==> t.Returned? && Truthy(t.text)
    ensures r.Some? ==> r.value.bodyAr == t.text.value && r.value.excerptAr == ExcerptOf(t.text.value)
  {
    if t.Returned? && Truthy(t.text) then Some(Update(t.text.value, ExcerptOf(t.text.value)))
    else None
  }

  /** An empty reply, a missing one and no provider at all leave the row
      as it is. */
  lemma NoUpdateWithoutTranslation(openAiKey: Option<string>, groqKey: Option<string>, openAi: OpenAiCall, groq: GroqCall)
    requires !Truthy(openAiKey) && !Truthy(groqKey)
    ensures Fix(Translate(openAiKey, groqKey, openAi, groq)).None?
  {
  }

  /** An excerpt of a text without terminators is the text itself, trimmed
      and cut to 300 characters. */
  lemma ExcerptOfPlainText(body: string)
    requires forall k :: 0 <= k < |body| ==> body[k] !in Generate.ArabicStops
    ensures ExcerptOf(body) == Take(Trim(body), ExcerptLength)
  {
  }
}

=== FILE: generate.dfy ===
/**
  The article ingest endpoint, `POST /api/generate` (app/api/generate/route.ts).

  Checks run in a fixed order: credential, then JSON, then title. The
  language-model expansion is a pair of abstract completions; the slug's
  library parts (`slugify`, `Math.random().toString(36)`) are inputs.
 */
module Generate {
  import opened Nullable
  import opened Text
  import Articles

  const DefaultApiKey: string := "qatar-standard-2024"

  /** `process.env.WEBSITE_API_KEY || 'qatar-standard-2024'`. */
  function ApiKey(configured: Option<string>): (r: string)
    ensures r != ""
    ensures Truthy(configured) ==> r == configured.value
  {
    Or(configured, DefaultApiKey)
  }

  datatype Headers = Headers(apiKey: Option<string>, authorization: Option<string>)

  /** The credential a request presents: `x-api-key`, else `Authorization`
      with its first `Bearer ` removed (wherever it occurs). */
  function Credential(h: Headers): (r: Option<string>)
    ensures Truthy(h.apiKey) ==> r == h.apiKey
    ensures !Truthy(h.apiKey) && h.authorization.None? ==> r.None?
    ensures !Truthy(h.apiKey) && h.authorization.Some? && StartsWith(h.authorization.value, "Bearer ") ==>
      r == Some(h.authorization.value[7..])
    ensures !Truthy(h.apiKey) && h.authorization.Some? && !Contains(h.authorization.value, "Bearer ") ==>
      r == h.authorization
    ensures !Truthy(h.apiKey) && h.authorization.Some? && Contains(h.authorization.value, "Bearer ") ==>
      var a := h.authorization.value;
      exists i :: 0 <= i && i + 7 <= |a| && OccursAt(a, "Bearer ", i)
                  && (forall j :: 0 <= j < i ==> !OccursAt(a, "Bearer ", j))
                  && r == Some(a[..i] + a[i + 7..])
  {
    if Truthy(h.apiKey) then h.apiKey
    else match h.authorization
      case None => None
      case Some(a) =>
        var i := IndexOf(a, "Bearer ");
        assert i != -1 ==> a[..i] + "" + a[i + 7..] == a[..i] + a[i + 7..];
        if StartsWith(a, "Bearer ") then StripPrefix(a, "Bearer ", "");
          assert "" + a[|"Bearer "|..] == a[7..];
          Some(ReplaceFirst(a, "Bearer ", "")) else
        Some(ReplaceFirst(a, "Bearer ", ""))
  }

  datatype Speaker = Speaker(name: Option<string>, title: Option<string>)

  /** The parsed JSON body; every field may be missing. */
  datatype RequestBody = RequestBody(
    title: Option<string>,
    titleAr: Option<string>,
    titleEn: Option<string>,
    tweetAr: Option<string>,
    tweetEn: Option<string>,
    context: Option<string>,
    imageUrl: Option<string>,
    speaker: Option<Speaker>,
    category: Option<string>,
    source: Option<string>,
    publishedAt: Option<string>)

  /** One chat-completion request: it throws, or yields the reply's content
      (absent when the reply has no `choices[0].message.content`). */
  datatype Completion = Threw | Replied(content: Option<string>)

  /** `d.choices?.[0]?.message?.content?.trim() || ''`. */
  function ReplyText(content: Option<string>): (r: string)
    ensures r == Trim(r)
    ensures content.Some? ==> r == Trim(content.value)
    ensures content.None? ==> r == ""
  {
    match content
    case None => ""
    case Some(c) => TrimIdempotent(c); Trim(c)
  }

  /** `expandToArticle`: throws without an OpenAI key or when either
      concurrent completion throws; otherwise the two trimmed replies. */
  function ExpandToArticle(openAiKey: Option<string>, ar: Completion, en: Completion): (r: Option<(string, string)>)
    ensures r.None? <==> !Truthy(openAiKey) || ar.Threw? || en.Threw?
    ensures r.Some? ==> ar.Replied? && en.Replied?
                        && r.value == (ReplyText(ar.content), ReplyText(en.content))
    ensures r.Some? ==> r.value.0 == Trim(r.value.0) && r.value.1 == Trim(r.value.1)
  {
    if !Truthy(openAiKey) then None
    else match (ar, en)
      case (Replied(a), Replied(e)) => Some((ReplyText(a), ReplyText(e)))
      case _ => None
  }

  /** The origin text the Arabic prompt quotes: `tweet_ar || tweet_en || title`. */
  function ArabicPromptOrigin(b: RequestBody, title: string): (r: string)
    ensures Truthy(b.tweetAr) ==> r == b.tweetAr.value
    ensures !Truthy(b.tweetAr) && Truthy(b.tweetEn) ==> r == b.tweetEn.value
    ensures !Truthy(b.tweetAr) && !Truthy(b.tweetEn) ==> r == title
  {
    Or(b.tweetAr, Or(b.tweetEn, title))
  }

  /** The origin text the English prompt quotes: `tweet_en || tweet_ar || title`. */
  function EnglishPromptOrigin(b: RequestBody, title: string): (r: string)
    ensures Truthy(b.tweetEn) ==> r == b.tweetEn.value
    ensures !Truthy(b.tweetEn) && Truthy(b.tweetAr) ==> r == b.tweetAr.value
    ensures !Truthy(b.tweetEn) && !Truthy(b.tweetAr) ==> r == title
  {
    Or(b.tweetEn, Or(b.tweetAr, title))
  }

  /** Each prompt quotes a non-empty origin text, and the two prompts agree
      whenever at most one tweet is given. */
  lemma PromptOriginsAgree(b: RequestBody, title: string)
    requires title != ""
    ensures ArabicPromptOrigin(b, title) != "" && EnglishPromptOrigin(b, title) != ""
    ensures !(Truthy(b.tweetAr) && Truthy(b.tweetEn)) ==>
      ArabicPromptOrigin(b, title) == EnglishPromptOrigin(b, title)
  {
  }

  // ---------------------------------------------------------------------------
  // Slug

  predicate IsBase36Digit(c: char) {
    ('0' <= c <= '9') || ('a' <= c <= 'z')
  }

  /** What `Math.random().toString(36)` can print: `0`, or `0.` and base-36 digits. */
  predicate IsRandomBase36(s: string) {
    s == "0" || (|s| >= 2 && s[..2] == "0." && forall k :: 2 <= k < |s| ==> IsBase36Digit(s[k]))
  }

  /** `Math.random().toString(36).slice(2, 6)`. */
  function RandomSuffix(random: string): (r: string)
    requires IsRandomBase36(random)
    ensures |r| <= 4
    ensures forall k :: 0 <= k < |r| ==> IsBase36Digit(r[k])
  {
    if |random| <= 2 then "" else random[2..if |random| < 6 then |random| else 6]
  }

  /** `makeSlug`: the slugified title cut to 60 characters, or `article` when
      that is empty, a dash, and up to four base-36 characters. */
  function MakeSlug(slugified: string, random: string): (r: string)
    requires IsRandomBase36(random)
    ensures exists base, rand ::
      && r == base + "-" + rand
      && (slugified == "" ==> base == "article")
      && (slugified != "" ==> base != "" && StartsWith(slugified, base))
      && |base| == (if slugified == "" then 7 else if |slugified| < 60 then |slugified| else 60)
      && |rand| <= 4 && (forall k :: 0 <= k < |rand| ==> IsBase36Digit(rand[k]))
    ensures |r| <= 65
  {
    var base := Take(slugified, 60);
    var rand := RandomSuffix(random);
    var b := if base == "" then "article" else base;
    b + "-" + rand
  }

  // ---------------------------------------------------------------------------
  // Bodies and excerpts

  /** The bodies stored: the expansion, or when it throws the tweet of each
      language, falling back to the title. */
  function Bodies(b: RequestBody, title: string, expanded: Option<(string, string)>): (r: (string, string))
    ensures expanded.Some? ==> r == expanded.value
    ensures expanded.None? ==> r.0 == Or(b.tweetAr, title) && r.1 == Or(b.tweetEn, title)
  {
    match expanded
    case Some(pair) => pair
    case None => (Or(b.tweetAr, title), Or(b.tweetEn, title))
  }

  /** When the expansion throws, both bodies are non-empty and each is the
      request's own text: its tweet, or the title. */
  lemma DegradedBodiesNonEmpty(b: RequestBody, title: string)
    requires title != ""
    ensures var r := Bodies(b, title, None);
      && r.0 != "" && r.1 != ""
      && (r.0 == title || (b.tweetAr.Some? && r.0 == b.tweetAr.value))
      && (r.1 == title || (b.tweetEn.Some? && r.1 == b.tweetEn.value))
  {
  }

  /** The bodies are not always non-empty: a completion that answers without
      content (an error object, which `fetch` does not throw on) stores an
      empty body. */
  lemma EmptyReplyGivesEmptyBodies(b: RequestBody, title: string, key: string)
    requires key != ""
    ensures Bodies(b, title, ExpandToArticle(Some(key), Replied(None), Replied(None))) == ("", "")
  {
  }

  const ArabicStops: set<char> := {'.', '!', '؟'}
  const EnglishStops: set<char> := {'.', '!'}

  /** `body.split(/[stops]/)[0]?.trim() || ''`: the trimmed text before the
      first sentence terminator; the whole trimmed body when there is none. */
  function Excerpt(body: string, stops: set<char>): (r: string)
    ensures forall k :: 0 <= k < |r| ==> r[k] !in stops
    ensures r == Trim(r)
    ensures (forall k :: 0 <= k < |body| ==> body[k] !in stops) ==> r == Trim(body)
    ensures exists n :: 0 <= n <= |body| && r == Trim(body[..n])
                        && (n < |body| ==> body[n] in stops)
                        && (forall k :: 0 <= k < n ==> body[k] !in stops)
  {
    ExcerptFacts(body, stops);
    Trim(FirstSegment(body, stops))
  }

  lemma ExcerptFacts(body: string, stops: set<char>)
    ensures var r := Trim(FirstSegment(body, stops));
      && (forall k :: 0 <= k < |r| ==> r[k] !in stops)
      && r == Trim(r)
      && ((forall k :: 0 <= k < |body| ==> body[k] !in stops) ==> r == Trim(body))
      && FirstSegment(body, stops) == body[..|FirstSegment(body, stops)|]
  {
    var seg := FirstSegment(body, stops);
    var r := Trim(seg);
    TrimIdempotent(seg);
    var i := LeadingSpaces(seg);
    forall k | 0 <= k < |r| ensures r[k] !in stops {
      assert r[k] == seg[i + k];
    }
    if forall k :: 0 <= k < |body| ==> body[k] !in stops {
      assert seg == body;
    }
  }

  // ---------------------------------------------------------------------------
  // The handler

  /** What `req.json()` yields: it rejects (not JSON), resolves to `null`
      (the literal `null`), or to an object. */
  datatype Payload = NotJson | JsonNull | Object(fields: RequestBody)

  datatype Response =
    | Unauthorized                    // 401 { error: 'unauthorized' }
    | Crashed                         // 500: `body.title` read on `null` throws
    | BadRequest(error: string)       // 400 { error }
    | Created(slug: string, id: int)  // 201 { success, slug, id }

  /** The process environment the handler reads. */
  datatype Env = Env(websiteApiKey: Option<string>, openAiKey: Option<string>)

  /** The row the handler asks `createArticle` to store, for a body with a title. */
  function BuildArticle(b: RequestBody, slugified: string -> string, random: string,
                        expanded: Option<(string, string)>, now: string): (d: Articles.ArticleData)
    requires Truthy(b.title) && IsRandomBase36(random)
    ensures d.category == Or(b.category, "general")
    ensures d.titleAr == Or(b.titleAr, b.title.value) && d.titleEn == Some(Or(b.titleEn, b.title.value))
    ensures d.slug == MakeSlug(slugified(Or(b.titleEn, b.title.value)), random)
    ensures d.source == Or(b.source, "bot")
    ensures d.publishedAt == Or(b.publishedAt, now)
    ensures d.imageUrl == OrNull(b.imageUrl) && d.tweetAr == OrNull(b.tweetAr) && d.tweetEn == OrNull(b.tweetEn)
    ensures b.speaker.None? ==> d.speakerName.None? && d.speakerTitle.None?
    ensures b.speaker.Some? ==>
      d.speakerName == OrNull(b.speaker.value.name) && d.speakerTitle == OrNull(b.speaker.value.title)
    ensures d.bodyEn.Some? && d.excerptAr == Some(Excerpt(d.bodyAr, ArabicStops))
                           && d.excerptEn == Some(Excerpt(d.bodyEn.value, EnglishStops))
    ensures expanded.None? ==> d.bodyAr != "" && d.bodyEn.value != ""
  {
    var title := b.title.value;
    var titleEn := Or(b.titleEn, title);
    var bodies := Bodies(b, title, expanded);
    Articles.ArticleData(
      slug := MakeSlug(slugified(titleEn), random),
      titleAr := Or(b.titleAr, title),
      titleEn := Some(titleEn),
      bodyAr := bodies.0,
      bodyEn := Some(bodies.1),
      excerptAr := Some(Excerpt(bodies.0, ArabicStops)),
      excerptEn := Some(Excerpt(bodies.1, EnglishStops)),
      category := Or(b.category, "general"),
      imageUrl := OrNull(b.imageUrl),
      source := Or(b.source, "bot"),
      tweetAr := OrNull(b.tweetAr),
      tweetEn := OrNull(b.tweetEn),
      speakerName := if b.speaker.Some? then OrNull(b.speaker.value.name) else None,
      speakerTitle := if b.speaker.Some? then OrNull(b.speaker.value.title) else None,
      publishedAt := Or(b.publishedAt, now))
  }

  /** `POST /api/generate`. `slugify` and `random` stand for the slug library
      and `Math.random().toString(36)`; `now` is `new Date().toISOString()`,
      the default publication date; `dbNow` is SQLite's `CURRENT_TIMESTAMP`,
      which fills `created_at`. */
  function Post(st: Articles.Store, env: Env, h: Headers, body: Payload,
                slugify: string -> string, random: string, ar: Completion, en: Completion,
                now: string, dbNow: string): (r: (Response, Articles.Store))
    requires IsRandomBase36(random)
    ensures Credential(h) != Some(ApiKey(env.websiteApiKey)) ==> r == (Unauthorized, st)
    ensures Credential(h) == Some(ApiKey(env.websiteApiKey)) && body.NotJson? ==>
      r == (BadRequest("invalid json"), st)
    ensures Credential(h) == Some(ApiKey(env.websiteApiKey)) && body.JsonNull? ==> r == (Crashed, st)
    ensures Credential(h) == Some(ApiKey(env.websiteApiKey)) && body.Object? && !Truthy(body.fields.title) ==>
      r == (BadRequest("title required"), st)
    ensures r.0.Created? <==> Credential(h) == Some(ApiKey(env.websiteApiKey)) && body.Object? && Truthy(body.fields.title)
    ensures r.0.Created? ==>
      && Articles.Valid(st) ==> Articles.Valid(r.1)
    ensures r.0.Created? ==>
      var d := BuildArticle(body.fields, slugify, random, ExpandToArticle(env.openAiKey, ar, en), now);
      && r.0.slug == d.slug
      && Articles.GetArticleBySlug(r.1, d.slug).Some?
      && (!Articles.HasSlug(st.rows, d.slug) ==>
            r.1.rows == st.rows + [Articles.Article(st.nextId, dbNow, d)] && r.0.id == st.nextId)
      && (Articles.HasSlug(st.rows, d.slug) ==>
            r.1 == st && r.0.id == Articles.GetArticleBySlug(st, d.slug).value.id)
  {
    if Credential(h) != Some(ApiKey(env.websiteApiKey)) then (Unauthorized, st)
    else if body.NotJson? then (BadRequest("invalid json"), st)
    else if body.JsonNull? then (Crashed, st)
    else if !Truthy(body.fields.title) then (BadRequest("title required"), st)
    else
      var expanded := ExpandToArticle(env.openAiKey, ar, en);
      var d := BuildArticle(body.fields, slugify, random, expanded, now);
      var created := Articles.CreateArticle(st, d, dbNow);
      (Created(created.1.data.slug, created.1.id), created.0)
  }
}

=== FILE: news_sitemap.dfy ===
/**
  The Google News sitemap (app/news-sitemap.xml/route.ts): the articles
  published in the last 48 hours, taken from the 1000 newest. Date parsing
  and formatting are parameters: `parse` gives the milliseconds of a
  `published_at` value, `None` for an invalid date (which compares false).
 */
module NewsSitemap {
  import opened Nullable
  import opened Sequences
  import Xml
  import Feed
  import Articles

  const WindowMs: int := 48 * 60 * 60 * 1000
  const ScanSize: int := 1000

  datatype Entry = Entry(loc: string, language: string, publicationDate: string, title: string)

  /** `new Date(published_at) > cutoff`, with `cutoff = now - 48h`. */
  function IsFresh(a: Articles.Article, now: int, parse: string -> Option<int>): (recent: bool)
    ensures recent <==> exists t :: parse(a.data.publishedAt) == Some(t) && now - t < WindowMs
  {
    var t := parse(a.data.publishedAt);
    t.Some? && t.value > now - WindowMs
  }

  function FreshFilter(now: int, parse: string -> Option<int>): Articles.Article -> bool {
    a => IsFresh(a, now, parse)
  }

  /** `a.title_en ? 'en' : 'ar'`. */
  function Language(a: Articles.Article): (lang: string)
    ensures lang == "en" <==> Truthy(a.data.titleEn)
    ensures lang == "ar" <==> !Truthy(a.data.titleEn)
  {
    if Truthy(a.data.titleEn) then "en" else "ar"
  }

  /** The entry of one article; `iso` stands for `toISOString`. */
  function EntryOf(a: Articles.Article, iso: string -> string): (e: Entry)
    ensures e.loc == Feed.ArticleLink(a.data.slug)
    ensures Xml.Decode(e.title) == Or(a.data.titleEn, a.data.titleAr)
    ensures e.language == Language(a)
  {
    var title := Or(a.data.titleEn, a.data.titleAr);
    Xml.SitemapRoundTrip(title);
    Entry(Feed.ArticleLink(a.data.slug), Language(a), iso(a.data.publishedAt), Xml.SitemapEscape(Some(title)))
  }

  function EntriesOf(s: seq<Articles.Article>, iso: string -> string): (r: seq<Entry>)
    ensures |r| == |s|
    ensures forall k :: 0 <= k < |s| ==> r[k] == EntryOf(s[k], iso)
  {
    if |s| == 0 then [] else [EntryOf(s[0], iso)] + EntriesOf(s[1..], iso)
  }

  /** The articles the sitemap lists: the fresh ones among the 1000 newest,
      in the same order. */
  function Listed(st: Articles.Store, now: int, parse: string -> Option<int>): (r: seq<Articles.Article>)
    ensures |r| <= ScanSize
    ensures forall k :: 0 <= k < |r| ==> r[k] in st.rows && IsFresh(r[k], now, parse)
    ensures Articles.SortedDesc(r)
    ensures exists all :: Articles.SortedDesc(all) && multiset(all) == multiset(st.rows)
                          && r == Filter(Page(all, ScanSize, 0), FreshFilter(now, parse))
  {
    var page := Articles.GetArticles(st, Some(ScanSize), None, None);
    Articles.FirstPageOfAll(st, ScanSize);
    var kept := Filter(page, FreshFilter(now, parse));
    FilterKeepsSorted(page, FreshFilter(now, parse));
    kept
  }

  /** The head of a newest-first sequence is newer than, or as new as, every
      later element. */
  lemma HeadIsNewest(s: seq<Articles.Article>, x: Articles.Article)
    requires Articles.SortedDesc(s) && |s| > 0 && x in s[1..]
    ensures Articles.NewerOrSame(s[0], x)
  {
    var m :| 0 <= m < |s[1..]| && s[1..][m] == x;
    assert s[m + 1] == x;
  }

  /** Filtering a newest-first sequence keeps it newest first. */
  lemma {:induction false} FilterKeepsSorted(s: seq<Articles.Article>, p: Articles.Article -> bool)
    requires Articles.SortedDesc(s)
    ensures Articles.SortedDesc(Filter(s, p))
  {
    if |s| > 0 {
      FilterKeepsSorted(s[1..], p);
      var rest := Filter(s[1..], p);
      if p(s[0]) {
        forall k | 0 <= k < |rest| ensures Articles.NewerOrSame(s[0], rest[k]) {
          HeadIsNewest(s, rest[k]);
        }
        ConsSorted(s[0], rest);
      }
    }
  }

  /** A newest-first sequence stays newest first behind an element at least
      as new as each of its own. */
  lemma ConsSorted(x: Articles.Article, rest: seq<Articles.Article>)
    requires Articles.SortedDesc(rest)
    requires forall k :: 0 <= k < |rest| ==> Articles.NewerOrSame(x, rest[k])
    ensures Articles.SortedDesc([x] + rest)
  {
    var r := [x] + rest;
    forall i, j | 0 <= i < j < |r| ensures Articles.NewerOrSame(r[i], r[j]) {
      assert r[j] == rest[j - 1];
      if i > 0 { assert r[i] == rest[i - 1]; }
    }
  }


  /** `GET /news-sitemap.xml`: one entry per listed article. */
  function Entries(st: Articles.Store, now: int, parse: string -> Option<int>, iso: string -> string): (r: seq<Entry>)
    ensures |r| <= ScanSize
    ensures forall k :: 0 <= k < |r| ==> exists a :: a in st.rows && IsFresh(a, now, parse) && r[k] == EntryOf(a, iso)
    ensures exists all :: Articles.SortedDesc(all) && multiset(all) == multiset(st.rows)
                          && r == EntriesOf(Filter(Page(all, ScanSize, 0), FreshFilter(now, parse)), iso)
  {
    var listed := Listed(st, now, parse);
    var r := EntriesOf(listed, iso);
    forall k | 0 <= k < |r| ensures exists a :: a in st.rows && IsFresh(a, now, parse) && r[k] == EntryOf(a, iso) {
      assert listed[k] in st.rows && IsFresh(listed[k], now, parse) && r[k] == EntryOf(listed[k], iso);
    }
    r
  }

  /** An article is listed exactly when it is fresh, once the store holds no
      more than 1000 articles. */
  lemma ListedIffFresh(st: Articles.Store, now: int, parse: string -> Option<int>, a: Articles.Article)
    requires |st.rows| <= ScanSize
    ensures a in Listed(st, now, parse) <==> a in st.rows && IsFresh(a, now, parse)
  {
    var page := Articles.GetArticles(st, Some(ScanSize), None, None);
    Articles.CountIsUnpagedQuery(st, None);
    FilterAll(st.rows, Articles.CategoryFilter(None));
    assert multiset(page) == multiset(st.rows) by {
      Articles.PageOfSorted(Articles.Matching(st, None), ScanSize, 0);
      PageAll(Articles.Matching(st, None), ScanSize);
    }
    assert a in page <==> a in st.rows by {
      assert a in page <==> a in multiset(page);
      assert a in st.rows <==> a in multiset(st.rows);
    }
  }

  /** A page at least as long as the sequence is the whole sequence. */
  lemma PageAll<T>(s: seq<T>, limit: int)
    requires |s| <= limit
    ensures Page(s, limit, 0) == s
  {
  }
}

=== FILE: nullable.dfy ===
/**
  Nullable values and the JavaScript "truthiness" rules the application relies on.

  A nullable text column or an optional request field is an `Option<string>`;
  `None` stands for `null`/`undefined`. In JavaScript both `null` and the empty
  string are falsy, so `a || b` picks `b` for either of them.
 */
module Nullable {

  datatype Option<+T> = None | Some(value: T)

  /** `!!a` for a nullable string: present and non-empty. */
  predicate Truthy(a: Option<string>) {
    a.Some? && a.value != ""
  }

  /** JavaScript `a || b` where `a` is a nullable string and `b` a string. */
  function Or(a: Option<string>, b: string): (r: string)
    ensures Truthy(a) ==> r == a.value
    ensures !Truthy(a) ==> r == b
  {
    if Truthy(a) then a.value else b
  }

  /** JavaScript `a || null`: an empty string becomes `null`. */
  function OrNull(a: Option<string>): (r: Option<string>)
    ensures r.None? <==> !Truthy(a)
    ensures r.Some? ==> r == a && r.value != ""
  {
    if Truthy(a) then a else None
  }

  /** `a ?? ''`-style reading of a nullable column as text. */
  function OrEmpty(a: Option<string>): (r: string)
    ensures a.Some? ==> r == a.value
    ensures a.None? ==> r == ""
  {
    match a
    case Some(v) => v
    case None => ""
  }
}

=== FILE: rate_limit.dfy ===
/**
  The in-memory sliding-window rate limiter (lib/rate-limit.ts): a map from
  key to the timestamps (milliseconds) of the calls it accepted, a
  check-then-record `rateLimit`, and the sweep a five-minute timer runs.
  The clock is a parameter of every operation.
 */
module RateLimit {
  import opened Nullable
  import opened Text

  type Hits = map<string, seq<int>>

  /** The sweep keeps timestamps younger than this many milliseconds. */
  const CleanupAge: int := 120_000
  /** The sweep runs this often; the timer itself is not modelled. */
  const CleanupInterval: int := 300_000

  /** `hits.get(key) || []`: an array is truthy even when empty. */
  function Times(hits: Hits, key: string): seq<int> {
    if key in hits then hits[key] else []
  }

  /** `times.filter(t => now - t < window)`. */
  function Recent(times: seq<int>, now: int, window: int): (r: seq<int>)
    ensures |r| <= |times|
    ensures forall k :: 0 <= k < |r| ==> now - r[k] < window && r[k] in times
    ensures forall k :: 0 <= k < |times| && now - times[k] < window ==> times[k] in r
  {
    if |times| == 0 then []
    else (if now - times[0] < window then [times[0]] else []) + Recent(times[1..], now, window)
  }

  /** `rateLimit(key, max, window)` at time `now`: refused, with nothing
      recorded, when the key already holds `max` recent calls; otherwise
      accepted, and the key's list becomes its recent calls followed by `now`. */
  function RateLimit(hits: Hits, key: string, max: int, window: int, now: int): (r: (bool, Hits))
    ensures !r.0 <==> |Recent(Times(hits, key), now, window)| >= max
    ensures !r.0 ==> r.1 == hits
    ensures r.0 ==> key in r.1 && r.1[key] == Recent(Times(hits, key), now, window) + [now]
    ensures r.0 ==> |r.1[key]| <= max
    ensures forall k :: k != key ==> Times(r.1, k) == Times(hits, k)
    ensures r.1.Keys == hits.Keys || r.1.Keys == hits.Keys + {key}
  {
    var recent := Recent(Times(hits, key), now, window);
    if |recent| >= max then (false, hits)
    else (true, hits[key := recent + [now]])
  }

  /** The periodic sweep at time `now`: every list loses the timestamps at
      least two minutes old, and keys left with none are deleted. */
  function Cleanup(hits: Hits, now: int): (r: Hits)
    ensures forall k :: k in r <==> k in hits && Recent(hits[k], now, CleanupAge) != []
    ensures forall k :: Times(r, k) == Recent(Times(hits, k), now, CleanupAge)
  {
    map k | k in hits && Recent(hits[k], now, CleanupAge) != [] :: Recent(hits[k], now, CleanupAge)
  }

  /** Filtering at an earlier time with a longer window, then at `now`, is
      filtering at `now`. */
  lemma {:induction false} RecentNested(times: seq<int>, c: int, age: int, now: int, window: int)
    requires c - age <= now - window
    ensures Recent(Recent(times, c, age), now, window) == Recent(times, now, window)
  {
    if |times| > 0 {
      RecentNested(times[1..], c, age, now, window);
      var head := if c - times[0] < age then [times[0]] else [];
      RecentAppend(head, Recent(times[1..], c, age), now, window);
    }
  }

  lemma {:induction false} RecentAppend(a: seq<int>, b: seq<int>, now: int, window: int)
    ensures Recent(a + b, now, window) == Recent(a, now, window) + Recent(b, now, window)
  {
    if |a| == 0 {
      assert a + b == b;
    } else {
      assert (a + b)[1..] == a[1..] + b;
      RecentAppend(a[1..], b, now, window);
    }
  }

  /** With a window no longer than two minutes, a sweep at any earlier time
      never changes the answer of a later `rateLimit`. */
  lemma CleanupTransparent(hits: Hits, key: string, max: int, window: int, c: int, now: int)
    requires window <= CleanupAge && c <= now
    ensures RateLimit(Cleanup(hits, c), key, max, window, now).0 == RateLimit(hits, key, max, window, now).0
  {
    RecentNested(Times(hits, key), c, CleanupAge, now, window);
  }

  // ---------------------------------------------------------------------------
  // The bound over a run

  datatype Event = Call(key: string, now: int) | Sweep(now: int)

  function EventTime(e: Event): int {
    match e
    case Call(_, now) => now
    case Sweep(now) => now
  }

  /** The clock never goes backwards. */
  predicate NonDecreasing(events: seq<Event>) {
    forall i, j :: 0 <= i < j < |events| ==> EventTime(events[i]) <= EventTime(events[j])
  }

  /** The store after one event. */
  function Next(hits: Hits, e: Event, max: int, window: int): Hits {
    match e
    case Call(k, now) => RateLimit(hits, k, max, window, now).1
    case Sweep(now) => Cleanup(hits, now)
  }

  /** The time of `e` when it is a call for `key` that the limiter accepts. */
  function AcceptedNow(hits: Hits, e: Event, max: int, window: int, key: string): seq<int> {
    match e
    case Call(k, now) => if RateLimit(hits, k, max, window, now).0 && k == key then [now] else []
    case Sweep(_) => []
  }

  /** The times at which calls for `key` were accepted while `events` ran,
      every call using the same `max` and `window`. */
  function Accepted(hits: Hits, events: seq<Event>, max: int, window: int, key: string): seq<int>
    decreases |events|
  {
    if |events| == 0 then []
    else AcceptedNow(hits, events[0], max, window, key) + Accepted(Next(hits, events[0], max, window), events[1..], max, window, key)
  }

  /** Number of elements at least `x`. */
  function CountGe(s: seq<int>, x: int): nat {
    if |s| == 0 then 0 else (if s[0] >= x then 1 else 0) + CountGe(s[1..], x)
  }

  /** Number of elements in `[lo, hi)`. */
  function CountIn(s: seq<int>, lo: int, hi: int): nat {
    if |s| == 0 then 0 else (if lo <= s[0] < hi then 1 else 0) + CountIn(s[1..], lo, hi)
  }

  lemma {:induction false} CountGeAppend(a: seq<int>, b: seq<int>, x: int)
    ensures CountGe(a + b, x) == CountGe(a, x) + CountGe(b, x)
  {
    if |a| == 0 {
      assert a + b == b;
    } else {
      assert (a + b)[1..] == a[1..] + b;
      CountGeAppend(a[1..], b, x);
    }
  }

  lemma {:induction false} CountInAppend(a: seq<int>, b: seq<int>, lo: int, hi: int)
    ensures CountIn(a + b, lo, hi) == CountIn(a, lo, hi) + CountIn(b, lo, hi)
  {
    if |a| == 0 {
      assert a + b == b;
    } else {
      assert (a + b)[1..] == a[1..] + b;
      CountInAppend(a[1..], b, lo, hi);
    }
  }

  lemma {:induction false} CountInAtMostCountGe(s: seq<int>, lo: int, hi: int)
    ensures CountIn(s, lo, hi) <= CountGe(s, lo)
  {
    if |s| > 0 { CountInAtMostCountGe(s[1..], lo, hi); }
  }

  lemma {:induction false} CountGeAntitone(s: seq<int>, x: int, y: int)
    requires x <= y
    ensures CountGe(s, y) <= CountGe(s, x)
  {
    if |s| > 0 { CountGeAntitone(s[1..], x, y); }
  }

  /** Filtering by a window keeps every timestamp later than `now - window`. */
  lemma {:induction false} CountGeRecent(s: seq<int>, now: int, window: int, x: int)
    requires x > now - window
    ensures CountGe(Recent(s, now, window), x) == CountGe(s, x)
  {
    if |s| > 0 {
      CountGeRecent(s[1..], now, window, x);
      var head := if now - s[0] < window then [s[0]] else [];
      CountGeAppend(head, Recent(s[1..], now, window), x);
    }
  }

  lemma {:induction false} RecentLength(s: seq<int>, now: int, window: int)
    ensures |Recent(s, now, window)| == CountGe(s, now - window + 1)
  {
    if |s| > 0 {
      RecentLength(s[1..], now, window);
      var head := if now - s[0] < window then [s[0]] else [];
      assert |head + Recent(s[1..], now, window)| == |head| + |Recent(s[1..], now, window)|;
    }
  }

  /** Number of elements in the window of length `window` starting at `t`. */
  function InWindow(s: seq<int>, t: int, window: int): nat {
    CountIn(s, t, t + window)
  }

  /** No window of length `window` holds more than `max` of the times in `acc`. */
  ghost predicate WithinBound(acc: seq<int>, max: int, window: int) {
    forall t :: InWindow(acc, t, window) <= max
  }

  /** After the clock has reached `c`, the stored list of `key` agrees with
      the accepted times `acc` on every timestamp that can still be recent. */
  ghost predicate Tracks(hits: Hits, key: string, acc: seq<int>, c: int, window: int) {
    forall x :: x > c - window ==> CountGe(Times(hits, key), x) == CountGe(acc, x)
  }

  /** One accepted call at `now` keeps the bound. */
  lemma AcceptKeepsBound(acc: seq<int>, stored: seq<int>, max: int, window: int, c: int, now: int)
    requires WithinBound(acc, max, window) && c <= now
    requires forall x :: x > c - window ==> CountGe(stored, x) == CountGe(acc, x)
    requires |Recent(stored, now, window)| < max
    ensures WithinBound(acc + [now], max, window)
  {
    RecentLength(stored, now, window);
    forall t
      ensures InWindow(acc + [now], t, window) <= max
    {
      CountInAppend(acc, [now], t, t + window);
      assert CountIn([now], t, t + window) == if t <= now < t + window then 1 else 0;
      if t <= now < t + window {
        CountInAtMostCountGe(acc, t, t + window);
        CountGeAntitone(acc, now - window + 1, t);
        assert CountGe(stored, now - window + 1) == CountGe(acc, now - window + 1);
      } else {
        assert InWindow(acc, t, window) <= max;
      }
    }
  }

  /** One event keeps `Tracks` and the bound. */
  lemma StepKeepsInvariant(hits: Hits, e: Event, max: int, window: int, key: string,
                           acc: seq<int>, c: int)
    requires window <= CleanupAge && c <= EventTime(e)
    requires Tracks(hits, key, acc, c, window) && WithinBound(acc, max, window)
    ensures Tracks(Next(hits, e, max, window), key, acc + AcceptedNow(hits, e, max, window, key), EventTime(e), window)
    ensures WithinBound(acc + AcceptedNow(hits, e, max, window, key), max, window)
  {
    var now := EventTime(e);
    if e.Call? {
      var r := RateLimit(hits, e.key, max, window, now);
      if r.0 && e.key == key {
        var stored := Times(hits, key);
        AcceptKeepsBound(acc, stored, max, window, c, now);
        forall x | x > now - window
          ensures CountGe(Times(r.1, key), x) == CountGe(acc + [now], x)
        {
          CountGeAppend(Recent(stored, now, window), [now], x);
          CountGeRecent(stored, now, window, x);
          CountGeAppend(acc, [now], x);
        }
        assert AcceptedNow(hits, e, max, window, key) == [now];
      } else {
        assert AcceptedNow(hits, e, max, window, key) == [];
        assert acc + [] == acc;
      }
    } else {
      forall x | x > now - window
        ensures CountGe(Times(Cleanup(hits, now), key), x) == CountGe(acc, x)
      {
        CountGeRecent(Times(hits, key), now, CleanupAge, x);
      }
      assert acc + [] == acc;
    }
  }

  lemma {:induction false} RunKeepsBound(hits: Hits, events: seq<Event>, max: int, window: int, key: string,
                                         acc: seq<int>, c: int)
    requires window <= CleanupAge && NonDecreasing(events)
    requires forall i :: 0 <= i < |events| ==> c <= EventTime(events[i])
    requires Tracks(hits, key, acc, c, window) && WithinBound(acc, max, window)
    ensures WithinBound(acc + Accepted(hits, events, max, window, key), max, window)
    decreases |events|
  {
    if |events| == 0 {
      assert acc + [] == acc;
    } else {
      var e := events[0];
      var now := EventTime(e);
      StepKeepsInvariant(hits, e, max, window, key, acc, c);
      TailFacts(events);
      var mine := AcceptedNow(hits, e, max, window, key);
      var tail := Accepted(Next(hits, e, max, window), events[1..], max, window, key);
      RunKeepsBound(Next(hits, e, max, window), events[1..], max, window, key, acc + mine, now);
      assert (acc + mine) + tail == acc + (mine + tail);
    }
  }

  /** The tail of a non-decreasing run is non-decreasing and starts no
      earlier than its head. */
  lemma TailFacts(events: seq<Event>)
    requires |events| > 0 && NonDecreasing(events)
    ensures NonDecreasing(events[1..])
    ensures forall i :: 0 <= i < |events| - 1 ==> EventTime(events[0]) <= EventTime(events[1..][i])
  {
    forall i | 0 <= i < |events| - 1 ensures EventTime(events[0]) <= EventTime(events[1..][i]) {
      assert events[1..][i] == events[i + 1];
    }
    forall i, j | 0 <= i < j < |events| - 1 ensures EventTime(events[1..][i]) <= EventTime(events[1..][j]) {
      assert events[1..][i] == events[i + 1] && events[1..][j] == events[j + 1];
    }
  }

  /** The limiter's promise: starting with no timestamps for `key`, under a
      clock that never goes backwards and with sweeps at any times, no
      interval of length `window` contains more than `max` accepted calls
      for `key`, provided the window is at most the sweep's two minutes. */
  lemma AtMostMaxPerWindow(hits: Hits, events: seq<Event>, max: int, window: int, key: string)
    requires Times(hits, key) == [] && 0 <= max && window <= CleanupAge
    requires NonDecreasing(events)
    ensures forall t :: InWindow(Accepted(hits, events, max, window, key), t, window) <= max
  {
    if |events| > 0 {
      var c := EventTime(events[0]);
      RunKeepsBound(hits, events, max, window, key, [], c);
      assert [] + Accepted(hits, events, max, window, key) == Accepted(hits, events, max, window, key);
    }
  }

  // ---------------------------------------------------------------------------
  // Client address

  /** `getClientIp`: the first comma-separated field of `x-forwarded-for`,
      trimmed, when that header is non-empty; else `x-real-ip`; else `unknown`. */
  function GetClientIp(forwardedFor: Option<string>, realIp: Option<string>): (r: string)
    ensures Truthy(forwardedFor) ==>
      && (forall k :: 0 <= k < |r| ==> r[k] != ',')
      && r == Trim(r)
      && (exists n :: 0 <= n <= |forwardedFor.value| && r == Trim(forwardedFor.value[..n])
                      && (n < |forwardedFor.value| ==> forwardedFor.value[n] == ','))
      && (!(',' in forwardedFor.value) ==> r == Trim(forwardedFor.value))
    ensures !Truthy(forwardedFor) && Truthy(realIp) ==> r == realIp.value
    ensures !Truthy(forwardedFor) && !Truthy(realIp) ==> r == "unknown"
  {
    if Truthy(forwardedFor) then
      var seg := FirstSegment(forwardedFor.value, {','});
      FirstFieldFacts(forwardedFor.value);
      Trim(seg)
    else Or(realIp, "unknown")
  }

  lemma FirstFieldFacts(s: string)
    ensures var seg := FirstSegment(s, {','});
      && (forall k :: 0 <= k < |Trim(seg)| ==> Trim(seg)[k] != ',')
      && Trim(seg) == Trim(Trim(seg))
      && seg == s[..|seg|]
      && (!(',' in s) ==> seg == s)
  {
    var seg := FirstSegment(s, {','});
    var r := Trim(seg);
    TrimIdempotent(seg);
    var i := LeadingSpaces(seg);
    forall k | 0 <= k < |r| ensures r[k] != ',' {
      assert r[k] == seg[i + k];
    }
    if |seg| < |s| {
      assert s[|seg|] == ',';
    }
  }
}

=== FILE: search.dfy ===
/**
  `GET /api/search` (app/api/search/route.ts): the rate limiter guards the
  endpoint, then the query is trimmed and checked for length. The full-text
  search itself (`searchArticles`) is not part of this model and is a
  function parameter.
 */
module Search {
  import opened Nullable
  import opened Text
  import RateLimit
  import Articles

  const MaxPerWindow: int := 30
  const WindowMs: int := 60_000
  const ResultLimit: int := 20

  datatype Request = Request(forwardedFor: Option<string>, realIp: Option<string>, q: Option<string>)

  datatype Response =
    | TooManyRequests                                        // 429
    | Found(articles: seq<Articles.Article>, total: int)     // 200 { articles, total }

  /** The limiter key of a request. */
  function Key(req: Request): (k: string)
    ensures StartsWith(k, "search:")
    ensures k[7..] == RateLimit.GetClientIp(req.forwardedFor, req.realIp)
  {
    "search:" + RateLimit.GetClientIp(req.forwardedFor, req.realIp)
  }

  /** `q?.trim()`. */
  function Query(req: Request): (r: Option<string>)
    ensures r.Some? <==> req.q.Some?
    ensures r.Some? ==> r.value == Trim(req.q.value) && Trim(r.value) == r.value
  {
    if req.q.Some? then TrimIdempotent(req.q.value); Some(Trim(req.q.value)) else None
  }

  /** Whether the trimmed query is long enough to search (two UTF-16 units). */
  function Searchable(req: Request): (b: bool)
    ensures b ==> req.q.Some? && |Trim(req.q.value)| >= 1
    ensures req.q.Some? && |Trim(req.q.value)| >= 2 ==> b
    ensures req.q.None? || Trim(req.q.value) == "" ==> !b
    ensures req.q.Some? ==> (b <==> Utf16Length(Trim(req.q.value)) >= 2)
    ensures req.q.Some? && |Trim(req.q.value)| == 1 ==> (b <==> Trim(req.q.value)[0] as int > 0xFFFF)
  {
    Truthy(Query(req)) && Utf16Length(Query(req).value) >= 2
  }

  /** The handler at time `now`; `search(q, limit)` stands for `searchArticles`. */
  function Get(hits: RateLimit.Hits, req: Request,
               search: (string, int) -> seq<Articles.Article>, now: int): (r: (Response, RateLimit.Hits))
    ensures var lim := RateLimit.RateLimit(hits, Key(req), MaxPerWindow, WindowMs, now);
      && (r.0.TooManyRequests? <==> !lim.0)
      && r.1 == lim.1
      && (!lim.0 ==> r.1 == hits)
    ensures r.0.Found? ==> r.0.total == |r.0.articles|
    ensures r.0.Found? && !Searchable(req) ==> r.0.articles == []
    ensures r.0.Found? && Searchable(req) ==> r.0.articles == search(Query(req).value, ResultLimit)
  {
    var lim := RateLimit.RateLimit(hits, Key(req), MaxPerWindow, WindowMs, now);
    if !lim.0 then (TooManyRequests, lim.1)
    else if !Searchable(req) then (Found([], 0), lim.1)
    else
      var found := search(Query(req).value, ResultLimit);
      (Found(found, |found|), lim.1)
  }

  /** A request the limiter lets through uses up one slot of its key, even
      when its query is too short to search. */
  lemma ShortQueryConsumesSlot(hits: RateLimit.Hits, req: Request,
                               search: (string, int) -> seq<Articles.Article>, now: int)
    requires !Searchable(req)
    requires |RateLimit.Recent(RateLimit.Times(hits, Key(req)), now, WindowMs)| < MaxPerWindow
    ensures var r := Get(hits, req, search, now);
      && r.0 == Found([], 0)
      && RateLimit.Times(r.1, Key(req)) == RateLimit.Recent(RateLimit.Times(hits, Key(req)), now, WindowMs) + [now]
  {
  }

  /** Over any run of requests and sweeps, a client gets at most 30 searches
      through in any minute. */
  lemma AtMost30PerMinute(hits: RateLimit.Hits, events: seq<RateLimit.Event>, req: Request)
    requires RateLimit.Times(hits, Key(req)) == [] && RateLimit.NonDecreasing(events)
    ensures forall t :: RateLimit.InWindow(RateLimit.Accepted(hits, events, MaxPerWindow, WindowMs, Key(req)), t, WindowMs) <= 30
  {
    RateLimit.AtMostMaxPerWindow(hits, events, MaxPerWindow, WindowMs, Key(req));
  }
}

=== FILE: sequences.dfy ===
/**
  Sequence operations the SQL queries are made of: `WHERE` (filter),
  `COUNT(*)` and `LIMIT ? OFFSET ?`, plus `Array.prototype.filter`.
 */
module Sequences {

  /** The elements of `s` that satisfy `p`, in their original order. */
  function Filter<T>(s: seq<T>, p: T -> bool): (r: seq<T>)
    ensures |r| <= |s|
    ensures forall k :: 0 <= k < |r| ==> p(r[k]) && r[k] in s
    ensures forall k :: 0 <= k < |s| && p(s[k]) ==> s[k] in r
    ensures multiset(r) <= multiset(s)
  {
    if |s| == 0 then []
    else
      assert s == [s[0]] + s[1..];
      (if p(s[0]) then [s[0]] else []) + Filter(s[1..], p)
  }

  /** Filtering a concatenation filters each part. */
  lemma {:induction false} FilterConcat<T>(a: seq<T>, b: seq<T>, p: T -> bool)
    ensures Filter(a + b, p) == Filter(a, p) + Filter(b, p)
  {
    if |a| == 0 {
      assert a + b == b;
    } else {
      assert (a + b)[1..] == a[1..] + b;
      FilterConcat(a[1..], b, p);
    }
  }

  /** A filter that keeps every element keeps the sequence. */
  lemma {:induction false} FilterAll<T>(s: seq<T>, p: T -> bool)
    requires forall k :: 0 <= k < |s| ==> p(s[k])
    ensures Filter(s, p) == s
  {
    if |s| > 0 {
      FilterAll(s[1..], p);
      assert s == [s[0]] + s[1..];
    }
  }

  /** The number of elements of `s` that satisfy `p`. */
  function Count<T>(s: seq<T>, p: T -> bool): (n: nat)
    ensures n <= |s|
  {
    if |s| == 0 then 0
    else (if p(s[0]) then 1 else 0) + Count(s[1..], p)
  }

  /** Counting is the length of the filtered sequence. */
  lemma {:induction false} CountIsFilterLength<T>(s: seq<T>, p: T -> bool)
    ensures Count(s, p) == |Filter(s, p)|
  {
    if |s| > 0 { CountIsFilterLength(s[1..], p); }
  }

  /** Counting one more element. */
  lemma {:induction false} CountSnoc<T>(s: seq<T>, a: T, p: T -> bool)
    ensures Count(s + [a], p) == Count(s, p) + (if p(a) then 1 else 0)
  {
    if |s| == 0 {
      assert s + [a] == [a];
    } else {
      assert (s + [a])[1..] == s[1..] + [a];
      CountSnoc(s[1..], a, p);
    }
  }

  /** Counts the elements that satisfy `p`, one pass from the front. */
  method CountWhere<T>(s: seq<T>, p: T -> bool) returns (n: nat)
    ensures n == Count(s, p)
  {
    n := 0;
    var i := 0;
    while i < |s|
      invariant 0 <= i <= |s|
      invariant n == Count(s[..i], p)
    {
      CountSnoc(s[..i], s[i], p);
      assert s[..i + 1] == s[..i] + [s[i]];
      if p(s[i]) {
        n := n + 1;
      }
      i := i + 1;
    }
    assert s[..i] == s;
  }

  /** Counting by a predicate a stronger one implies. */
  lemma {:induction false} CountMonotone<T>(s: seq<T>, p: T -> bool, q: T -> bool)
    requires forall k :: 0 <= k < |s| && p(s[k]) ==> q(s[k])
    ensures Count(s, p) <= Count(s, q)
  {
    if |s| > 0 { CountMonotone(s[1..], p, q); }
  }

  function Max(a: int, b: int): int { if a < b then b else a }
  function Min(a: int, b: int): int { if a < b then a else b }

  /** Number of rows `LIMIT limit OFFSET offset` keeps out of `n`; SQLite
      reads a negative limit as "no limit" and a negative offset as zero. */
  function PageLength(n: nat, limit: int, offset: int): (r: nat)
    ensures r <= n && (r == 0 || Max(0, offset) + r <= n)
    ensures offset >= n ==> r == 0
    ensures 0 <= limit && Max(0, offset) + limit <= n ==> r == limit
    ensures (limit < 0 || Max(0, offset) + limit > n) && offset <= n ==> Max(0, offset) + r == n
  {
    var rest := Max(0, n - Max(0, offset));
    if limit < 0 then rest else Min(limit, rest)
  }

  /** `LIMIT limit OFFSET offset` over `s`. */
  function Page<T>(s: seq<T>, limit: int, offset: int): (r: seq<T>)
    ensures |r| == PageLength(|s|, limit, offset)
    ensures forall k :: 0 <= k < |r| ==> r[k] == s[Max(0, offset) + k]
  {
    var start := if offset < 0 then 0 else if offset > |s| then |s| else offset;
    var rest := s[start..];
    if limit < 0 || limit >= |rest| then rest else rest[..limit]
  }
}

=== FILE: text.dfy ===
/**
  String primitives of the JavaScript runtime that the application's text
  handling is built from: `trim`, `startsWith`, `includes`, `split(re)[0]`,
  `slice`, `toLowerCase`, `replace` with a string pattern, and `length`
  counted in UTF-16 code units.

  Strings are sequences of Unicode scalar values.
 */
module Text {

  /** The code points JavaScript's `\s` matches and `trim()` removes
      (WhiteSpace and LineTerminator of ECMAScript). */
  predicate IsSpace(c: char) {
    || c == ' ' || c == '\t' || c == '\n' || c == '\r'
    || c == '\U{000B}' || c == '\U{000C}' || c == '\U{00A0}' || c == '\U{1680}'
    || ('\U{2000}' <= c <= '\U{200A}')
    || c == '\U{2028}' || c == '\U{2029}' || c == '\U{202F}' || c == '\U{205F}'
    || c == '\U{3000}' || c == '\U{FEFF}'
  }

  /** The code points after which a multiline `^` matches. */
  predicate IsLineTerminator(c: char) {
    c == '\n' || c == '\r' || c == '\U{2028}' || c == '\U{2029}'
  }

  lemma LineTerminatorIsSpace(c: char)
    requires IsLineTerminator(c)
    ensures IsSpace(c)
  {
  }

  /** Number of whitespace characters at the front of `s`. */
  function LeadingSpaces(s: string): (n: nat)
    ensures n <= |s|
    ensures forall k :: 0 <= k < n ==> IsSpace(s[k])
    ensures n < |s| ==> !IsSpace(s[n])
  {
    if |s| > 0 && IsSpace(s[0]) then LeadingSpaces(s[1..]) + 1 else 0
  }

  /** Number of whitespace characters at the end of `s`. */
  function TrailingSpaces(s: string): (n: nat)
    ensures n <= |s|
    ensures forall k :: |s| - n <= k < |s| ==> IsSpace(s[k])
    ensures n < |s| ==> !IsSpace(s[|s| - n - 1])
  {
    if |s| > 0 && IsSpace(s[|s| - 1]) then TrailingSpaces(s[..|s| - 1]) + 1 else 0
  }

  /** `r` is what is left of `s` once the whitespace before position `i` and
      after position `i + |r|` is removed, and `r` neither starts nor ends with
      whitespace. */
  predicate TrimmedFrom(r: string, s: string, i: nat) {
    && i + |r| <= |s|
    && r == s[i..i + |r|]
    && (forall k :: 0 <= k < i ==> IsSpace(s[k]))
    && (forall k :: i + |r| <= k < |s| ==> IsSpace(s[k]))
    && (|r| > 0 ==> !IsSpace(r[0]) && !IsSpace(r[|r| - 1]))
  }

  /** `String.prototype.trim`. */
  function Trim(s: string): (r: string)
    ensures TrimmedFrom(r, s, LeadingSpaces(s))
  {
    var a := LeadingSpaces(s);
    if a == |s| then ""
    else
      var b := TrailingSpaces(s);
      assert !IsSpace(s[a]);
      s[a..|s| - b]
  }

  /** There is only one way to trim a string: any decomposition of `s` into
      whitespace, a middle that neither starts nor ends with whitespace, and
      whitespace has `Trim(s)` as its middle. */
  lemma TrimUnique(s: string, r: string, i: nat)
    requires TrimmedFrom(r, s, i)
    ensures r == Trim(s)
  {
    var t := Trim(s);
    var j := LeadingSpaces(s);
    if |r| > 0 && |t| > 0 {
      assert s[i] == r[0] && s[j] == t[0];
      assert s[i + |r| - 1] == r[|r| - 1] && s[j + |t| - 1] == t[|t| - 1];
    } else if |r| == 0 {
      assert forall k :: 0 <= k < |s| ==> IsSpace(s[k]);
    } else {
      assert false;
    }
  }

  /** Trimming twice is trimming once. */
  lemma TrimIdempotent(s: string)
    ensures Trim(Trim(s)) == Trim(s)
  {
    var t := Trim(s);
    assert t[..0] == [];
    assert t[|t|..] == [];
    assert TrimmedFrom(t, t, 0);
    TrimUnique(t, t, 0);
  }

  /** `s.startsWith(p)`. */
  predicate StartsWith(s: string, p: string) {
    |p| <= |s| && s[..|p|] == p
  }

  /** `sub` occurs in `s` at position `i`. */
  predicate OccursAt(s: string, sub: string, i: int) {
    0 <= i && i + |sub| <= |s| && s[i..i + |sub|] == sub
  }

  /** `s.includes(sub)`. */
  predicate Contains(s: string, sub: string) {
    exists i :: 0 <= i <= |s| - |sub| && OccursAt(s, sub, i)
  }

  /** Index of the first occurrence of `sub` at or after `from`, if any. */
  function IndexOfFrom(s: string, sub: string, from: nat): (r: int)
    requires from <= |s|
    decreases |s| - from
    ensures r == -1 || (from <= r && OccursAt(s, sub, r))
    ensures r == -1 ==> forall i :: from <= i ==> !OccursAt(s, sub, i)
    ensures r != -1 ==> forall i :: from <= i < r ==> !OccursAt(s, sub, i)
  {
    if OccursAt(s, sub, from) then from
    else if from == |s| then -1
    else IndexOfFrom(s, sub, from + 1)
  }

  /** `s.indexOf(sub)`: the first position at which `sub` occurs, or -1. */
  function IndexOf(s: string, sub: string): (r: int)
    ensures r == -1 <==> !Contains(s, sub)
    ensures r != -1 ==> OccursAt(s, sub, r) && forall i :: 0 <= i < r ==> !OccursAt(s, sub, i)
  {
    IndexOfFrom(s, sub, 0)
  }

  /** Index of the first character of `s` that is in `stops`, or `|s|`. */
  function IndexOfAny(s: string, stops: set<char>): (n: nat)
    ensures n <= |s|
    ensures forall k :: 0 <= k < n ==> s[k] !in stops
    ensures n < |s| ==> s[n] in stops
  {
    if |s| == 0 || s[0] in stops then 0
    else IndexOfAny(s[1..], stops) + 1
  }

  /** `s.split(/[stops]/)[0]`: the text before the first character of `stops`. */
  function FirstSegment(s: string, stops: set<char>): (r: string)
    ensures StartsWith(s, r)
    ensures forall k :: 0 <= k < |r| ==> r[k] !in stops
    ensures |r| < |s| ==> s[|r|] in stops
  {
    s[..IndexOfAny(s, stops)]
  }

  /** `s.slice(0, n)` for `n >= 0`. */
  function Take(s: string, n: nat): (r: string)
    ensures |r| == if n < |s| then n else |s|
    ensures StartsWith(s, r)
  {
    if n < |s| then s[..n] else s
  }

  /** Lower-casing of the ASCII letters. */
  function AsciiLower(c: char): (r: char)
    ensures 'A' <= c <= 'Z' ==> r as int == c as int + 32
    ensures !('A' <= c <= 'Z') ==> r == c
  {
    if 'A' <= c <= 'Z' then (c as int + 32) as char else c
  }

  function Lower(s: string): (r: string)
    ensures |r| == |s|
    ensures forall k :: 0 <= k < |s| ==> r[k] == AsciiLower(s[k])
  {
    if |s| == 0 then "" else [AsciiLower(s[0])] + Lower(s[1..])
  }

  /** `s.length`: the number of UTF-16 code units, two for every code point
      outside the Basic Multilingual Plane. */
  function Utf16Length(s: string): (n: nat)
    ensures |s| <= n <= 2 * |s|
    ensures (forall k :: 0 <= k < |s| ==> s[k] as int <= 0xFFFF) ==> n == |s|
    ensures |s| == 1 ==> (n == 2 <==> s[0] as int > 0xFFFF)
  {
    if |s| == 0 then 0
    else (if s[0] as int > 0xFFFF then 2 else 1) + Utf16Length(s[1..])
  }

  /** `s.replace(pat, rep)` with a string pattern: only the first occurrence
      is replaced. */
  function ReplaceFirst(s: string, pat: string, rep: string): (r: string)
    ensures !Contains(s, pat) ==> r == s
    ensures Contains(s, pat) ==>
      var i := IndexOf(s, pat);
      r == s[..i] + rep + s[i + |pat|..]
  {
    var i := IndexOf(s, pat);
    if i == -1 then s else s[..i] + rep + s[i + |pat|..]
  }

  /** A string pattern found at the start is the one `replace` replaces. */
  lemma StripPrefix(s: string, pat: string, rep: string)
    requires StartsWith(s, pat)
    ensures ReplaceFirst(s, pat, rep) == rep + s[|pat|..]
  {
    assert OccursAt(s, pat, 0);
  }

  /** The result of a single-character substitution `c -> rep` over `s`,
      applied everywhere (`s.replace(/c/g, rep)`). */
  function ReplaceChar(s: string, c: char, rep: string): (r: string)
    ensures c !in s ==> r == s
  {
    if |s| == 0 then ""
    else (if s[0] == c then rep else [s[0]]) + ReplaceChar(s[1..], c, rep)
  }

  lemma ReplaceCharConcat(a: string, b: string, c: char, rep: string)
    ensures ReplaceChar(a + b, c, rep) == ReplaceChar(a, c, rep) + ReplaceChar(b, c, rep)
  {
    if |a| > 0 {
      assert (a + b)[1..] == a[1..] + b;
      ReplaceCharConcat(a[1..], b, c, rep);
    } else {
      assert a + b == b;
    }
  }
}

=== FILE: xml.dfy ===
/**
  XML entity escaping as the RSS feed (app/feed.xml/route.ts) and the news
  sitemap (app/news-sitemap.xml/route.ts) write it: a chain of global
  single-character replacements, `&` first. The feed escapes five
  characters, the sitemap four (it leaves the apostrophe).

  Each chain is proved equal to a character-by-character escape, and
  decoding the five predefined XML entities undoes either.
 */
module Xml {
  import opened Nullable
  import opened Text

  /** The feed's `escapeXml`, as written: five passes, `&` first. */
  function FeedEscape(s: string): string {
    var a := ReplaceChar(s, '&', "&amp;");
    var b := ReplaceChar(a, '<', "&lt;");
    var c := ReplaceChar(b, '>', "&gt;");
    var d := ReplaceChar(c, '"', "&quot;");
    ReplaceChar(d, '\'', "&apos;")
  }

  /** The sitemap's `escapeXml`, as written: `(str || '')`, then four
      passes, `&` first. */
  function SitemapEscape(s: Option<string>): string {
    var a := ReplaceChar(OrEmpty(s), '&', "&amp;");
    var b := ReplaceChar(a, '<', "&lt;");
    var c := ReplaceChar(b, '>', "&gt;");
    ReplaceChar(c, '"', "&quot;")
  }

  /** What one character becomes in the feed. */
  function FeedEntity(c: char): string {
    if c == '&' then "&amp;"
    else if c == '<' then "&lt;"
    else if c == '>' then "&gt;"
    else if c == '"' then "&quot;"
    else if c == '\'' then "&apos;"
    else [c]
  }

  /** What one character becomes in the sitemap. */
  function SitemapEntity(c: char): string {
    if c == '\'' then [c] else FeedEntity(c)
  }

  /** Escaping one character at a time. */
  function EscapeEach(s: string, apostrophe: bool): string {
    if |s| == 0 then ""
    else Entity(s[0], apostrophe) + EscapeEach(s[1..], apostrophe)
  }

  lemma FeedEscapeConcat(x: string, y: string)
    ensures FeedEscape(x + y) == FeedEscape(x) + FeedEscape(y)
  {
    var a1, a2 := ReplaceChar(x, '&', "&amp;"), ReplaceChar(y, '&', "&amp;");
    ReplaceCharConcat(x, y, '&', "&amp;");
    var b1, b2 := ReplaceChar(a1, '<', "&lt;"), ReplaceChar(a2, '<', "&lt;");
    ReplaceCharConcat(a1, a2, '<', "&lt;");
    var c1, c2 := ReplaceChar(b1, '>', "&gt;"), ReplaceChar(b2, '>', "&gt;");
    ReplaceCharConcat(b1, b2, '>', "&gt;");
    var d1, d2 := ReplaceChar(c1, '"', "&quot;"), ReplaceChar(c2, '"', "&quot;");
    ReplaceCharConcat(c1, c2, '"', "&quot;");
    ReplaceCharConcat(d1, d2, '\'', "&apos;");
  }

  lemma SitemapEscapeConcat(x: string, y: string)
    ensures SitemapEscape(Some(x + y)) == SitemapEscape(Some(x)) + SitemapEscape(Some(y))
  {
    var a1, a2 := ReplaceChar(x, '&', "&amp;"), ReplaceChar(y, '&', "&amp;");
    ReplaceCharConcat(x, y, '&', "&amp;");
    var b1, b2 := ReplaceChar(a1, '<', "&lt;"), ReplaceChar(a2, '<', "&lt;");
    ReplaceCharConcat(a1, a2, '<', "&lt;");
    var c1, c2 := ReplaceChar(b1, '>', "&gt;"), ReplaceChar(b2, '>', "&gt;");
    ReplaceCharConcat(b1, b2, '>', "&gt;");
    ReplaceCharConcat(c1, c2, '"', "&quot;");
  }

  lemma FeedEscapeChar(c: char)
    ensures FeedEscape([c]) == FeedEntity(c)
  {
    assert '<' !in "&amp;" && '>' !in "&amp;" && '"' !in "&amp;" && '\'' !in "&amp;";
    assert '>' !in "&lt;" && '"' !in "&lt;" && '\'' !in "&lt;";
    assert '"' !in "&gt;" && '\'' !in "&gt;";
    assert '\'' !in "&quot;";
  }

  lemma SitemapEscapeChar(c: char)
    ensures SitemapEscape(Some([c])) == SitemapEntity(c)
  {
    assert '<' !in "&amp;" && '>' !in "&amp;" && '"' !in "&amp;";
    assert '>' !in "&lt;" && '"' !in "&lt;";
    assert '"' !in "&gt;";
  }

  /** The feed's five passes escape each character independently: since `&`
      goes first, no later pass touches an entity an earlier one wrote. */
  lemma {:induction false} FeedEscapeIsPerChar(s: string)
    ensures FeedEscape(s) == EscapeEach(s, true)
  {
    if |s| > 0 {
      assert s == [s[0]] + s[1..];
      FeedEscapeConcat([s[0]], s[1..]);
      FeedEscapeChar(s[0]);
      FeedEscapeIsPerChar(s[1..]);
    }
  }

  /** The same for the sitemap's four passes. */
  lemma {:induction false} SitemapEscapeIsPerChar(s: string)
    ensures SitemapEscape(Some(s)) == EscapeEach(s, false)
  {
    if |s| > 0 {
      assert s == [s[0]] + s[1..];
      SitemapEscapeConcat([s[0]], s[1..]);
      SitemapEscapeChar(s[0]);
      SitemapEscapeIsPerChar(s[1..]);
    }
  }

  /** Decoding of the five predefined XML entities; any other `&` is kept. */
  function Decode(s: string): string {
    if |s| == 0 then ""
    else if StartsWith(s, "&amp;") then "&" + Decode(s[5..])
    else if StartsWith(s, "&lt;") then "<" + Decode(s[4..])
    else if StartsWith(s, "&gt;") then ">" + Decode(s[4..])
    else if StartsWith(s, "&quot;") then "\"" + Decode(s[6..])
    else if StartsWith(s, "&apos;") then "'" + Decode(s[6..])
    else [s[0]] + Decode(s[1..])
  }

  /** The escape of `c` is the five entities' business only: `c` itself
      when it is not special, otherwise an entity. */
  function Entity(c: char, apostrophe: bool): string {
    if apostrophe then FeedEntity(c) else SitemapEntity(c)
  }

  lemma DecodeEntity(c: char, rest: string, apostrophe: bool)
    ensures Decode(Entity(c, apostrophe) + rest) == [c] + Decode(rest)
  {
    if c == '&' {
      DecodeAfter("&amp;", rest);
    } else if c == '<' {
      DecodeAfter("&lt;", rest);
    } else if c == '>' {
      DecodeAfter("&gt;", rest);
    } else if c == '"' {
      DecodeAfter("&quot;", rest);
    } else if c == '\'' && apostrophe {
      DecodeAfter("&apos;", rest);
    } else {
      assert Entity(c, apostrophe) == [c];
      DecodePlain(c, rest);
    }
  }

  /** A character that starts no entity decodes to itself. */
  lemma DecodePlain(c: char, rest: string)
    requires c != '&'
    ensures Decode([c] + rest) == [c] + Decode(rest)
  {
    var s := [c] + rest;
    assert s[0] == c && s[1..] == rest;
    DifferentFront(s, "&amp;");
    DifferentFront(s, "&lt;");
    DifferentFront(s, "&gt;");
    DifferentFront(s, "&quot;");
    DifferentFront(s, "&apos;");
  }

  /** A text cannot start with a prefix whose first character differs. */
  lemma DifferentFront(s: string, p: string)
    requires |s| > 0 && |p| > 0 && s[0] != p[0]
    ensures !StartsWith(s, p)
  {
    if |p| <= |s| {
      assert s[..|p|][0] == s[0];
    }
  }

  /** An entity at the front decodes to its character. */
  lemma DecodeAfter(e: string, rest: string)
    requires e in ["&amp;", "&lt;", "&gt;", "&quot;", "&apos;"]
    ensures Decode(e + rest) == [DecodedChar(e)] + Decode(rest)
  {
    var s := e + rest;
    assert s[..|e|] == e && s[|e|..] == rest;
    assert s[1] == e[1] && s[2] == e[2];
  }

  function DecodedChar(e: string): char {
    if e == "&amp;" then '&'
    else if e == "&lt;" then '<'
    else if e == "&gt;" then '>'
    else if e == "&quot;" then '"'
    else '\''
  }

  /** What is in the escape of one character. */
  lemma EntityChars(c: char, apostrophe: bool)
    ensures var e := Entity(c, apostrophe);
      && (forall i :: 0 <= i < |e| ==> e[i] != '<' && e[i] != '>' && e[i] != '"')
      && (apostrophe ==> forall i :: 0 <= i < |e| ==> e[i] != '\'')
      && (forall i :: 0 <= i < |e| && e[i] == '&' ==>
            i == 0 && (e == "&amp;" || e == "&lt;" || e == "&gt;" || e == "&quot;" || e == "&apos;"))
  {
  }

  /** Decoding undoes escaping, for either escape. */
  lemma {:induction false} DecodeEscapeEach(s: string, apostrophe: bool)
    ensures Decode(EscapeEach(s, apostrophe)) == s
  {
    if |s| > 0 {
      DecodeEntity(s[0], EscapeEach(s[1..], apostrophe), apostrophe);
      DecodeEscapeEach(s[1..], apostrophe);
      assert s == [s[0]] + s[1..];
    }
  }

  lemma FeedRoundTrip(s: string)
    ensures Decode(FeedEscape(s)) == s
  {
    FeedEscapeIsPerChar(s);
    DecodeEscapeEach(s, true);
  }

  lemma SitemapRoundTrip(s: string)
    ensures Decode(SitemapEscape(Some(s))) == s
  {
    SitemapEscapeIsPerChar(s);
    DecodeEscapeEach(s, false);
  }

  /** An entity the escapes write begins at position `i`. */
  predicate EntityAt(s: string, i: int) {
    || OccursAt(s, "&amp;", i) || OccursAt(s, "&lt;", i) || OccursAt(s, "&gt;", i)
    || OccursAt(s, "&quot;", i) || OccursAt(s, "&apos;", i)
  }

  lemma EntityAtShift(a: string, b: string, i: int)
    requires EntityAt(b, i)
    ensures EntityAt(a + b, |a| + i)
  {
    var s := a + b;
    forall e: string | |e| <= 6 && OccursAt(b, e, i) ensures OccursAt(s, e, |a| + i) {
      assert s[|a| + i..|a| + i + |e|] == b[i..i + |e|];
    }
  }

  /** None of the escaped characters is left in `r`, and every `&` in it
      begins an entity. */
  predicate Escaped(r: string, apostrophe: bool) {
    && (forall i :: 0 <= i < |r| ==> r[i] != '<' && r[i] != '>' && r[i] != '"')
    && (apostrophe ==> forall i :: 0 <= i < |r| ==> r[i] != '\'')
    && (forall i :: 0 <= i < |r| && r[i] == '&' ==> EntityAt(r, i))
  }

  /** Per-character escaping produces escaped text. */
  lemma {:induction false} EscapeEachIsSafe(s: string, apostrophe: bool)
    ensures Escaped(EscapeEach(s, apostrophe), apostrophe)
  {
    if |s| > 0 {
      var e := Entity(s[0], apostrophe);
      var rest := EscapeEach(s[1..], apostrophe);
      EscapeEachIsSafe(s[1..], apostrophe);
      EntityChars(s[0], apostrophe);
      var r := e + rest;
      assert r == EscapeEach(s, apostrophe);
      forall i | 0 <= i < |r| && r[i] == '&' ensures EntityAt(r, i) {
        if i < |e| {
          assert r[i] == e[i];
          assert i == 0 && r[..|e|] == e;
        } else {
          assert r[i] == rest[i - |e|];
          EntityAtShift(e, rest, i - |e|);
        }
      }
      forall i | 0 <= i < |r| ensures r[i] != '<' && r[i] != '>' && r[i] != '"' && (apostrophe ==> r[i] != '\'') {
        if i >= |e| { assert r[i] == rest[i - |e|]; } else { assert r[i] == e[i]; }
      }
    }
  }

  /** The feed's escape leaves none of `< > " '`, and every `&` in its output
      begins one of the five entities. */
  lemma FeedEscapeIsSafe(s: string)
    ensures var r := FeedEscape(s);
      && (forall i :: 0 <= i < |r| ==> r[i] !in "<>\"'")
      && (forall i :: 0 <= i < |r| && r[i] == '&' ==> EntityAt(r, i))
  {
    FeedEscapeIsPerChar(s);
    EscapeEachIsSafe(s, true);
  }

  /** The sitemap's escape leaves none of `< > "`; apostrophes stay. */
  lemma SitemapEscapeIsSafe(s: Option<string>)
    ensures var r := SitemapEscape(s);
      && (forall i :: 0 <= i < |r| ==> r[i] !in "<>\"")
      && (forall i :: 0 <= i < |r| && r[i] == '&' ==> EntityAt(r, i))
    ensures s.None? ==> SitemapEscape(s) == ""
    ensures SitemapEscape(Some("'")) == "'"
  {
    SitemapEscapeIsPerChar(OrEmpty(s));
    EscapeEachIsSafe(OrEmpty(s), false);
    SitemapEscapeChar('\'');
  }
}
